=== FILE: README.md ===
# Trust scoring and aggregation of the Movefwd resource directory

A Dafny model of the server-side core of Movefwd, a directory of social-service
resources (food, housing, health, legal, employment, education). The model
follows a resource from the sources it comes from to the card the client shows:

- **Normalizer and connectors.** Raw NYC 311 records become canonical external
  services, then partial resources, then validated resources. The steps infer
  categories from keywords, normalise phone numbers to E.164 and parse list
  fields. The connector base class gates each request on per-day and
  per-minute quotas, and the NYC 311 connector pages through the API,
  including the full sync.
- **Repository.** Pages of local resources, with trust metadata taken from
  two side tables and the last row per resource winning.
- **Mappers.** The card of a resource: availability, freshness, verification
  badge, source label and confidence score. Each comes from the precomputed
  trust field when present and is derived otherwise.
- **Listing.** The cached listing: source selection with the NYC 311
  fallback, the client-side filters, the freshness and source-mix summaries,
  and the canonical cache key.
- **Detail.** The three nearest eligible alternatives of a resource.
- **Request side.** The query-string schema, the invalidation-request schema,
  the fixed-window rate limiter, the outbound-URL allow-list, the card view
  model, the "verified N days ago" caption and the "any filter active" test.

Everything the code reads from outside is a parameter. The clock is a `Clock`
(now in ms and ISO form, the next local midnight, and the date parser). The
HTTP transport, the database query, the trust-table lookup, the Haversine
distance and `Number()` parsing are functions passed in. `ListResources.World`
bundles them, with the clock reading at which a freshly produced listing is
cached. The memory cache is a `map` threaded through the calls.

JavaScript semantics are written out where they matter. `x || y` treats an
empty string and a zero coordinate as absent (`Text.Truthy`, `Text.OrNull`).
`??` keeps both (`OrElse`). `null` and `undefined` are both `None`.
`Array.prototype.sort()` without a comparator compares UTF-16 code units; the
model compares characters (`Text.LexLt`), which is the same order for strings
without characters above U+FFFF.

Behaviour of the code a reader may not expect, which the model follows:

- A verified resource whose `source` is null gets the badge `unverified`, since
  the partner badge needs the source to be exactly `local`
  (`Mappers.VerifiedNullSourceCard`).
- The confidence formula is not clamped for a verification time in the
  future: before rounding, the score is then above the base
  (`Mappers.FutureVerificationExceedsBase`). Rounding to two decimals hides
  this for times less than about 1.7 hours ahead.
- An unparseable verification time gives `NaN`, not null.
- A present but blank `search` parameter fails validation; it is not ignored
  (`Schemas.BlankSearchRejected`).
- `maxRequests = 0` still admits one request per window, because a new window
  always admits.
- Days 360 to 364 read "12 months ago" (`DateFormat.TwelveMonthsBeforeAYear`).
- Allowed hosts are compared as given; only the URL's host is lower-cased.
- Only four host names are refused outright (`localhost`, `127.0.0.1`,
  `0.0.0.0`, `::1`), not every loopback address: `127.0.0.2` passes when the
  allow-list names it (`UrlSafety.OtherLoopbackAddressAccepted`). A parsed
  URL's host keeps the brackets of an IPv6 address, so `::1` never matches,
  and `http://[::1]/` passes when the list names `[::1]`
  (`UrlSafety.BracketedIpv6LoopbackAccepted`).
- A cache-invalidation request whose `key` is JSON `null` is rejected; only a
  missing key defaults to `resources` (`Schemas.ParseInvalidate`).
- The connector's minute counter restarts only after a gap of a minute
  between checks, so steady traffic never clears it
  (`Connector.MinuteCounterNeverResetsUnderFrequentChecks`).

## Model

| member | source | states |
|---|---|---|
| Mappers.InferAvailabilityStatus | modules/resources/domain/mappers.ts:7-15 | Exactly one status, and which one holds is characterised both ways. Waitlist when the lower-cased name, description and schedule mention it. Otherwise full on "full" or "no vacancy", otherwise limited. Otherwise the verified flag picks open or unknown. |
| Mappers.ComputeFreshnessState | modules/resources/domain/mappers.ts:17-26 | Unknown exactly when the timestamp is absent, empty or unparseable. Fresh exactly when at most 24 hours old (a future time included). Aging exactly between 24 and 72 hours. Stale exactly past 72 hours. |
| Mappers.FreshnessMonotone | modules/resources/domain/mappers.ts:17-26 | As the clock advances over one parseable timestamp, the state only moves from fresh through aging to stale, never back. |
| Mappers.DataSourceLabel | modules/resources/domain/mappers.ts:28-32 | A null, empty or `local` source is the partner directory. `nyc311` is NYC 311 open data. Any other source is its upper-cased id. |
| Mappers.VerificationBadge | modules/resources/domain/mappers.ts:34-39 | Each badge as an if-and-only-if. Verified partner: verified with source exactly `local`. Verified API: verified with a non-empty other source. Community: unverified from `community`. Unverified: every remaining case, including verified with a null source. |
| Mappers.ConfidenceScore | modules/resources/domain/mappers.ts:41-47 | Null exactly without a verification time. NaN for an unparseable one. Between 0.2 and the base (0.95 verified, 0.5 not) for a past time. Never below 0.35 when verified. |
| Mappers.ConfidenceNonIncreasing | modules/resources/domain/mappers.ts:41-47 | The score never rises as the verification ages, and it is constant once the age reaches 14 days. |
| Mappers.FutureVerificationExceedsBase | modules/resources/domain/mappers.ts:43-46 | A verification time in the future yields an unrounded score strictly above the base (rounding is left out, see below). |
| Mappers.ToResourceCardDTO | modules/resources/domain/mappers.ts:49-84 | Every copied field equals the resource's. The confirmation time falls back to the verification time. The confirmation source falls back to the source, then `local`. Each trust field is the precomputed value when present, else the derived one. |
| Mappers.VerifiedNullSourceCard | modules/resources/domain/mappers.ts:35-38 | A verified resource with a null source, verified just now, is fresh with confidence 0.95 and labelled the partner directory, yet its badge is `unverified`. |
| Cache.GetFromCache | lib/api/cache.ts:20-44 | A read returns the data exactly when the entry is within its fresh or its stale window. A read past both windows evicts the entry. No other entry changes. |
| Cache.SetCache | lib/api/cache.ts:49-59 | The entry holds the data, expires `ttlSeconds` later, and is stale-servable until a day after the write only for TTLs under a day. Other entries are unchanged. |
| Cache.SetThenGetFresh | lib/api/cache.ts:20-59 | Inside the TTL a stored value reads back unchanged. |
| Cache.SetThenGetStale | lib/api/cache.ts:20-59 | After the TTL but within a day, the stale value is still served and kept. |
| Cache.SetThenGetExpired | lib/api/cache.ts:20-59 | Once both windows have passed, the read misses and removes the entry. |
| Cache.DeleteFromCache | lib/api/cache.ts:64-66 | Reports whether the key was present. Afterwards it is absent and nothing else changed. |
| Cache.InvalidateCache | lib/api/cache.ts:71-83 | Removes exactly the keys the pattern matches, keeps all others unchanged, and returns how many were removed. |
| Cache.ClearCache | lib/api/cache.ts:88-90 | Leaves no entry. |
| Cache.GetCacheStats | lib/api/cache.ts:95-109 | The size is the number of entries. The keys are exactly those whose TTL has not passed. |
| Cache.CleanupCache | lib/api/cache.ts:114-126 | Removes exactly the entries a read would no longer serve, keeps the rest unchanged, and returns how many it removed. |
| Cache.GetCachedOrFetch | lib/api/cache.ts:133-152 | A hit returns the stored data marked cached and leaves the store alone. A miss runs the producer and stores its result under the TTL, counted from the clock reading taken after the producer finished, marked not cached. A producer failure propagates and stores nothing. |
| Cache.WarmCacheHit | lib/api/cache.ts:133-152 | A second call within the TTL of the first one's store returns what the first stored, as a hit, whatever its own producer would return. |
| Cache.DefinedPairsDistinct | lib/api/cache.ts:187-189 | Dropping the undefined parameters keeps the parameter names distinct. |
| Cache.SortByName | lib/api/cache.ts:187-189 | The result has the input's length, elements and names, and is strictly increasing by name when the names are distinct. |
| Cache.SortedUnique | lib/api/cache.ts:187-189 | Two name-sorted sequences with the same elements are equal, so the sorted order is canonical. |
| Cache.GenerateCacheKey | lib/api/cache.ts:183-194 | The key is the prefix alone when no parameter is defined. Otherwise it starts with the prefix and `?`, and every defined pair appears in it as `name=value`. |
| Cache.CacheKeyCanonical | lib/api/cache.ts:183-194 | Two parameter lists with the same set of defined (name, value) pairs give the same key, whatever their order and however many undefined parameters they hold. |
| Cache.CacheKeyDeterminesPairs | lib/api/cache.ts:183-194 | The converse: when no defined name or value holds `&` or `=`, two parameter lists with the same key define the same set of (name, value) pairs, so different filters never share an entry. |
| Normalizer.InferCategories | lib/api/normalizer.ts:84-171 | Never empty. A category is in the result exactly when one of its keywords occurs in the lower-cased name and description, and results are in the fixed category order. With no keyword at all the result is food alone. |
| Normalizer.MatchedCategoriesFacts | lib/api/normalizer.ts:85-163 | The matched categories are exactly the categories with a keyword in the text, in category order. |
| Normalizer.NameKeywordCategory | lib/api/normalizer.ts:85-163 | A keyword in the name alone puts the category in the result, whatever the description says. |
| Normalizer.NoKeywordIsFood | lib/api/normalizer.ts:165-168 | A text with no keyword of any category is filed under food alone. |
| Normalizer.NormalizePhoneNumber | lib/api/normalizer.ts:176-194 | Null exactly for an absent or empty number. Ten digits give `+1` and the digits. Eleven digits starting with 1 give `+` and the digits. Anything else is returned as given. |
| Normalizer.E164Fixed | lib/api/normalizer.ts:176-194 | A number already in US E.164 form is left unchanged. |
| Normalizer.NormalizePhoneIdempotent | lib/api/normalizer.ts:176-194 | Normalising a normalised number changes nothing. |
| Normalizer.ParseListField | lib/api/normalizer.ts:199-206 | Empty for an absent or empty field. Otherwise every item is non-empty, trimmed, free of `,` and `\|`, and a factor of the field. |
| Normalizer.ParseListFieldRoundTrip | lib/api/normalizer.ts:199-206 | Any list of non-empty, trimmed items free of `,` and `\|`, joined with commas, parses back to the same list (the empty list included). |
| Normalizer.ParseListFieldSingle | lib/api/normalizer.ts:199-206 | A field holding one trimmed item without separators parses to that item. |
| Normalizer.ParseAccessibility | lib/api/normalizer.ts:211-240 | A tag is in the result exactly when one of its keywords occurs in the lower-cased field. The tags come in the fixed order wheelchair, ramp, elevator, sign language, braille, visual, hearing, so each at most once. An absent or empty field gives nothing. |
| Normalizer.GenerateSourceId | lib/api/normalizer.ts:245-247 | The id starts with the source and a colon, and is exactly one character longer than source and external id together. |
| Normalizer.SourceIdRoundTrip | lib/api/normalizer.ts:245-247 | For a source without a colon, splitting `source:externalId` at its first colon recovers the source and the external id. |
| Normalizer.NormalizeExternalService | lib/api/normalizer.ts:13-44 | The unique id, source and name are kept. Description, agency, address, city, zip, website, email, eligibility, fees, hours and service area are each the raw value, or null when empty or absent. Each coordinate is the raw value, or null when zero or absent. A missing state becomes NY. The phone is normalised, and languages and accessibility are parsed. The phone type is voice, there are no interpretation services, the data-source URL is the website, and the verification time is the current time. |
| Normalizer.ToResource | lib/api/normalizer.ts:49-79 | Marked verified with categories inferred from name and description. The service area doubles as the application guide. The source and source id are kept, and there is no id or timestamp. Every other field, `lastVerifiedAt` included, is copied unchanged; the lists become present values. |
| Normalizer.ValidateResource | lib/api/normalizer.ts:252-291 | Rejects exactly the partial resources without a name or a state. Otherwise name and state are kept, and the id is the given one or empty. Every optional string is the given value, or null when empty or absent. Each coordinate is the given value, or null when zero or absent. The lists are kept. Categories default to food, the verified flag to false and the timestamps to now. |
| Normalizer.ValidateIdempotent | lib/api/normalizer.ts:252-291 | A validated resource, stamped with a non-empty time, validates to itself at any later time. |
| Normalizer.ExternalPipelineAccepts | lib/api/normalizer.ts:13-79 | A raw record survives normalisation and validation exactly when it has a service name. It then comes out verified, with at least one category, its service area as the application guide and its unique id as the source id. Its description, eligibility, hours, service area, agency, address, city, zip, coordinates, website (also the data-source URL), email and fees are the raw values, with empty or zero values as null. Its phone is the normalised raw phone, its languages and accessibility tags the parsed raw lists, and it was last verified at the normalisation time. |
| Connector.UpdateRateLimitState | lib/api/211Connector.ts:60-75 | Past the reset time the day counter restarts and the reset moves to the next midnight. A minute or more after the last check the minute counter restarts. Otherwise both are kept, and the check becomes the last one. |
| Connector.UpdateIdempotent | lib/api/211Connector.ts:60-75 | Two checks at the same instant equal one. |
| Connector.MinuteCounterNeverResetsUnderFrequentChecks | lib/api/211Connector.ts:69-74 | While checks come less than a minute apart, the minute counter never restarts, however long the sequence lasts. |
| Connector.CanMakeRequest | lib/api/211Connector.ts:46-55 | Runs the check, and admits exactly when both counters it leaves are below their quotas. |
| Connector.RecordRequest | lib/api/211Connector.ts:80-83 | Both counters go up by exactly one; the times are unchanged. |
| Connector.MakeRequest | lib/api/211Connector.ts:114-154 | Over quota it fails with the rate-limit message and counts nothing. Otherwise it sends and counts the request once the transport has answered, even for an error status. Success carries the body, and every failure carries a non-empty message. |
| Connector.MakeRequestKeepsQuota | lib/api/211Connector.ts:46-83 | A request never pushes a counter past its quota. |
| Connector.RequestCountedIffSent | lib/api/211Connector.ts:114-135 | The counters go up exactly when the request was admitted and the transport answered. |
| Connector.NewConnector | lib/api/211Connector.ts:25-34 | A new connector keeps its source and quotas. Both counters start at zero, the last check is now, and the day ends at the next midnight. |
| Connector.NewConnectorAdmits | lib/api/211Connector.ts:25-34 | A new connector with positive quotas is within quota and admits its first request. |
| Connector.QueryParams | lib/api/211Connector.ts:159-168 | A parameter is sent exactly when its filter is truthy, and its value is the filter's text. This covers search, city, zip, category and state, plus a non-zero limit or offset. |
| Connector.BuildQueryString | lib/api/211Connector.ts:159-172 | Empty exactly when no filter is truthy. Otherwise it starts with `?`, and every sent filter appears in it as `name=value`. |
| Connector.ZeroPagingOmitted | lib/api/211Connector.ts:167-168 | A zero limit or offset produces the same query as none. |
| Connector.NormalizePhoneAgrees | lib/api/211Connector.ts:177-194 | The connector's phone normalisation equals the normalizer's on every input. |
| Connector.ParseListFieldAgrees | lib/api/211Connector.ts:199-205 | The connector's list parsing equals the normalizer's on every input. |
| Connector.CreateConnector | lib/api/211Connector.ts:219-233 | A connector exactly for `nyc311`: a new one with the NYC quotas of 10000 a day and 100 a minute. |
| Connector.GetRateLimitStatus | lib/api/211Connector.ts:210-213 | Runs the check, then returns a copy of the counters, with the last check at now. |
| Nyc311.EffectiveLimit | lib/api/nyc311.ts:45-52 | The page size is the smaller of the requested limit (50 when absent) and 100. |
| Nyc311.ServicesQuery | lib/api/nyc311.ts:45-53 | `keyword` is sent exactly when the search is truthy and carries it; likewise `borough` for the city and `zip` for the zip. Nothing else comes first. `$limit` and `$offset` always come last, the offset 0 when absent. |
| Nyc311.CategoryAndStateNotSent | lib/api/nyc311.ts:45-53 | The category and state filters leave the query unchanged. |
| Nyc311.FetchServices | lib/api/nyc311.ts:44-84 | Fails exactly when the gated request fails or returns a null body. The failure carries the request's error when non-empty, else "Failed to fetch NYC 311 services". Otherwise each raw record is normalised in order. The connector's counters are those the request left. |
| Nyc311.SyncAll | lib/api/nyc311.ts:122-167 | Pages from offset 0 in steps of 100 until a page fails (one error logged) or comes back short. The result equals the page-by-page recursion `SyncFrom`. Success exactly when no error was logged; `updated` is always 0. |
| ExternalSources.FetchFromExternalSource | modules/resources/infrastructure/externalSources.ts:6-28 | Nothing for a source other than `nyc311` or a failed page. Otherwise one resource per record in order, each verified, with an `ext-` id and no trust fields. |
| ExternalSources.ExternalIdsFromRecords | modules/resources/infrastructure/externalSources.ts:19-27 | When the API answers with records, the i-th resource has id `ext-nyc311-` plus the record's unique id and the record's service name. |
| Repository.IndexBy | modules/resources/infrastructure/resourceRepository.ts:39-45 | A key is present exactly when some row has it, and it maps to the last such row. |
| Repository.MergeTrust | modules/resources/infrastructure/resourceRepository.ts:47-60 | Each of the seven trust fields takes the row's non-null value and otherwise keeps the resource's own. Every non-trust field is unchanged. |
| Repository.MergeIdempotent | modules/resources/infrastructure/resourceRepository.ts:47-60 | Merging the same rows twice equals merging once. |
| Repository.AttachTrustMetadata | modules/resources/infrastructure/resourceRepository.ts:20-62 | Empty input, or an error from either table, returns the input unchanged. Otherwise each resource is merged with its rows. Length, order and every non-trust field are preserved. |
| Repository.LastRowWins | modules/resources/infrastructure/resourceRepository.ts:39-41 | With two availability rows for one resource, the second is the one merged. |
| Repository.LocalQueryOf | modules/resources/infrastructure/resourceRepository.ts:114-135 | Category containment only for a non-empty category list. Text, city, state and zip conditions only when non-empty, each carrying the filter's own value (the categories likewise). The verified condition whenever given, false included. The row range is `offset` to `offset + limit - 1`. |
| Repository.SameLocalQueryIff | modules/resources/infrastructure/resourceRepository.ts:114-135 | Two filter sets give the same store query exactly when they agree on the non-empty categories, the truthy texts, the verified flag, the offset and the limit. |
| Repository.FetchLocalResources | modules/resources/infrastructure/resourceRepository.ts:114-147 | A store error is a failure with the `Database query failed:` message. Otherwise the rows (none for null) come with trust attached, and the count is 0 when absent. |
| Repository.FetchResourceById | modules/resources/infrastructure/resourceRepository.ts:150-156 | Nothing exactly when the store reports an error. Otherwise the row with its trust metadata attached. |
| ListResources.OpenNowFromDerivedStatus | modules/resources/application/listResources.ts:11-13 | Without a precomputed status, a card is open now exactly when its text mentions neither a waitlist nor being full, and it mentions limited capacity or the resource is verified. |
| ListResources.VerifiedRecentlyIffNotStale | modules/resources/application/listResources.ts:15-19 | The verified-recently filter holds exactly when the verification time would grade fresh or aging. |
| ListResources.MatchesNearMe | modules/resources/application/listResources.ts:21-27 | Everything matches without a requested point. Otherwise a card without coordinates never matches, and one with coordinates matches exactly within the radius (5 miles by default). |
| ListResources.NearMeMonotoneInRadius | modules/resources/application/listResources.ts:21-27 | Widening the radius never drops a card that matched. |
| ListResources.ApplyClientSideFilters | modules/resources/application/listResources.ts:29-39 | The result holds exactly the cards that pass all three filters, each as often as in the input. |
| ListResources.FilteredIsSubsequence | modules/resources/application/listResources.ts:29-39 | The surviving cards keep their original order. |
| ListResources.FilterDistributes | modules/resources/application/listResources.ts:29-39 | Filtering a concatenation filters each part. |
| ListResources.ComputeFreshness | modules/resources/application/listResources.ts:41-53 | The oldest confirmation is null exactly when no card has one; otherwise it is the least confirmation of some card in character order. The stale and unknown counts are exact and together fit in the list. |
| ListResources.ComputeSourceMix | modules/resources/application/listResources.ts:55-61 | One entry per distinct source key (null counted as `local`), present exactly for keys some card has. Each count is exact, and the counts sum to the list length. |
| ListResources.NullSourceCountsAsLocal | modules/resources/application/listResources.ts:57-58 | A card without a source makes the `local` count positive. |
| ListResources.SelectSource | modules/resources/application/listResources.ts:86-110 | A requested source other than `local` replaces the local rows. With no requested source, an empty local page falls back to NYC 311. Otherwise the local rows stand. |
| ListResources.LocalRequestNeverFallsBack | modules/resources/application/listResources.ts:86-110 | An explicit `local` request never falls back, even on an empty page. |
| ListResources.ExternalFiltersFor | modules/resources/application/listResources.ts:87-95 | Text and place filters are passed as given, with the first category when there is one. The limit is at most 50 and at most the request's, and the offset is always 0. |
| ListResources.Candidates | modules/resources/application/listResources.ts:84-110 | The cards of the local rows or of the chosen external source, as the source selection decides. |
| ListResources.Produce | modules/resources/application/listResources.ts:81-119 | Fails exactly when the local query fails, with its message. Otherwise the filtered candidates with their count and both summaries, and the source counts sum to the count. |
| ListResources.ListCacheParams | modules/resources/application/listResources.ts:64-79 | Fourteen parameters with distinct names, ending in the limit and the offset. |
| ListResources.EligibilityNotInKey | modules/resources/application/listResources.ts:64-79 | Filter sets that differ only in eligibility share a cache key and a store query. |
| ListResources.ListResources | modules/resources/application/listResources.ts:63-125 | A hit answers the stored body marked cached and leaves the cache unchanged. A miss stores the produced body for an hour from the moment it was produced, and answers it marked not cached. A producer failure propagates. |
| ListResources.ListingKeepsCacheConsistent | modules/resources/application/listResources.ts:63-125 | If every cached body's count equals its length and its summaries describe its data, this still holds after a listing, and for the body answered. |
| ListResources.RepeatedListingIsCached | modules/resources/application/listResources.ts:63-125 | A second identical listing within the hour after the first one stored its body is a hit on that body, whatever the store, tables or API would now return. |
| ResourceDetail.NeighbourFilters | modules/resources/application/getResourceDetail.ts:17-22 | The first 100 rows of the resource's city and state, with no other filter. |
| ResourceDetail.EligibleRows | modules/resources/application/getResourceDetail.ts:25 | Exactly the rows other than the resource itself with non-zero coordinates. |
| ResourceDetail.SortByDistance | modules/resources/application/getResourceDetail.ts:34 | A permutation of the entries, sorted by distance. |
| ResourceDetail.EqualDistancesKeepOrder | modules/resources/application/getResourceDetail.ts:34 | When all distances are equal the sort keeps the order. |
| ResourceDetail.SortKeepsOrderAtEachDistance | modules/resources/application/getResourceDetail.ts:34 | The sort is stable: for every distance, the entries at that distance come out in their original relative order. |
| ResourceDetail.NearestFirst | modules/resources/application/getResourceDetail.ts:34-35 | The first n sorted entries come from the input, and no entry left out is nearer than one taken. |
| ResourceDetail.Alternatives | modules/resources/application/getResourceDetail.ts:24-36 | At most three, fewer only when fewer rows are eligible. Each is an eligible row's card, nearest first, and no eligible row left out is nearer than one shown. |
| ResourceDetail.RowShown | modules/resources/application/getResourceDetail.ts:24-36 | An eligible row nearer than some alternative is itself an alternative. |
| ResourceDetail.NoCoordinatesKeepsOrder | modules/resources/application/getResourceDetail.ts:29-36 | Without usable coordinates on the resource, the alternatives are the first three eligible rows in their original order. |
| ResourceDetail.GetResourceDetailWithAlternatives | modules/resources/application/getResourceDetail.ts:6-42 | Nothing and no alternatives for an unknown id. Otherwise the card and at most three alternatives from the neighbourhood query; a failing neighbourhood query propagates. |
| Schemas.Get | modules/resources/domain/schemas.ts:54-68 | Absent exactly when no parameter has the name. Otherwise the value of the first such parameter. |
| Schemas.ParseCsv | modules/resources/domain/schemas.ts:13-20 | Absent for a null or empty value. Otherwise every item is non-empty, trimmed and comma-free. |
| Schemas.CsvRoundTrip | modules/resources/domain/schemas.ts:13-20 | A non-empty list of trimmed, non-empty, comma-free items, joined with commas, parses back to itself. |
| Schemas.BoolFromQuery | modules/resources/domain/schemas.ts:22-26 | True exactly for `true`, false exactly for `false`, absent otherwise. |
| Schemas.BoolRoundTrip | modules/resources/domain/schemas.ts:22-26 | A boolean's text reads back as that boolean. |
| Schemas.NumberFromQuery | modules/resources/domain/schemas.ts:28-32 | Absent for a null or empty value; otherwise what the number parser makes of it. |
| Schemas.ParseCategory | modules/resources/domain/schemas.ts:4-11 | A name parses exactly to the category of that name; any other string fails. |
| Schemas.CategoryRoundTrip | modules/resources/domain/schemas.ts:4-11 | Every category's name parses back to it. |
| Schemas.CategoriesField | modules/resources/domain/schemas.ts:35 | Succeeds exactly when every item is a category name, keeping length and order. |
| Schemas.TextField | modules/resources/domain/schemas.ts:36-38 | Succeeds exactly when the trimmed text's length is in range, and yields the trimmed text. |
| Schemas.ZipField | modules/resources/domain/schemas.ts:39 | Succeeds exactly for five ASCII digits once trimmed. |
| Schemas.EligibilityField | modules/resources/domain/schemas.ts:40 | Succeeds exactly for at most 20 items each 1 to 64 characters once trimmed, and yields the trimmed items. |
| Schemas.RangeField | modules/resources/domain/schemas.ts:44-46 | Succeeds exactly for an absent value or one within the bounds, unchanged. |
| Schemas.LimitField | modules/resources/domain/schemas.ts:48 | 20 when absent. Otherwise succeeds exactly for an integer from 1 to 100, which it yields. |
| Schemas.OffsetField | modules/resources/domain/schemas.ts:49 | 0 when absent. Otherwise succeeds exactly for a non-negative integer, which it yields. |
| Schemas.ValidateQuery | modules/resources/domain/schemas.ts:34-50 | Succeeds exactly when every field rule holds, and then carries the input: texts trimmed, categories and eligibility items in order, flags and coordinates as given. Otherwise fails with at least one field named. |
| Schemas.ValidatedPaging | modules/resources/domain/schemas.ts:48-49 | Accepted paging lies in range, takes its defaults when absent, and otherwise equals the given value. |
| Schemas.ValidatedTexts | modules/resources/domain/schemas.ts:36-39 | An accepted text is the trimmed input, within its lengths. An accepted zip is five digits. Presence is kept. |
| Schemas.ValidatedRest | modules/resources/domain/schemas.ts:40-47 | Accepted categories are named by the input items, in order. Accepted eligibility items are the trimmed input items, in order and within their bounds. Flags and coordinates pass through unchanged and within range. |
| Schemas.ParseResourceQuery | modules/resources/domain/schemas.ts:52-72 | Succeeds exactly when the raw values read from the query string are acceptable. Flags are read from their snake-case names. Paging defaults apply when the parameter is absent or empty. On success the search, city, state and zip are the trimmed parameters, and the categories are named by the comma list's items. |
| Schemas.BlankSearchRejected | modules/resources/domain/schemas.ts:36 | A present but blank `search` makes the whole query fail. |
| Schemas.ValidQueryExample | tests/unit/resourceSchemas.test.ts:5-20 | The valid-query example parses to food and housing, zip 92614, both flags true, limit 20 and offset 0. |
| Schemas.MalformedZipRejected | tests/unit/resourceSchemas.test.ts:22-25 | Five letters as a zip make the query fail. |
| Schemas.ParseCacheKind | modules/resources/domain/schemas.ts:76 | A name parses exactly to the cache of that name; any other string fails. |
| Schemas.ParseInvalidate | modules/resources/domain/schemas.ts:74-79 | Succeeds exactly for the string action `invalidate` with a missing key or the string name of a known cache. A missing key means `resources`, and a given key is the cache of that name. A `null` or non-string key fails. |
| Schemas.InvalidateRoundTrip | modules/resources/domain/schemas.ts:74-79 | Every cache named in a request is the one parsed. |
| RateLimit.CheckRateLimit | lib/server/rateLimit.ts:5-25 | A missing or expired bucket starts a window with count 1 and admits. A full live bucket denies, with the seconds left, and is unchanged. Otherwise it counts one more and admits. No other key's bucket changes. |
| RateLimit.CheckKeepsWithinLimit | lib/server/rateLimit.ts:5-25 | Every bucket stays at or under `max(1, maxRequests)`. |
| RateLimit.RunInsideWindow | lib/server/rateLimit.ts:17-24 | Inside a live window, admissions are bounded by the room left, each one is counted, and the window end stays fixed. |
| RateLimit.AtMostMaxPerWindow | lib/server/rateLimit.ts:5-25 | A run of requests within one window admits at most `max(1, maxRequests)` of them. |
| RateLimit.RunIsolatesKeys | lib/server/rateLimit.ts:5-25 | Requests for one key never change another key's bucket. |
| UrlSafety.IsSafePublicUrl | lib/server/urlSafety.ts:3-18 | Safe exactly for a parsed http(s) URL whose lower-cased host is not one of the four listed names and equals or is a subdomain of an allowed host. |
| UrlSafety.AllowListMonotone | lib/server/urlSafety.ts:3-18 | Allowing more hosts never rejects a URL that was accepted. |
| UrlSafety.LoopbackAlwaysRefused | lib/server/urlSafety.ts:13-14 | A host that lower-cases to one of the four listed names is refused whatever the allow-list holds, even when the list names it. |
| UrlSafety.OtherLoopbackAddressAccepted | lib/server/urlSafety.ts:1-17 | Only the listed names are refused: `http://127.0.0.2` passes when the allow-list names `127.0.0.2`. |
| UrlSafety.BracketedIpv6LoopbackAccepted | lib/server/urlSafety.ts:1-17 | The bracketed host `[::1]` is not the listed `::1`, so it passes when the allow-list names it. |
| UrlSafety.SubdomainAccepted | lib/server/urlSafety.ts:16-17 | A subdomain of an allowed host is accepted over http(s). |
| SearchFilters.HasActiveFilters | types/search.ts:107-117 | Active exactly when some text field has a non-whitespace character, a category or eligibility item is chosen, or the verified choice is made. |
| SearchFilters.TrimEmptyIffBlank | types/search.ts:109-112 | A text trims to nothing exactly when it is all whitespace. |
| SearchFilters.WhitespaceOnlyIsInactive | types/search.ts:94-117 | The default filters are inactive, and so are filters whose texts are all whitespace and whose other choices are empty. |
| SearchFilters.VerifiedFalseIsActive | types/search.ts:115 | Choosing unverified (`verified = false`) is an active filter. |
| CardView.Location | modules/resources/presentation/resourceCardView.ts:12 | Empty exactly without city and state. Otherwise the present parts joined by a comma and a space. |
| CardView.ToResourceCardView | modules/resources/presentation/resourceCardView.ts:11-20 | Id and title are copied. The subtitle is "city, state", the city alone or the state alone, whichever parts are present, and "Location unavailable" with neither. The availability is the status name. The trust line is badge, middle dot, freshness. |
| CardView.TrustLineDeterminesBadgeAndFreshness | modules/resources/presentation/resourceCardView.ts:18 | Two cards with the same trust line have the same badge and freshness. |
| DateFormat.DiffDays | lib/date.ts:15 | The floored day difference between the two UTC midnights. |
| DateFormat.Bucket | lib/date.ts:17-22 | Each unit as an if-and-only-if: today at 0, yesterday at 1, days below 7, weeks 1 to 4 below 30, months 1 to 12 below 365, years after. Each count is the floored quotient. |
| DateFormat.FormatVerifiedDays | lib/date.ts:17-22 | "Verified today" at 0 and "Verified yesterday" at 1. Any other count below 7, negatives included, is "Verified N days ago". Below 30 it is N = floor(days / 7) weeks, below 365 N = floor(days / 30) months, and otherwise N = floor(days / 365) years. |
| DateFormat.BucketMonotone | lib/date.ts:17-22 | An older date is never shown as newer: a later count has a unit at least as large, and within one unit at least as many. |
| DateFormat.TwelveMonthsBeforeAYear | lib/date.ts:21 | Days 360 to 364 read "12 months", before the first year. |

## Left out

- The user interface (React components and hooks), the HTTP routes, auth, audit and logging are outside this core.
- Database and HTTP I/O are parameters: `store`, `lookup`, `fetchRow` and `transport` are given as functions. URL building, percent-encoding, request headers (including the `ApiKey` header) and `response.json()` are not modelled; a body is already parsed or absent.
- `fetchServiceById` (lib/api/nyc311.ts:89-116) and `getNYCServiceCategories` (lib/api/nyc311.ts:192-205) are not modelled: nothing in the listing or detail path calls them.
- `cacheConfigs` (lib/api/cache.ts:157-178) holds TTLs nothing in this core reads; only the four cache names appear, through `Schemas.ParseCacheKind`.
- The development/test mock branch of `fetchLocalResources` (modules/resources/infrastructure/resourceRepository.ts:68-112) is left out; the model is the production path.
- The Haversine formula (lib/distance.ts) is a `distance` parameter; floating-point rounding is not modelled (reals are exact), and neither is `toFixed(2)`.
- Mappers.ConfidenceScore: the score is the exact real `max(0.2, base - decay)`, without the rounding to two decimals that `toFixed(2)` applies.
- Mappers.FutureVerificationExceedsBase: holds of the unrounded score only. The decay is 1/336 per hour, so `toFixed(2)` rounds the score back to the base for a verification time less than about 1.7 hours in the future.
- Timers: the cleanup `setInterval` in lib/api/cache.ts:196-204 is not modelled; `Cache.CleanupCache` is the sweep it runs.
- `toLowerCase`/`toUpperCase` are modelled on ASCII letters only, and string lengths count characters, not UTF-16 code units.
- The pattern of `invalidateCache` is a `matches` predicate parameter rather than a JavaScript `RegExp`.
- Cache.SortByName: orders names by character (`Cache.NameBefore`, `Text.LexLt`), where lib/api/cache.ts:189 uses `a.localeCompare(b)`. Locale collation depends on the runtime's ICU data and is not modelled. It differs for mixed case: with names `a` and `B` the source puts `a` first and the model puts `B` first.
- Cache.GenerateCacheKey: the parameter order inside the key is the character order of `Cache.SortByName`, not `localeCompare`. The key is still canonical (`Cache.CacheKeyCanonical`), but for names that differ in case the model's text can differ from the source's. Among the listing's fourteen parameter names, any two either share a prefix relation or first differ at two lower-case or at two upper-case letters, so the two orders agree on them.
- Nyc311.SyncAll: `fetch` is a function of the offset alone, so the connector's rate-limit state is not threaded between pages. The outer `try/catch` and the per-record `try/catch` are left out; counting cannot throw. A ghost `bound` past which the source has no full page stands in for the fact that the real API runs dry.
- Schemas.ValidateQuery: only the failing field names are reported, not zod's error messages or issue structure.
- `Number()` parsing is a `parseNumber` parameter; the URL constructor of `isSafePublicUrl` is an `Option<Url>` input (`None` when it throws); `Date` parsing is the clock's `parseMs`.
- DateFormat.FormatVerifiedDays: starts from the day difference; the local-calendar-date extraction of `formatVerifiedDate` is `DateFormat.DiffDays` over given UTC midnights.
- `null` and `undefined` are both `None`, so a cache entry holding `undefined` (a hit in JavaScript) is not distinguished from a missing value; object key order is modelled as the order parameters are listed. The exception is the invalidation request body, where `Schemas.JsonMember` keeps a missing member, `null` and a string apart.
- Cache.GetCachedOrFetch: the cache read, the producer and the store are one step on one threaded map. In the source, `await fetchFn()` lies between the read and `setCache`; other requests and the cleanup timer can change the module-level map meanwhile, and two concurrent misses on one key both run the producer. Interleaving is not modelled.
- ListResources.ListResources: the listing's read, producer and store are one step, as in `Cache.GetCachedOrFetch`; concurrent listings and the cleanup timer running during the producer's `await` are not modelled.
- ListResources.ListResources: the producer reads one clock, `World.clock`, for every card and filter, where the source calls `Date.now()` afresh each time. Only the store time, `World.producedMs`, is a separate reading.
- NaN coordinates and the environment parsing of the rate-limit configuration (lib/server/env.ts) are not modelled; `RateLimit.DefaultConfig` holds the defaults.
- The timestamp fields of connector responses and sync results are not modelled.
- The scraper (lib/scraper.ts) is outside this core.

=== FILE: cache.dfy ===
/**
 * The in-process TTL cache: a key -> entry map where each entry has an expiry
 * and, for TTLs shorter than a day, a stale-until time up to which an expired
 * entry is still served. The map is threaded through explicitly and every
 * operation receives the current time `now` in milliseconds.
 */
module Cache {
  import opened Wrappers
  import opened Text

  const DefaultTtlSeconds := 3600
  const MaxStaleSeconds := 86400

  datatype Entry<V> = Entry(data: V, expiry: int, staleAt: Option<int>)

  type Store<V> = map<string, Entry<V>>

  /** `entry.staleAt` in a boolean position: absent and 0 are false. */
  predicate HasStaleWindow<V>(e: Entry<V>) {
    e.staleAt.Some? && e.staleAt.value != 0
  }

  /** An entry a read still returns: unexpired, or expired but inside its stale window. */
  predicate Servable<V>(e: Entry<V>, now: int) {
    now < e.expiry || (HasStaleWindow(e) && now < e.staleAt.value)
  }

  /** Every stale window ends after the fresh window it extends. */
  predicate WellFormed<V>(c: Store<V>) {
    forall k | k in c :: c[k].staleAt.Some? ==> c[k].expiry < c[k].staleAt.value
  }

  /** Returns the data of a servable entry; evicts an entry that is past both windows. */
  function GetFromCache<V>(c: Store<V>, key: string, now: int): (r: (Store<V>, Option<V>))
    ensures key !in c ==> r == (c, None)
    ensures key in c && Servable(c[key], now) ==> r == (c, Some(c[key].data))
    ensures key in c && !Servable(c[key], now) ==> r == (c - {key}, None)
    ensures r.1.None? ==> key !in r.0
    ensures WellFormed(c) ==> WellFormed(r.0)
  {
    if key !in c then (c, None)
    else
      var entry := c[key];
      if now >= entry.expiry then
        if HasStaleWindow(entry) && now < entry.staleAt.value then (c, Some(entry.data))
        else (c - {key}, None)
      else (c, Some(entry.data))
  }

  /** Stores `data` under `key` with a fresh window of `ttlSeconds` and, for TTLs under a day, a one-day stale window. */
  function SetCache<V>(c: Store<V>, key: string, data: V, ttlSeconds: int, now: int): (c': Store<V>)
    ensures c'.Keys == c.Keys + {key}
    ensures forall k | k in c && k != key :: c'[k] == c[k]
    ensures c'[key].data == data && c'[key].expiry == now + ttlSeconds * 1000
    ensures c'[key].staleAt.Some? <==> ttlSeconds < MaxStaleSeconds
    ensures c'[key].staleAt.Some? ==>
      c'[key].staleAt.value == now + MaxStaleSeconds * 1000 && c'[key].expiry < c'[key].staleAt.value
    ensures WellFormed(c) ==> WellFormed(c')
  {
    var expiry := now + ttlSeconds * 1000;
    var staleAt := if MaxStaleSeconds > ttlSeconds then Some(now + MaxStaleSeconds * 1000) else None;
    c[key := Entry(data, expiry, staleAt)]
  }

  /** Inside the fresh window a stored value reads back unchanged. */
  lemma SetThenGetFresh<V>(c: Store<V>, key: string, data: V, ttlSeconds: int, now: int, later: int)
    requires now <= later < now + ttlSeconds * 1000
    ensures var c' := SetCache(c, key, data, ttlSeconds, now);
      GetFromCache(c', key, later) == (c', Some(data))
  {
  }

  /** After the fresh window and before a day has passed, the stale value is still served and kept. */
  lemma SetThenGetStale<V>(c: Store<V>, key: string, data: V, ttlSeconds: int, now: int, later: int)
    requires now >= 0
    requires now + ttlSeconds * 1000 <= later < now + MaxStaleSeconds * 1000
    ensures var c' := SetCache(c, key, data, ttlSeconds, now);
      GetFromCache(c', key, later) == (c', Some(data))
  {
  }

  /** Once both windows have passed, the read misses and the entry is gone. */
  lemma SetThenGetExpired<V>(c: Store<V>, key: string, data: V, ttlSeconds: int, now: int, later: int)
    requires later >= now + ttlSeconds * 1000 && later >= now + MaxStaleSeconds * 1000
    ensures var c' := SetCache(c, key, data, ttlSeconds, now);
      GetFromCache(c', key, later) == (c' - {key}, None)
  {
  }

  /** Reports whether the key was present; afterwards it is absent and nothing else changed. */
  function DeleteFromCache<V>(c: Store<V>, key: string): (r: (Store<V>, bool))
    ensures r.1 <==> key in c
    ensures key !in r.0
    ensures forall k | k != key :: (k in r.0 <==> k in c) && (k in c ==> r.0[k] == c[k])
    ensures WellFormed(c) ==> WellFormed(r.0)
  {
    (c - {key}, key in c)
  }

  /** Removes exactly the keys the pattern matches and returns how many there were. */
  function InvalidateCache<V>(c: Store<V>, matches: string -> bool): (r: (Store<V>, nat))
    ensures forall k :: k in r.0 <==> k in c && !matches(k)
    ensures forall k | k in r.0 :: r.0[k] == c[k]
    ensures r.1 == |set k | k in c && matches(k)|
    ensures r.1 + |r.0| == |c|
    ensures WellFormed(c) ==> WellFormed(r.0)
  {
    var removed := set k | k in c && matches(k);
    var kept := map k | k in c && !matches(k) :: c[k];
    assert c.Keys == kept.Keys + removed;
    assert kept.Keys !! removed;
    assert |c.Keys| == |kept.Keys| + |removed|;
    (kept, |removed|)
  }

  function ClearCache<V>(c: Store<V>): (c': Store<V>)
    ensures |c'| == 0
  {
    map[]
  }

  datatype CacheStats = CacheStats(size: nat, keys: set<string>)

  /**
   * The number of entries, and the keys whose fresh window is still open. The
   * source lists those keys in insertion order; a map has no order, so they
   * are a set here.
   */
  function GetCacheStats<V>(c: Store<V>, now: int): (s: CacheStats)
    ensures s.size == |c|
    ensures forall k :: k in s.keys <==> k in c && now < c[k].expiry
    ensures forall k | k in s.keys :: Servable(c[k], now)
  {
    CacheStats(|c|, set k | k in c && c[k].expiry > now)
  }

  /** The sweep: removes exactly the entries a read would no longer serve, and counts them. */
  method CleanupCache<V>(c: Store<V>, now: int) returns (c': Store<V>, removed: nat)
    ensures forall k :: k in c' <==> k in c && Servable(c[k], now)
    ensures forall k | k in c' :: c'[k] == c[k]
    ensures removed + |c'| == |c|
    ensures WellFormed(c) ==> WellFormed(c')
  {
    c' := c;
    removed := 0;
    var pending := c.Keys;
    while pending != {}
      invariant pending <= c.Keys
      invariant forall k :: k in c' <==> k in c && (k in pending || Servable(c[k], now))
      invariant forall k | k in c' :: c'[k] == c[k]
      invariant removed + |c'| == |c|
      decreases pending
    {
      var key :| key in pending;
      var entry := c[key];
      if entry.expiry <= now && (!HasStaleWindow(entry) || entry.staleAt.value <= now) {
        assert c'.Keys == (c' - {key}).Keys + {key};
        c' := c' - {key};
        removed := removed + 1;
      }
      pending := pending - {key};
    }
  }

  /** The result of `getCachedOrFetch`: the data (a JavaScript value that may be null) and whether it was a hit. */
  datatype Fetched<T> = Fetched(data: Option<T>, cached: bool)

  /** A read that `getCachedOrFetch` treats as a hit: servable and not a stored null. */
  predicate IsHit<T>(c: Store<Option<T>>, key: string, now: int) {
    key in c && Servable(c[key], now) && c[key].data.Some?
  }

  /**
   * A hit returns the cached data without running the producer; a miss runs
   * it, stores what it produced and reports `cached = false`; a producer
   * failure propagates and stores nothing. The read happens at `now`; the
   * store happens at `storedAt`, the clock reading once the producer is done.
   */
  function GetCachedOrFetch<T, E>(c: Store<Option<T>>, key: string, produce: () -> Result<Option<T>, E>,
                                  ttlSeconds: int, now: int, storedAt: int): (r: (Store<Option<T>>, Result<Fetched<T>, E>))
    ensures IsHit(c, key, now) ==> r == (c, Success(Fetched(c[key].data, true)))
    ensures !IsHit(c, key, now) ==> match produce()
      case Failure(e) => r.1 == Failure(e) && r.0 == GetFromCache(c, key, now).0
      case Success(v) => (r.1 == Success(Fetched(v, false))
        && r.0 == SetCache(GetFromCache(c, key, now).0, key, v, ttlSeconds, storedAt))
    ensures r.1.Success? && !r.1.value.cached ==>
      key in r.0 && r.0[key].data == r.1.value.data && r.0[key].expiry == storedAt + ttlSeconds * 1000
  {
    var (afterRead, cachedData) := GetFromCache(c, key, now);
    if cachedData.Some? && cachedData.value.Some? then
      (afterRead, Success(Fetched(cachedData.value, true)))
    else
      match produce()
      case Failure(e) => (afterRead, Failure(e))
      case Success(data) => (SetCache(afterRead, key, data, ttlSeconds, storedAt), Success(Fetched(data, false)))
  }

  /**
   * A second call inside the fresh window of the first one's store returns
   * what the first one stored, as a hit, whatever its producer would do.
   */
  lemma WarmCacheHit<T, E>(c: Store<Option<T>>, key: string, p1: () -> Result<Option<T>, E>,
                           p2: () -> Result<Option<T>, E>, ttlSeconds: int, now: int, storedAt: int,
                           later: int, laterStoredAt: int)
    requires !IsHit(c, key, now) && p1().Success? && p1().value.Some?
    requires storedAt <= later < storedAt + ttlSeconds * 1000
    ensures var (c1, r1) := GetCachedOrFetch(c, key, p1, ttlSeconds, now, storedAt);
      r1 == Success(Fetched(p1().value, false))
      && GetCachedOrFetch(c1, key, p2, ttlSeconds, later, laterStoredAt) == (c1, Success(Fetched(p1().value, true)))
  {
  }

  type Param = (string, Option<string>)

  /** No parameter name occurs twice (the parameters come from an object's own properties). */
  predicate DistinctNames<X>(s: seq<(string, X)>) {
    forall i, j | 0 <= i < j < |s| :: s[i].0 != s[j].0
  }

  function Names<X>(s: seq<(string, X)>): set<string> {
    set i | 0 <= i < |s| :: s[i].0
  }

  lemma NamesCons<X>(h: (string, X), t: seq<(string, X)>)
    ensures Names([h] + t) == {h.0} + Names(t)
  {
    var r := [h] + t;
    forall n | n in Names(r) ensures n in {h.0} + Names(t) {
      var i :| 0 <= i < |r| && r[i].0 == n;
      if i > 0 { assert t[i - 1].0 == n; }
    }
    forall n | n in Names(t) ensures n in Names(r) {
      var i :| 0 <= i < |t| && t[i].0 == n;
      assert r[i + 1].0 == n;
    }
    assert r[0].0 == h.0;
  }

  /** The head's name is not among the tail's names. */
  lemma DistinctNamesCons<X>(s: seq<(string, X)>)
    requires |s| > 0 && DistinctNames(s)
    ensures s[0].0 !in Names(s[1..]) && DistinctNames(s[1..])
  {
    forall i | 0 <= i < |s[1..]| ensures s[1..][i].0 != s[0].0 {
      assert s[1..][i] == s[i + 1];
    }
  }

  lemma DistinctNamesExtend<X>(h: (string, X), t: seq<(string, X)>)
    requires h.0 !in Names(t) && DistinctNames(t)
    ensures DistinctNames([h] + t)
  {
    var r := [h] + t;
    forall i, j | 0 <= i < j < |r| ensures r[i].0 != r[j].0 {
      assert r[j] == t[j - 1];
      if i == 0 {
        assert t[j - 1].0 in Names(t);
      } else {
        assert r[i] == t[i - 1];
      }
    }
  }

  /** The parameters whose value is not undefined, in their original order. */
  function DefinedPairs(params: seq<Param>): (r: seq<(string, string)>)
    ensures forall x | x in r :: (x.0, Some(x.1)) in params
    ensures forall p | p in params && p.1.Some? :: (p.0, p.1.value) in r
  {
    if |params| == 0 then []
    else
      var rest := DefinedPairs(params[1..]);
      if params[0].1.Some? then [(params[0].0, params[0].1.value)] + rest else rest
  }

  /** Dropping the undefined parameters keeps the names distinct. */
  lemma {:induction false} DefinedPairsDistinct(params: seq<Param>)
    requires DistinctNames(params)
    ensures DistinctNames(DefinedPairs(params))
    ensures Names(DefinedPairs(params)) <= Names(params)
  {
    if |params| > 0 {
      var rest := DefinedPairs(params[1..]);
      DistinctNamesCons(params);
      DefinedPairsDistinct(params[1..]);
      NamesCons(params[0], params[1..]);
      assert params == [params[0]] + params[1..];
      if params[0].1.Some? {
        var h := (params[0].0, params[0].1.value);
        assert DefinedPairs(params) == [h] + rest;
        NamesCons(h, rest);
        DistinctNamesExtend(h, rest);
      }
    }
  }

  /**
   * The name order of `a.localeCompare(b)`, taken to be the code-point order
   * of the names; locale collation is not modelled.
   */
  predicate NameBefore<X>(a: (string, X), b: (string, X)) {
    LexLt(a.0, b.0)
  }

  predicate StrictlySorted<X>(s: seq<(string, X)>) {
    forall i, j | 0 <= i < j < |s| :: NameBefore(s[i], s[j])
  }

  /** Stable insertion: `x` goes before the first element whose name it does not follow. */
  function InsertByName<X(!new)>(x: (string, X), s: seq<(string, X)>): (r: seq<(string, X)>)
    ensures |r| == |s| + 1
    ensures forall y :: y in r <==> y == x || y in s
    ensures Names(r) == Names(s) + {x.0}
    ensures StrictlySorted(s) && x.0 !in Names(s) ==> StrictlySorted(r)
  {
    if |s| == 0 then
      NamesCons(x, s);
      assert [x] + s == [x];
      [x]
    else if !LexLt(s[0].0, x.0) then
      NamesCons(x, s);
      if StrictlySorted(s) && x.0 !in Names(s) then
        InsertFront(x, s);
        [x] + s
      else [x] + s
    else
      var rest := InsertByName(x, s[1..]);
      NamesCons(s[0], s[1..]);
      assert s == [s[0]] + s[1..];
      NamesCons(s[0], rest);
      if StrictlySorted(s) && x.0 !in Names(s) then
        NameSortedTail(s);
        InsertBehind(x, s, rest);
        [s[0]] + rest
      else [s[0]] + rest
  }

  /** The tail of a strictly sorted sequence is strictly sorted. */
  lemma NameSortedTail<X>(s: seq<(string, X)>)
    requires |s| > 0 && StrictlySorted(s)
    ensures StrictlySorted(s[1..])
  {
    forall i, j | 0 <= i < j < |s[1..]| ensures NameBefore(s[1..][i], s[1..][j]) {
      assert s[1..][i] == s[i + 1] && s[1..][j] == s[j + 1];
    }
  }

  /** A head whose name comes before every name of a sorted sequence keeps it sorted. */
  lemma ConsNameSorted<X>(h: (string, X), s: seq<(string, X)>)
    requires StrictlySorted(s)
    requires forall k | 0 <= k < |s| :: NameBefore(h, s[k])
    ensures StrictlySorted([h] + s)
  {
    var t := [h] + s;
    forall i, j | 0 <= i < j < |t| ensures NameBefore(t[i], t[j]) {
      assert t[j] == s[j - 1];
      if i > 0 {
        assert t[i] == s[i - 1];
      }
    }
  }

  /** Inserting a new name that does not follow the head puts it in front. */
  lemma InsertFront<X>(x: (string, X), s: seq<(string, X)>)
    requires |s| > 0 && StrictlySorted(s)
    requires x.0 !in Names(s) && !LexLt(s[0].0, x.0)
    ensures StrictlySorted([x] + s)
  {
    assert s[0].0 in Names(s);
    LexLtTotal(x.0, s[0].0);
    forall k | 0 <= k < |s| ensures NameBefore(x, s[k]) {
      if k > 0 {
        LexLtTransitive(x.0, s[0].0, s[k].0);
      }
    }
    ConsNameSorted(x, s);
  }

  /** Inserting a name that follows the head into the tail keeps the head in front. */
  lemma InsertBehind<X>(x: (string, X), s: seq<(string, X)>, rest: seq<(string, X)>)
    requires |s| > 0 && StrictlySorted(s) && LexLt(s[0].0, x.0)
    requires StrictlySorted(rest)
    requires forall y | y in rest :: y == x || y in s[1..]
    ensures StrictlySorted([s[0]] + rest)
  {
    forall k | 0 <= k < |rest| ensures NameBefore(s[0], rest[k]) {
      var y := rest[k];
      assert y in rest;
      if y != x {
        var j :| 0 <= j < |s[1..]| && s[1..][j] == y;
        assert s[j + 1] == y;
      }
    }
    ConsNameSorted(s[0], rest);
  }

  /** Sorts by name; with distinct names the result is strictly increasing. */
  function SortByName<X(!new)>(s: seq<(string, X)>): (r: seq<(string, X)>)
    ensures |r| == |s|
    ensures forall y :: y in r <==> y in s
    ensures Names(r) == Names(s)
    ensures DistinctNames(s) ==> StrictlySorted(r)
  {
    if |s| == 0 then []
    else
      var rest := SortByName(s[1..]);
      NamesCons(s[0], s[1..]);
      assert s == [s[0]] + s[1..];
      if DistinctNames(s) then
        DistinctNamesCons(s);
        InsertByName(s[0], rest)
      else
        InsertByName(s[0], rest)
  }

  /** Two strictly name-sorted sequences with the same elements are the same sequence. */
  lemma {:induction false} SortedUnique<X(!new)>(a: seq<(string, X)>, b: seq<(string, X)>)
    requires StrictlySorted(a) && StrictlySorted(b)
    requires forall y :: y in a <==> y in b
    ensures a == b
    decreases |a|
  {
    assert |b| > 0 ==> b[0] in b;
    if |a| > 0 {
      assert |b| > 0 by { assert a[0] in b; }
      if a[0] != b[0] {
        assert a[0] in b;
        var j :| 0 <= j < |b| && b[j] == a[0];
        assert b[0] in a;
        var i :| 0 <= i < |a| && a[i] == b[0];
        assert i > 0 && j > 0;
        assert LexLt(b[0].0, a[0].0) && LexLt(a[0].0, b[0].0);
        LexLtAsymmetric(a[0].0, b[0].0);
      }
      forall y ensures y in a[1..] <==> y in b[1..] {
        if y in a[1..] {
          var i :| 0 <= i < |a[1..]| && a[1..][i] == y;
          assert a[i + 1] == y;
          LexLtIrreflexive(y.0);
          assert y != a[0];
          assert y in b;
          var j :| 0 <= j < |b| && b[j] == y;
          assert j != 0;
          assert b[1..][j - 1] == y;
        }
        if y in b[1..] {
          var j :| 0 <= j < |b[1..]| && b[1..][j] == y;
          assert b[j + 1] == y;
          LexLtIrreflexive(y.0);
          assert y != b[0];
          assert y in a;
          var i :| 0 <= i < |a| && a[i] == y;
          assert i != 0;
          assert a[1..][i - 1] == y;
        }
      }
      assert StrictlySorted(a[1..]) && StrictlySorted(b[1..]);
      SortedUnique(a[1..], b[1..]);
      assert a == [a[0]] + a[1..] && b == [b[0]] + b[1..];
    }
  }

  /** The prefix, then `?` and the defined parameters sorted by name, when there are any. */
  function GenerateCacheKey(prefix: string, params: seq<Param>): (key: string)
    ensures DefinedPairs(params) == [] ==> key == prefix
    ensures DefinedPairs(params) != [] ==> IsPrefix(prefix + "?", key) && |key| > |prefix| + 1
    ensures forall p | p in DefinedPairs(params) :: Contains(key, p.0 + "=" + p.1)
  {
    var sorted := SortByName(DefinedPairs(params));
    var sortedParams := RenderQuery(sorted);
    if sortedParams == "" then prefix
    else
      QueryAfterPrefixContains(prefix + "?", sorted);
      prefix + "?" + sortedParams
  }

  /** The key depends only on the set of defined (name, value) pairs, not on their order or on undefined ones. */
  lemma CacheKeyCanonical(prefix: string, p1: seq<Param>, p2: seq<Param>)
    requires DistinctNames(p1) && DistinctNames(p2)
    requires forall x :: x in DefinedPairs(p1) <==> x in DefinedPairs(p2)
    ensures GenerateCacheKey(prefix, p1) == GenerateCacheKey(prefix, p2)
  {
    DefinedPairsDistinct(p1);
    DefinedPairsDistinct(p2);
    SortedUnique(SortByName(DefinedPairs(p1)), SortByName(DefinedPairs(p2)));
  }

  /**
   * The converse of `CacheKeyCanonical`: when no defined name or value holds
   * `&` or `=`, the key determines the defined pairs, so two parameter lists
   * that define different pairs never share a cache entry.
   */
  lemma CacheKeyDeterminesPairs(prefix: string, p1: seq<Param>, p2: seq<Param>)
    requires forall x | x in DefinedPairs(p1) :: PlainPair(x)
    requires forall x | x in DefinedPairs(p2) :: PlainPair(x)
    requires GenerateCacheKey(prefix, p1) == GenerateCacheKey(prefix, p2)
    ensures forall x :: x in DefinedPairs(p1) <==> x in DefinedPairs(p2)
  {
    var s1 := SortByName(DefinedPairs(p1));
    var s2 := SortByName(DefinedPairs(p2));
    var r1 := RenderQuery(s1);
    var r2 := RenderQuery(s2);
    var key := GenerateCacheKey(prefix, p1);
    if r1 != "" && r2 != "" {
      assert key == prefix + "?" + r1 && key == prefix + "?" + r2;
      assert r1 == key[|prefix| + 1..] == r2;
      RenderQueryInjective(s1, s2);
    } else {
      assert r1 == "" && r2 == "" by {
        assert |key| == |prefix| + (if r1 != "" then 1 + |r1| else 0);
        assert |key| == |prefix| + (if r2 != "" then 1 + |r2| else 0);
      }
    }
  }
}

=== FILE: cardview.dfy ===
/**
 * The view model a resource card renders: its title, a location line, the
 * availability, and the trust line of badge and freshness.
 */
module CardView {
  import opened Wrappers
  import opened Text
  import opened Types

  datatype ResourceCardView = ResourceCardView(
    id: string,
    title: string,
    subtitle: string,
    availability: string,
    trust: string)

  const NoLocation := "Location unavailable"
  const TrustSeparator := " \U{00B7} "

  /** `[city, state].filter(Boolean).join(', ')`. */
  function Location(city: Option<string>, state: string): (loc: string)
    ensures loc == "" <==> !Truthy(city) && state == ""
    ensures Truthy(city) && state != "" ==> loc == city.value + ", " + state
    ensures Truthy(city) && state == "" ==> loc == city.value
    ensures !Truthy(city) ==> loc == state
  {
    var parts := (if Truthy(city) then [city.value] else []) + (if state != "" then [state] else []);
    assert Truthy(city) && state != "" ==> parts[1..] == [state] && Join(parts, ", ") == city.value + ", " + Join([state], ", ");
    Join(parts, ", ")
  }


  /**
   * `toResourceCardViewModel`: id and title copied from the card; the
   * location line, or "Location unavailable" when the card has neither city
   * nor state; the availability status; and badge and freshness joined by a
   * middle dot.
   */
  function ToResourceCardView(d: CardDTO): (v: ResourceCardView)
    ensures v.id == d.id && v.title == d.name
    ensures Truthy(d.city) && d.state != "" ==> v.subtitle == d.city.value + ", " + d.state
    ensures Truthy(d.city) && d.state == "" ==> v.subtitle == d.city.value
    ensures !Truthy(d.city) && d.state != "" ==> v.subtitle == d.state
    ensures !Truthy(d.city) && d.state == "" ==> v.subtitle == NoLocation
    ensures v.availability == d.availabilityStatus.Name()
    ensures v.trust == d.verificationBadge.Name() + TrustSeparator + d.freshnessState.Name()
  {
    var location := Location(d.city, d.state);
    ResourceCardView(
      id := d.id,
      title := d.name,
      subtitle := if location != "" then location else NoLocation,
      availability := d.availabilityStatus.Name(),
      trust := d.verificationBadge.Name() + TrustSeparator + d.freshnessState.Name())
  }

  /** No badge or freshness name contains the separator's middle dot. */
  lemma NamesHaveNoDot(b: Badge, f: FreshnessState)
    ensures '\U{00B7}' !in b.Name() && '\U{00B7}' !in f.Name()
  {
  }

  /** In `a · b` with no middle dot in `a`, the first middle dot is the separator's. */
  lemma FirstDot(a: string, b: string)
    requires '\U{00B7}' !in a
    ensures var s := a + TrustSeparator + b;
      && s[|a| + 1] == '\U{00B7}'
      && forall i | 0 <= i <= |a| :: s[i] != '\U{00B7}'
  {
    var s := a + TrustSeparator + b;
    forall i | 0 <= i <= |a| ensures s[i] != '\U{00B7}' {
      if i < |a| {
        assert s[i] == a[i];
      }
    }
  }

  /** Splitting `a · b` at its first middle dot recovers `a` and `b`, when `a` has none. */
  lemma SplitAtFirstDot(a: string, b: string, a': string, b': string)
    requires '\U{00B7}' !in a && '\U{00B7}' !in a'
    requires a + TrustSeparator + b == a' + TrustSeparator + b'
    ensures a == a' && b == b'
  {
    FirstDot(a, b);
    FirstDot(a', b');
    var s := a + TrustSeparator + b;
    assert |a| == |a'|;
    assert a == s[..|a|] == a';
    assert b == s[|a| + 3..] == b';
  }

  lemma BadgeNameInjective(b: Badge, b': Badge)
    requires b.Name() == b'.Name()
    ensures b == b'
  {
  }

  lemma FreshnessNameInjective(f: FreshnessState, f': FreshnessState)
    requires f.Name() == f'.Name()
    ensures f == f'
  {
  }

  /** The trust line determines the card's badge and freshness. */
  lemma TrustLineDeterminesBadgeAndFreshness(d: CardDTO, e: CardDTO)
    requires ToResourceCardView(d).trust == ToResourceCardView(e).trust
    ensures d.verificationBadge == e.verificationBadge && d.freshnessState == e.freshnessState
  {
    NamesHaveNoDot(d.verificationBadge, d.freshnessState);
    NamesHaveNoDot(e.verificationBadge, e.freshnessState);
    SplitAtFirstDot(d.verificationBadge.Name(), d.freshnessState.Name(), e.verificationBadge.Name(), e.freshnessState.Name());
    BadgeNameInjective(d.verificationBadge, e.verificationBadge);
    FreshnessNameInjective(d.freshnessState, e.freshnessState);
  }
}

=== FILE: connector.dfy ===
/**
 * The bookkeeping every external connector shares: per-day and per-minute
 * request counters checked before each request, the request gate that records
 * a request once the transport answers, the query string of the generic
 * filters, and the factory that knows which sources have a connector.
 */
module Connector {
  import opened Wrappers
  import opened Text
  import opened Types
  import Normalizer

  const MinuteMs := 60000

  /** The NYC 311 quotas. */
  const Nyc311Limits := RateLimitConfig(10000, 100)

  datatype Connector = Connector(source: string, limits: RateLimitConfig, state: RateLimitState)

  /** A new connector: both counters zero, the last check now, the day ending at the next midnight. */
  function NewConnector(source: string, limits: RateLimitConfig, clock: Clock): (c: Connector)
    ensures c.source == source && c.limits == limits
    ensures c.state.requestsToday == 0 && c.state.requestsThisMinute == 0
    ensures c.state.lastRequestTimestamp == clock.nowMs && c.state.resetAt == clock.nextMidnightMs
  {
    Connector(source, limits, RateLimitState(0, 0, clock.nowMs, clock.nextMidnightMs))
  }

  /**
   * The check before a request: past the reset time the day counter restarts
   * and the reset moves to the next midnight; a minute or more after the last
   * check the minute counter restarts; the check itself becomes the last one.
   */
  function UpdateRateLimitState(s: RateLimitState, clock: Clock): (s': RateLimitState)
    ensures s'.lastRequestTimestamp == clock.nowMs
    ensures clock.nowMs >= s.resetAt ==> s'.requestsToday == 0 && s'.resetAt == clock.nextMidnightMs
    ensures clock.nowMs < s.resetAt ==> s'.requestsToday == s.requestsToday && s'.resetAt == s.resetAt
    ensures clock.nowMs - s.lastRequestTimestamp >= MinuteMs ==> s'.requestsThisMinute == 0
    ensures clock.nowMs - s.lastRequestTimestamp < MinuteMs ==> s'.requestsThisMinute == s.requestsThisMinute
  {
    var s1 := if clock.nowMs >= s.resetAt then s.(requestsToday := 0, resetAt := clock.nextMidnightMs) else s;
    var s2 := if clock.nowMs - s1.lastRequestTimestamp >= MinuteMs then s1.(requestsThisMinute := 0) else s1;
    s2.(lastRequestTimestamp := clock.nowMs)
  }

  /** Checking twice at the same instant is the same as checking once. */
  lemma UpdateIdempotent(s: RateLimitState, clock: Clock)
    ensures UpdateRateLimitState(UpdateRateLimitState(s, clock), clock) == UpdateRateLimitState(s, clock)
  {
  }

  /** Successive checks, one per clock reading. */
  function CheckAll(s: RateLimitState, clocks: seq<Clock>): RateLimitState
    decreases |clocks|
  {
    if |clocks| == 0 then s else CheckAll(UpdateRateLimitState(s, clocks[0]), clocks[1..])
  }

  /** No gap of a minute or more between consecutive checks, starting from the last one. */
  predicate ChecksCloserThanAMinute(s: RateLimitState, clocks: seq<Clock>) {
    && (|clocks| > 0 ==> clocks[0].nowMs - s.lastRequestTimestamp < MinuteMs)
    && (forall i | 0 < i < |clocks| :: clocks[i].nowMs - clocks[i - 1].nowMs < MinuteMs)
  }

  /**
   * The minute window slides with the checks, not with the requests: as long
   * as checks come less than a minute apart, the minute counter never
   * restarts, however long the whole sequence lasts.
   */
  lemma {:induction false} MinuteCounterNeverResetsUnderFrequentChecks(s: RateLimitState, clocks: seq<Clock>)
    requires ChecksCloserThanAMinute(s, clocks)
    ensures CheckAll(s, clocks).requestsThisMinute == s.requestsThisMinute
    decreases |clocks|
  {
    if |clocks| > 0 {
      var s' := UpdateRateLimitState(s, clocks[0]);
      assert ChecksCloserThanAMinute(s', clocks[1..]) by {
        forall i | 0 < i < |clocks[1..]| ensures clocks[1..][i].nowMs - clocks[1..][i - 1].nowMs < MinuteMs {
          assert clocks[1..][i] == clocks[i + 1] && clocks[1..][i - 1] == clocks[i];
        }
        if |clocks[1..]| > 0 {
          assert clocks[1..][0] == clocks[1];
        }
      }
      MinuteCounterNeverResetsUnderFrequentChecks(s', clocks[1..]);
    }
  }

  /** Runs the check and reports whether both counters are below their quotas. */
  function CanMakeRequest(c: Connector, clock: Clock): (r: (Connector, bool))
    ensures r.0 == c.(state := UpdateRateLimitState(c.state, clock))
    ensures r.1 <==> (r.0.state.requestsToday < c.limits.requestsPerDay
                      && r.0.state.requestsThisMinute < c.limits.requestsPerMinute)
  {
    var c' := c.(state := UpdateRateLimitState(c.state, clock));
    (c', c'.state.requestsToday < c.limits.requestsPerDay && c'.state.requestsThisMinute < c.limits.requestsPerMinute)
  }

  /** Counts one request against both quotas. */
  function RecordRequest(s: RateLimitState): (s': RateLimitState)
    ensures s'.requestsToday == s.requestsToday + 1 && s'.requestsThisMinute == s.requestsThisMinute + 1
    ensures s'.lastRequestTimestamp == s.lastRequestTimestamp && s'.resetAt == s.resetAt
  {
    s.(requestsToday := s.requestsToday + 1, requestsThisMinute := s.requestsThisMinute + 1)
  }

  /** What `makeRequest` resolves to. */
  datatype RequestResult<T> = RequestResult(success: bool, data: Option<T>, error: Option<string>)

  function RateLimitMessage(source: string): string {
    "Rate limit exceeded for " + source + ". Please try again later."
  }

  /** A reply for which the request was counted: `fetch` resolved, whatever its status or body. */
  predicate Counted<T>(reply: Reply<T>) {
    !reply.NetworkError?
  }

  /**
   * The gated request. Over quota it fails without sending; otherwise it
   * sends, counts the request once the transport has answered, and reports a
   * non-OK status, an unreadable body or a transport failure as an error.
   */
  function MakeRequest<T>(c: Connector, clock: Clock, send: () -> Reply<T>): (r: (Connector, RequestResult<T>))
    ensures var (checked, allowed) := CanMakeRequest(c, clock);
      && (!allowed ==> r.0 == checked && r.1 == RequestResult(false, None, Some(RateLimitMessage(c.source))))
      && (allowed ==>
            (r.0.source == c.source && r.0.limits == c.limits
             && r.0.state == (if Counted(send()) then RecordRequest(checked.state) else checked.state)))
      && (r.1.success <==> allowed && send().Body?)
    ensures r.1.success ==> r.1.data == send().data && r.1.error.None?
    ensures !r.1.success ==> r.1.data.None? && r.1.error.Some? && r.1.error.value != ""
  {
    var (checked, allowed) := CanMakeRequest(c, clock);
    if !allowed then
      (checked, RequestResult(false, None, Some(RateLimitMessage(c.source))))
    else
      match send()
      case NetworkError(message) =>
        (checked, RequestResult(false, None, Some("Request failed: " + message)))
      case HttpError(status, text) =>
        (checked.(state := RecordRequest(checked.state)),
         RequestResult(false, None, Some("API error (" + NatToString(status) + "): " + text)))
      case BadJson(message) =>
        (checked.(state := RecordRequest(checked.state)), RequestResult(false, None, Some("Request failed: " + message)))
      case Body(data) =>
        (checked.(state := RecordRequest(checked.state)), RequestResult(true, data, None))
  }

  /** Both counters lie between zero and their quota. */
  predicate WithinQuota(c: Connector) {
    && 0 <= c.state.requestsToday <= c.limits.requestsPerDay
    && 0 <= c.state.requestsThisMinute <= c.limits.requestsPerMinute
  }

  /** A request never pushes a counter past its quota. */
  lemma MakeRequestKeepsQuota<T>(c: Connector, clock: Clock, send: () -> Reply<T>)
    requires WithinQuota(c)
    ensures WithinQuota(MakeRequest(c, clock, send).0)
  {
  }

  /** A request is counted only when it was admitted and the transport answered. */
  lemma RequestCountedIffSent<T>(c: Connector, clock: Clock, send: () -> Reply<T>)
    ensures var checked := CanMakeRequest(c, clock).0;
      MakeRequest(c, clock, send).0.state.requestsToday
        == checked.state.requestsToday + (if CanMakeRequest(c, clock).1 && Counted(send()) then 1 else 0)
  {
  }

  /** A new connector with positive quotas admits its first request. */
  lemma NewConnectorAdmits(source: string, limits: RateLimitConfig, clock: Clock, later: Clock)
    requires limits.requestsPerDay >= 1 && limits.requestsPerMinute >= 1
    ensures WithinQuota(NewConnector(source, limits, clock))
    ensures CanMakeRequest(NewConnector(source, limits, clock), later).1
  {
  }

  /** A string filter in a boolean position: sent, once, exactly when truthy. */
  function StrParam(name: string, v: Option<string>): (q: Query)
    ensures |q| <= 1
    ensures q != [] <==> Truthy(v)
    ensures q != [] ==> q[0] == (name, v.value)
  {
    if Truthy(v) then [(name, v.value)] else []
  }

  /** A numeric filter in a boolean position: absent and zero are left out. */
  function NumParam(name: string, v: Option<int>): (q: Query)
    ensures |q| <= 1
    ensures q != [] <==> v.Some? && v.value != 0
    ensures q != [] ==> q[0] == (name, IntToString(v.value))
  {
    if v.Some? && v.value != 0 then [(name, IntToString(v.value))] else []
  }

  /** The parameter `name=value` is sent for the filters: its filter is truthy and `value` is its text. */
  predicate Sends(f: ExternalFilters, name: string, value: string) {
    || (name == "search" && Truthy(f.search) && value == f.search.value)
    || (name == "city" && Truthy(f.city) && value == f.city.value)
    || (name == "zip" && Truthy(f.zip) && value == f.zip.value)
    || (name == "category" && Truthy(f.category) && value == f.category.value)
    || (name == "state" && Truthy(f.state) && value == f.state.value)
    || (name == "limit" && f.limit.Some? && f.limit.value != 0 && value == IntToString(f.limit.value))
    || (name == "offset" && f.offset.Some? && f.offset.value != 0 && value == IntToString(f.offset.value))
  }

  /** The generic filters as query parameters, in the order they are set: exactly the ones `Sends` names. */
  function QueryParams(f: ExternalFilters): (q: Query)
    ensures forall name, value :: (name, value) in q <==> Sends(f, name, value)
  {
    StrParam("search", f.search) + StrParam("city", f.city) + StrParam("zip", f.zip)
    + StrParam("category", f.category) + StrParam("state", f.state)
    + NumParam("limit", f.limit) + NumParam("offset", f.offset)
  }

  /** Some filter would be sent. */
  predicate AnyFilterSet(f: ExternalFilters) {
    || Truthy(f.search) || Truthy(f.city) || Truthy(f.zip) || Truthy(f.category) || Truthy(f.state)
    || (f.limit.Some? && f.limit.value != 0) || (f.offset.Some? && f.offset.value != 0)
  }

  /**
   * `?` and the parameters, or nothing when no filter is set: every filter
   * that is sent appears in the string as `name=value`.
   */
  function BuildQueryString(f: ExternalFilters): (q: string)
    ensures q == "" <==> !AnyFilterSet(f)
    ensures q != "" ==> q[0] == '?'
    ensures forall name, value | Sends(f, name, value) :: Contains(q, name + "=" + value)
  {
    var params := QueryParams(f);
    var queryString := RenderQuery(params);
    ParamsIffAnyFilter(f);
    if queryString != "" then
      SentParamsRendered(f);
      "?" + queryString
    else ""
  }

  /** Some parameter is sent exactly when some filter is set. */
  lemma ParamsIffAnyFilter(f: ExternalFilters)
    ensures |QueryParams(f)| > 0 <==> AnyFilterSet(f)
  {
  }

  /** Every sent parameter appears in the rendered query, after the `?`. */
  lemma SentParamsRendered(f: ExternalFilters)
    ensures forall name, value | Sends(f, name, value) ::
      Contains("?" + RenderQuery(QueryParams(f)), name + "=" + value)
  {
    var r := RenderQuery(QueryParams(f));
    forall name, value | Sends(f, name, value) ensures Contains("?" + r, name + "=" + value) {
      assert (name, value) in QueryParams(f);
      ContainsInFactor("?", r, "", name + "=" + value);
      assert "?" + r + "" == "?" + r;
    }
  }

  /** A zero limit or offset is the same as none. */
  lemma ZeroPagingOmitted(f: ExternalFilters)
    ensures BuildQueryString(f.(limit := Some(0))) == BuildQueryString(f.(limit := None))
    ensures BuildQueryString(f.(offset := Some(0))) == BuildQueryString(f.(offset := None))
  {
  }

  /** The connector's own copy of the phone normalisation. */
  function NormalizePhone(phone: Option<string>): (r: Option<string>)
    ensures r.None? <==> !Truthy(phone)
  {
    if !Truthy(phone) then None
    else
      var digits := DigitsOf(phone.value);
      if |digits| == 10 then Some("+1" + digits)
      else if |digits| == 11 && IsPrefix("1", digits) then Some("+" + digits)
      else phone
  }

  predicate IsSeparator(c: char) {
    c == ',' || c == '|'
  }

  /** The connector's own copy of the list parsing. */
  function ParseListField(value: Option<string>): (items: seq<string>)
    ensures !Truthy(value) ==> items == []
  {
    if !Truthy(value) then []
    else TrimNonEmpty(SplitOn(value.value, IsSeparator))
  }

  /** The two copies of the phone normalisation agree on every input. */
  lemma NormalizePhoneAgrees(phone: Option<string>)
    ensures NormalizePhone(phone) == Normalizer.NormalizePhoneNumber(phone)
  {
  }

  /** The two copies of the list parsing agree on every input. */
  lemma ParseListFieldAgrees(value: Option<string>)
    ensures ParseListField(value) == Normalizer.ParseListField(value)
  {
    if Truthy(value) {
      SplitOnSameDelimiters(value.value, IsSeparator, Normalizer.IsListDelimiter);
    }
  }

  /** Only NYC 311 has a connector. */
  function CreateConnector(source: string, clock: Clock): (c: Option<Connector>)
    ensures c.Some? <==> source == "nyc311"
    ensures c.Some? ==> c.value == NewConnector("nyc311", Nyc311Limits, clock) && WithinQuota(c.value)
  {
    if source == "nyc311" then Some(NewConnector("nyc311", Nyc311Limits, clock)) else None
  }

  /** Runs the check and returns a copy of the counters it leaves. */
  function GetRateLimitStatus(c: Connector, clock: Clock): (r: (Connector, RateLimitState))
    ensures r.0 == CanMakeRequest(c, clock).0 && r.1 == r.0.state
    ensures r.1.lastRequestTimestamp == clock.nowMs
  {
    var c' := c.(state := UpdateRateLimitState(c.state, clock));
    (c', c'.state)
  }
}

=== FILE: dateformat.dfy ===
/**
 * The "verified N days ago" caption: the whole calendar days between two
 * UTC midnights, and the unit the count is shown in.
 */
module DateFormat {
  import opened Text

  const MsPerDay := 1000 * 60 * 60 * 24

  /** `Math.floor((nowUtc - dateUtc) / 86400000)`. */
  function DiffDays(nowUtcMs: int, dateUtcMs: int): (d: int)
    ensures MsPerDay * d <= nowUtcMs - dateUtcMs < MsPerDay * (d + 1)
  {
    (nowUtcMs - dateUtcMs) / MsPerDay
  }

  /** How long ago, in the unit the caption uses. */
  datatype Ago = Today | Yesterday | Days(n: int) | Weeks(n: int) | Months(n: int) | Years(n: int) {
    /** The units in increasing size. */
    function Rank(): nat {
      match this
      case Today => 0
      case Yesterday => 1
      case Days(_) => 2
      case Weeks(_) => 3
      case Months(_) => 4
      case Years(_) => 5
    }
  }

  /**
   * The bucket of a day count: 0 is today and 1 yesterday; below 7 (a date
   * in the future included) whole days; below 30 whole weeks, 1 to 4; below
   * 365 whole months of 30 days, 1 to 12; otherwise whole years of 365 days.
   */
  function Bucket(diffDays: int): (a: Ago)
    ensures a == Today <==> diffDays == 0
    ensures a == Yesterday <==> diffDays == 1
    ensures a.Days? <==> diffDays < 7 && diffDays != 0 && diffDays != 1
    ensures a.Days? ==> a.n == diffDays
    ensures a.Weeks? <==> 7 <= diffDays < 30
    ensures a.Weeks? ==> 1 <= a.n <= 4 && 7 * a.n <= diffDays < 7 * (a.n + 1)
    ensures a.Months? <==> 30 <= diffDays < 365
    ensures a.Months? ==> 1 <= a.n <= 12 && 30 * a.n <= diffDays < 30 * (a.n + 1)
    ensures a.Years? <==> diffDays >= 365
    ensures a.Years? ==> a.n >= 1 && 365 * a.n <= diffDays < 365 * (a.n + 1)
  {
    if diffDays == 0 then Today
    else if diffDays == 1 then Yesterday
    else if diffDays < 7 then Days(diffDays)
    else if diffDays < 30 then Weeks(diffDays / 7)
    else if diffDays < 365 then Months(diffDays / 30)
    else Years(diffDays / 365)
  }

  /** The caption of a bucket. */
  function Caption(a: Ago): string {
    match a
    case Today => "Verified today"
    case Yesterday => "Verified yesterday"
    case Days(n) => "Verified " + IntToString(n) + " days ago"
    case Weeks(n) => "Verified " + IntToString(n) + " weeks ago"
    case Months(n) => "Verified " + IntToString(n) + " months ago"
    case Years(n) => "Verified " + IntToString(n) + " years ago"
  }

  /** `formatVerifiedDate`, from the day count on. */
  function FormatVerifiedDays(diffDays: int): (caption: string)
    ensures diffDays == 0 ==> caption == "Verified today"
    ensures diffDays == 1 ==> caption == "Verified yesterday"
    ensures diffDays < 7 && diffDays != 0 && diffDays != 1 ==>
      caption == "Verified " + IntToString(diffDays) + " days ago"
    ensures 7 <= diffDays < 30 ==> caption == "Verified " + IntToString(diffDays / 7) + " weeks ago"
    ensures 30 <= diffDays < 365 ==> caption == "Verified " + IntToString(diffDays / 30) + " months ago"
    ensures diffDays >= 365 ==> caption == "Verified " + IntToString(diffDays / 365) + " years ago"
    ensures IsPrefix("Verified ", caption)
  {
    Caption(Bucket(diffDays))
  }

  /**
   * Older is never shown as newer: for non-negative counts, a later count is
   * in the same unit with at least the same number, or in a larger unit.
   */
  lemma BucketMonotone(d1: int, d2: int)
    requires 0 <= d1 <= d2
    ensures Bucket(d1).Rank() <= Bucket(d2).Rank()
    ensures Bucket(d1).Rank() == Bucket(d2).Rank() && Bucket(d1).Rank() >= 2 ==> Bucket(d1).n <= Bucket(d2).n
  {
    var a1, a2 := Bucket(d1), Bucket(d2);
    if a1.Weeks? && a2.Weeks? {
      assert 7 * a1.n <= d1 <= d2 < 7 * (a2.n + 1);
    } else if a1.Months? && a2.Months? {
      assert 30 * a1.n <= d1 <= d2 < 30 * (a2.n + 1);
    } else if a1.Years? && a2.Years? {
      assert 365 * a1.n <= d1 <= d2 < 365 * (a2.n + 1);
    }
  }

  /** Days 360 to 364 read as "12 months ago", before the first year. */
  lemma TwelveMonthsBeforeAYear(d: int)
    requires 360 <= d < 365
    ensures Bucket(d) == Months(12)
  {
  }
}

=== FILE: externalsources.dfy ===
/**
 * Resources from an external directory: only NYC 311 has a connector; its
 * records become resources with an `ext-` id and the current time as their
 * creation and update time.
 */
module ExternalSources {
  import opened Wrappers
  import opened Types
  import opened Connector
  import Normalizer
  import Nyc311

  /** The id an external record gets as a resource. */
  function ExternalId(source: string, e: ExternalService): string {
    "ext-" + source + "-" + e.sourceId
  }

  /**
   * An external record as a resource: its partial resource, with the id and
   * both timestamps added and nothing else changed. The trust fields are
   * absent, as the partial resource has none.
   */
  function AsResource(source: string, e: ExternalService, nowIso: string): (r: Resource)
    ensures r.id == ExternalId(source, e)
    ensures r.verified && r.trust == NoTrust
    ensures Normalizer.ToDraft(r)
      == Normalizer.ToResource(e).(id := Some(ExternalId(source, e)), createdAt := Some(nowIso), updatedAt := Some(nowIso))
  {
    var d := Normalizer.ToResource(e);
    Resource(
      id := ExternalId(source, e),
      name := d.name.value,
      description := d.description,
      categories := d.categories.value,
      eligibility := d.eligibility,
      address := d.address,
      city := d.city,
      state := d.state.value,
      zip := d.zip,
      latitude := d.latitude,
      longitude := d.longitude,
      phone := d.phone,
      website := d.website,
      applicationGuide := d.applicationGuide,
      verified := d.verified.value,
      source := d.source,
      sourceId := d.sourceId,
      organizationName := d.organizationName,
      organizationId := d.organizationId,
      email := d.email,
      languages := d.languages,
      interpretationServices := d.interpretationServices,
      accessibility := d.accessibility,
      fees := d.fees,
      schedule := d.schedule,
      serviceArea := d.serviceArea,
      lastVerifiedAt := d.lastVerifiedAt,
      dataSourceUrl := d.dataSourceUrl,
      createdAt := nowIso,
      updatedAt := nowIso,
      trust := NoTrust)
  }

  /** The page a fresh NYC 311 connector fetches for these filters. */
  function Nyc311Page(f: ExternalFilters, clock: Clock, transport: Query -> Reply<seq<Raw311>>): ConnectorResponse<seq<ExternalService>> {
    Nyc311.FetchServices(NewConnector(Nyc311.Source, Nyc311Limits, clock), clock, f, transport).1
  }

  /**
   * Resources of an external source. Any source but `nyc311` yields nothing
   * (no connector is created); a failed page yields nothing; otherwise each
   * record of the page becomes one resource, in order.
   */
  function FetchFromExternalSource(source: string, f: ExternalFilters, clock: Clock,
                                   transport: Query -> Reply<seq<Raw311>>): (rs: seq<Resource>)
    ensures source != Nyc311.Source ==> rs == []
    ensures source == Nyc311.Source ==>
      var page := Nyc311Page(f, clock, transport);
      && (!page.success ==> rs == [])
      && (page.success ==>
            && |rs| == |page.data.value|
            && forall i | 0 <= i < |rs| :: rs[i] == AsResource(source, page.data.value[i], clock.nowIso))
    ensures forall r | r in rs :: r.verified && r.trust == NoTrust
  {
    if source != Nyc311.Source then []
    else
      var page := Nyc311Page(f, clock, transport);
      if !page.success || page.data.None? then []
      else
        var services := page.data.value;
        seq(|services|, i requires 0 <= i < |services| => AsResource(source, services[i], clock.nowIso))
  }

  lemma Nyc311Prefix(id: string)
    ensures "ext-" + Nyc311.Source + "-" + id == "ext-nyc311-" + id
  {
    assert "ext-" + Nyc311.Source + "-" == "ext-nyc311-";
  }

  /**
   * End to end: when the NYC 311 API answers the query with records, the
   * fresh connector is never rate-limited, and each record becomes a
   * resource whose id is `ext-nyc311-` followed by the record's unique id and
   * whose name is the service name.
   */
  lemma ExternalIdsFromRecords(f: ExternalFilters, clock: Clock, transport: Query -> Reply<seq<Raw311>>, raws: seq<Raw311>)
    requires transport(Nyc311.ServicesQuery(f)) == Body(Some(raws))
    ensures var rs := FetchFromExternalSource(Nyc311.Source, f, clock, transport);
      && |rs| == |raws|
      && forall i | 0 <= i < |rs| ::
           rs[i].id == "ext-nyc311-" + raws[i].uniqueId && rs[i].name == raws[i].serviceName
  {
    var c := NewConnector(Nyc311.Source, Nyc311Limits, clock);
    var send := () => transport(Nyc311.ServicesQuery(f));
    NewConnectorAdmits(Nyc311.Source, Nyc311Limits, clock, clock);
    var req := MakeRequest(c, clock, send).1;
    assert req.success && req.data == Some(raws);
    var page := Nyc311Page(f, clock, transport);
    assert page.success && |page.data.value| == |raws|;
    var rs := FetchFromExternalSource(Nyc311.Source, f, clock, transport);
    forall i | 0 <= i < |rs|
      ensures rs[i].id == "ext-nyc311-" + raws[i].uniqueId && rs[i].name == raws[i].serviceName
    {
      var e := page.data.value[i];
      assert e == Normalizer.NormalizeExternalService(raws[i], Nyc311.Source, clock.nowIso);
      assert rs[i] == AsResource(Nyc311.Source, e, clock.nowIso);
      assert e.sourceId == raws[i].uniqueId && e.name == raws[i].serviceName;
      Nyc311Prefix(e.sourceId);
    }
  }
}

=== FILE: listresources.dfy ===
/**
 * The list endpoint's aggregation: the client-side filters over resource
 * cards, the freshness summary and source mix of a result list, the choice
 * between local and external data, and the cached listing itself.
 */
module ListResources {
  import opened Wrappers
  import opened Text
  import opened Types
  import Mappers
  import Cache
  import Repository
  import ExternalSources

  const CacheTtlSeconds := 3600
  const MaxExternalResources := 50
  const RecentlyVerifiedMs := 1000 * 60 * 60 * 72
  const DefaultRadiusMiles := 5.0

  /** The distance in miles between two (latitude, longitude) points. */
  type Distance = (real, real, real, real) -> real

  /** Open now: the card's status is open or limited. */
  predicate MatchesOpenNow(d: CardDTO) {
    d.availabilityStatus == Open || d.availabilityStatus == Limited
  }

  /**
   * Without a precomputed status, a resource's card is open now exactly when
   * its text mentions neither a waitlist nor being full, and it either
   * mentions limited capacity or the resource is verified.
   */
  lemma OpenNowFromDerivedStatus(r: Resource, clock: Clock)
    requires r.trust.availabilityStatus.None?
    ensures var t := Mappers.AvailabilityText(r);
      (MatchesOpenNow(Mappers.ToResourceCardDTO(r, clock))
       <==> !Mappers.MentionsWaitlist(t) && !Mappers.MentionsFull(t) && (Mappers.MentionsLimited(t) || r.verified))
  {
  }

  /**
   * Verified within the last 72 hours: false without a (truthy) verification
   * time or when it does not parse (the age is then `NaN`).
   */
  predicate MatchesVerifiedRecently(d: CardDTO, clock: Clock) {
    if !Truthy(d.lastVerifiedAt) then false
    else match clock.parseMs(d.lastVerifiedAt.value)
      case None => false
      case Some(ms) => clock.nowMs - ms <= RecentlyVerifiedMs
  }

  /**
   * Verified recently is exactly "the verification time would grade fresh or
   * aging": both read the same timestamp against the same 72-hour bound.
   */
  lemma VerifiedRecentlyIffNotStale(d: CardDTO, clock: Clock)
    ensures MatchesVerifiedRecently(d, clock)
      <==> Mappers.ComputeFreshnessState(d.lastVerifiedAt, clock) in {Fresh, Aging}
  {
  }

  /**
   * Within the requested radius (5 miles by default) of the requested point.
   * Without a requested point everything matches; a card without coordinates
   * then never does.
   */
  function MatchesNearMe(d: CardDTO, f: Filters, distance: Distance): (ok: bool)
    ensures f.nearLat.None? || f.nearLng.None? ==> ok
    ensures f.nearLat.Some? && f.nearLng.Some? && (d.latitude.None? || d.longitude.None?) ==> !ok
    ensures f.nearLat.Some? && f.nearLng.Some? && d.latitude.Some? && d.longitude.Some? ==>
      (ok <==> distance(f.nearLat.value, f.nearLng.value, d.latitude.value, d.longitude.value)
                 <= f.nearRadiusMiles.GetOr(DefaultRadiusMiles))
  {
    if f.nearLat.None? || f.nearLng.None? then true
    else if d.latitude.None? || d.longitude.None? then false
    else
      var radius := f.nearRadiusMiles.GetOr(DefaultRadiusMiles);
      distance(f.nearLat.value, f.nearLng.value, d.latitude.value, d.longitude.value) <= radius
  }

  /** Widening the radius never drops a card that matched. */
  lemma NearMeMonotoneInRadius(d: CardDTO, f: Filters, distance: Distance, wider: real)
    requires MatchesNearMe(d, f, distance)
    requires wider >= f.nearRadiusMiles.GetOr(DefaultRadiusMiles)
    ensures MatchesNearMe(d, f.(nearRadiusMiles := Some(wider)), distance)
  {
  }

  /** A card passes the client-side filters: each enabled filter holds. */
  predicate Keep(d: CardDTO, f: Filters, clock: Clock, distance: Distance) {
    && (f.openNow == Some(true) ==> MatchesOpenNow(d))
    && (f.verifiedRecently == Some(true) ==> MatchesVerifiedRecently(d, clock))
    && MatchesNearMe(d, f, distance)
  }

  /**
   * The client-side filters: the cards that pass, in their original order,
   * each as often as in the input.
   */
  function ApplyClientSideFilters(ds: seq<CardDTO>, f: Filters, clock: Clock, distance: Distance): (r: seq<CardDTO>)
    ensures |r| <= |ds|
    ensures forall d | d in r :: d in ds && Keep(d, f, clock, distance)
    ensures forall d | d in ds && Keep(d, f, clock, distance) :: d in r
    ensures forall d :: multiset(r)[d] == if Keep(d, f, clock, distance) then multiset(ds)[d] else 0
    decreases |ds|
  {
    if |ds| == 0 then []
    else
      var rest := ApplyClientSideFilters(ds[1..], f, clock, distance);
      assert ds == [ds[0]] + ds[1..];
      if Keep(ds[0], f, clock, distance) then [ds[0]] + rest else rest
  }

  /** `a` is `b` with some elements left out. */
  predicate IsSubsequence<T(==)>(a: seq<T>, b: seq<T>)
    decreases |b|
  {
    if |a| == 0 then true
    else if |b| == 0 then false
    else if a[0] == b[0] then IsSubsequence(a[1..], b[1..])
    else IsSubsequence(a, b[1..])
  }

  /** The filters keep the surviving cards in their original order. */
  lemma {:induction false} FilteredIsSubsequence(ds: seq<CardDTO>, f: Filters, clock: Clock, distance: Distance)
    ensures IsSubsequence(ApplyClientSideFilters(ds, f, clock, distance), ds)
    decreases |ds|
  {
    if |ds| > 0 {
      var rest := ApplyClientSideFilters(ds[1..], f, clock, distance);
      FilteredIsSubsequence(ds[1..], f, clock, distance);
      if Keep(ds[0], f, clock, distance) {
        assert ([ds[0]] + rest)[1..] == rest;
      } else if |rest| > 0 {
        // a card equal to a dropped one is dropped too, so the first kept card differs from ds[0]
        assert rest[0] in rest;
        assert rest[0] != ds[0];
      }
    }
  }

  /** Filtering a concatenation filters each part. */
  lemma {:induction false} FilterDistributes(a: seq<CardDTO>, b: seq<CardDTO>, f: Filters, clock: Clock, distance: Distance)
    ensures ApplyClientSideFilters(a + b, f, clock, distance)
      == ApplyClientSideFilters(a, f, clock, distance) + ApplyClientSideFilters(b, f, clock, distance)
    decreases |a|
  {
    if |a| > 0 {
      assert (a + b)[1..] == a[1..] + b;
      FilterDistributes(a[1..], b, f, clock, distance);
    } else {
      assert a + b == b;
    }
  }

  /** The truthy confirmation times of the cards, in order. */
  function Confirmations(ds: seq<CardDTO>): (cs: seq<string>)
    ensures forall c | c in cs :: exists d | d in ds :: Truthy(d.lastConfirmedAt) && d.lastConfirmedAt.value == c
    ensures forall d | d in ds && Truthy(d.lastConfirmedAt) :: d.lastConfirmedAt.value in cs
    decreases |ds|
  {
    if |ds| == 0 then []
    else
      assert ds == [ds[0]] + ds[1..];
      (if Truthy(ds[0].lastConfirmedAt) then [ds[0].lastConfirmedAt.value] else []) + Confirmations(ds[1..])
  }

  /** The least string in character order: what `sort()[0]` picks (see `Text.LexLt`). */
  function MinLex(cs: seq<string>): (m: string)
    requires |cs| > 0
    ensures m in cs
    ensures forall c | c in cs :: LexLe(m, c)
    decreases |cs|
  {
    if |cs| == 1 then cs[0]
    else
      var rest := MinLex(cs[1..]);
      assert cs == [cs[0]] + cs[1..];
      if LexLe(cs[0], rest) then
        assert forall c | c in cs[1..] :: LexLe(cs[0], c) by {
          forall c | c in cs[1..] ensures LexLe(cs[0], c) {
            LexLeTransitive(cs[0], rest, c);
          }
        }
        cs[0]
      else
        LexLeTotal(cs[0], rest);
        rest
  }

  /** The number of cards in freshness state `s`. */
  function CountState(ds: seq<CardDTO>, s: FreshnessState): (n: nat)
    ensures n <= |ds|
    decreases |ds|
  {
    if |ds| == 0 then 0
    else (if ds[0].freshnessState == s then 1 else 0) + CountState(ds[1..], s)
  }

  /** No card is both stale and unknown, so the two counts together fit in the list. */
  lemma {:induction false} StaleAndUnknownFit(ds: seq<CardDTO>)
    ensures CountState(ds, Stale) + CountState(ds, FreshnessUnknown) <= |ds|
    decreases |ds|
  {
    if |ds| > 0 {
      StaleAndUnknownFit(ds[1..]);
    }
  }

  /**
   * The freshness summary of a list: its oldest confirmation (the least
   * truthy confirmation time, null when there is none) and how many cards are
   * stale and how many unknown.
   */
  function ComputeFreshness(ds: seq<CardDTO>): (s: ListFreshness)
    ensures s.oldestConfirmationAt.None? <==> forall d | d in ds :: !Truthy(d.lastConfirmedAt)
    ensures s.oldestConfirmationAt.Some? ==>
      && (exists d | d in ds :: Truthy(d.lastConfirmedAt) && d.lastConfirmedAt.value == s.oldestConfirmationAt.value)
      && (forall d | d in ds && Truthy(d.lastConfirmedAt) :: LexLe(s.oldestConfirmationAt.value, d.lastConfirmedAt.value))
    ensures s.staleCount == CountState(ds, Stale) && s.unknownCount == CountState(ds, FreshnessUnknown)
    ensures s.staleCount + s.unknownCount <= |ds|
  {
    var confirmations := Confirmations(ds);
    StaleAndUnknownFit(ds);
    assert |confirmations| == 0 ==> forall d | d in ds :: !Truthy(d.lastConfirmedAt);
    ListFreshness(
      oldestConfirmationAt := if |confirmations| > 0 then Some(MinLex(confirmations)) else None,
      staleCount := CountState(ds, Stale),
      unknownCount := CountState(ds, FreshnessUnknown))
  }

  /** The key a card is counted under in the source mix: its source, "local" when null. */
  function SourceKey(d: CardDTO): string {
    d.source.GetOr("local")
  }

  /** How many cards count under `key`. */
  function CountSource(ds: seq<CardDTO>, key: string): (n: nat)
    ensures n <= |ds|
    decreases |ds|
  {
    if |ds| == 0 then 0
    else (if SourceKey(ds[0]) == key then 1 else 0) + CountSource(ds[1..], key)
  }

  lemma {:induction false} CountSourceAppend(ds: seq<CardDTO>, d: CardDTO, key: string)
    ensures CountSource(ds + [d], key) == CountSource(ds, key) + (if SourceKey(d) == key then 1 else 0)
    decreases |ds|
  {
    if |ds| > 0 {
      assert (ds + [d])[1..] == ds[1..] + [d];
      CountSourceAppend(ds[1..], d, key);
    }
  }

  /** `acc[key] ?? 0` of an object held as its entries. */
  function Lookup(mix: seq<(string, nat)>, key: string): nat
    decreases |mix|
  {
    if |mix| == 0 then 0
    else if mix[0].0 == key then mix[0].1
    else Lookup(mix[1..], key)
  }

  /** The sum of an object's counts. */
  function Total(mix: seq<(string, nat)>): nat
    decreases |mix|
  {
    if |mix| == 0 then 0 else mix[0].1 + Total(mix[1..])
  }

  predicate Positive(mix: seq<(string, nat)>) {
    forall i | 0 <= i < |mix| :: mix[i].1 >= 1
  }

  /** `acc[key] = (acc[key] ?? 0) + 1`: bumps an existing entry in place, or appends a new one. */
  function Bump(mix: seq<(string, nat)>, key: string): (r: seq<(string, nat)>)
    requires Cache.DistinctNames(mix)
    ensures Cache.DistinctNames(r)
    ensures Lookup(r, key) == Lookup(mix, key) + 1
    ensures forall k | k != key :: Lookup(r, k) == Lookup(mix, k)
    ensures Total(r) == Total(mix) + 1
    ensures Positive(mix) ==> Positive(r)
    ensures forall k :: k in Cache.Names(r) <==> k in Cache.Names(mix) || k == key
    decreases |mix|
  {
    if |mix| == 0 then [(key, 1)]
    else if mix[0].0 == key then
      assert mix == [mix[0]] + mix[1..];
      Cache.NamesCons(mix[0], mix[1..]);
      Cache.NamesCons((key, mix[0].1 + 1), mix[1..]);
      assert Lookup(mix[1..], key) == 0 by { LookupAbsent(mix[1..], key); }
      [(key, mix[0].1 + 1)] + mix[1..]
    else
      assert mix == [mix[0]] + mix[1..];
      Cache.DistinctNamesCons(mix);
      var rest := Bump(mix[1..], key);
      Cache.NamesCons(mix[0], mix[1..]);
      Cache.NamesCons(mix[0], rest);
      Cache.DistinctNamesExtend(mix[0], rest);
      [mix[0]] + rest
  }

  lemma {:induction false} LookupAbsent(mix: seq<(string, nat)>, key: string)
    requires key !in Cache.Names(mix)
    ensures Lookup(mix, key) == 0
    decreases |mix|
  {
    if |mix| > 0 {
      Cache.NamesCons(mix[0], mix[1..]);
      assert mix == [mix[0]] + mix[1..];
      LookupAbsent(mix[1..], key);
    }
  }

  /**
   * The source mix: one entry per source key, counting the cards under that
   * key. The contract fixes no order of the entries.
   */
  function ComputeSourceMix(ds: seq<CardDTO>): (mix: seq<(string, nat)>)
    ensures Cache.DistinctNames(mix) && Positive(mix)
    ensures forall key :: Lookup(mix, key) == CountSource(ds, key)
    ensures forall key :: key in Cache.Names(mix) <==> exists d | d in ds :: SourceKey(d) == key
    ensures Total(mix) == |ds|
    decreases |ds|
  {
    if |ds| == 0 then []
    else
      var front := ds[..|ds| - 1];
      var last := ds[|ds| - 1];
      assert ds == front + [last];
      var mix := Bump(ComputeSourceMix(front), SourceKey(last));
      assert forall key :: Lookup(mix, key) == CountSource(ds, key) by {
        forall key ensures Lookup(mix, key) == CountSource(ds, key) {
          CountSourceAppend(front, last, key);
        }
      }
      assert forall key :: key in Cache.Names(mix) <==> exists d | d in ds :: SourceKey(d) == key by {
        forall key ensures key in Cache.Names(mix) <==> exists d | d in ds :: SourceKey(d) == key {
          if exists d | d in ds :: SourceKey(d) == key {
            var d :| d in ds && SourceKey(d) == key;
            if d != last {
              assert d in front;
            }
          }
        }
      }
      mix
  }

  /** Cards without a source are counted under "local", together with the cards from "local". */
  lemma NullSourceCountsAsLocal(ds: seq<CardDTO>, i: nat)
    requires i < |ds| && ds[i].source.None?
    ensures Lookup(ComputeSourceMix(ds), "local") >= 1
  {
    assert SourceKey(ds[i]) == "local";
    CountSourcePositive(ds, i);
  }

  lemma {:induction false} CountSourcePositive(ds: seq<CardDTO>, i: nat)
    requires i < |ds|
    ensures CountSource(ds, SourceKey(ds[i])) >= 1
    decreases |ds|
  {
    if i > 0 {
      assert ds[1..][i - 1] == ds[i];
      CountSourcePositive(ds[1..], i - 1);
    }
  }

  /** Where the listed cards come from. */
  datatype Origin = LocalOrigin | ExternalOrigin(source: string)

  /**
   * The source choice: a requested source other than "local" replaces the
   * local rows; with no requested source, an empty local page falls back to
   * NYC 311; otherwise the local rows stand.
   */
  function SelectSource(f: Filters, localCount: nat): (o: Origin)
    ensures Truthy(f.source) && f.source.value != "local" ==> o == ExternalOrigin(f.source.value)
    ensures !Truthy(f.source) && localCount == 0 ==> o == ExternalOrigin("nyc311")
    ensures o == LocalOrigin <==> (f.source == Some("local") || (!Truthy(f.source) && localCount > 0))
  {
    if Truthy(f.source) && f.source.value != "local" then ExternalOrigin(f.source.value)
    else if !Truthy(f.source) && localCount == 0 then ExternalOrigin("nyc311")
    else LocalOrigin
  }

  /** Asking for "local" explicitly never falls back to NYC 311, even on an empty page. */
  lemma LocalRequestNeverFallsBack(f: Filters, localCount: nat)
    requires f.source == Some("local")
    ensures SelectSource(f, localCount) == LocalOrigin
  {
  }

  function Min(a: int, b: int): int {
    if a < b then a else b
  }

  /**
   * The filters an external source is asked with: the text and place
   * filters as given, the first category, at most 50 records and always the
   * first page.
   */
  function ExternalFiltersFor(f: Filters): (e: ExternalFilters)
    ensures e.limit.Some? && e.limit.value <= MaxExternalResources && e.limit.value <= f.limit
    ensures e.limit.value == MaxExternalResources || e.limit.value == f.limit
    ensures e.offset == Some(0)
    ensures e.search == f.search && e.city == f.city && e.zip == f.zip && e.state == f.state
    ensures e.category.Some? <==> f.categories.Some? && |f.categories.value| > 0
    ensures e.category.Some? ==> e.category.value == f.categories.value[0].Name()
  {
    ExternalFilters(
      search := f.search,
      city := f.city,
      zip := f.zip,
      category := if f.categories.Some? && |f.categories.value| > 0 then Some(f.categories.value[0].Name()) else None,
      state := f.state,
      limit := Some(Min(MaxExternalResources, f.limit)),
      offset := Some(0))
  }

  function Cards(rs: seq<Resource>, clock: Clock): (ds: seq<CardDTO>)
    ensures |ds| == |rs| && forall i | 0 <= i < |ds| :: ds[i] == Mappers.ToResourceCardDTO(rs[i], clock)
  {
    seq(|rs|, i requires 0 <= i < |rs| => Mappers.ToResourceCardDTO(rs[i], clock))
  }

  /**
   * Everything outside the pipeline: the clock, the resources store and the
   * trust tables, the NYC 311 API, the distance function, `String(n)` for
   * the numbers in a cache key, and the clock reading once the listing has
   * been produced, at which a miss is stored.
   */
  datatype World = World(
    clock: Clock,
    store: Repository.LocalQuery -> Repository.StoreReply,
    lookup: seq<string> -> Repository.TrustTables,
    transport: Query -> Reply<seq<Raw311>>,
    distance: Distance,
    formatNumber: real -> string,
    producedMs: int)

  /** The cards before the client-side filters, from the chosen source. */
  function Candidates(f: Filters, w: World, local: seq<Resource>): (ds: seq<CardDTO>)
    ensures SelectSource(f, |local|) == LocalOrigin ==> ds == Cards(local, w.clock)
    ensures SelectSource(f, |local|).ExternalOrigin? ==>
      ds == Cards(ExternalSources.FetchFromExternalSource(SelectSource(f, |local|).source, ExternalFiltersFor(f), w.clock, w.transport), w.clock)
  {
    match SelectSource(f, |local|)
    case LocalOrigin => Cards(local, w.clock)
    case ExternalOrigin(source) =>
      Cards(ExternalSources.FetchFromExternalSource(source, ExternalFiltersFor(f), w.clock, w.transport), w.clock)
  }

  /** A list body whose count is its length and whose summaries describe its data. */
  predicate Consistent(b: ListBody) {
    && b.count == |b.data|
    && b.freshness == ComputeFreshness(b.data)
    && b.sourceMix == ComputeSourceMix(b.data)
  }

  /**
   * The uncached listing: the local page (its failure propagates), the cards
   * of the chosen source, the client-side filters, then the count and both
   * summaries of what survived.
   */
  function Produce(f: Filters, w: World): (r: Result<ListBody, string>)
    ensures var local := Repository.FetchLocalResources(f, w.store, w.lookup);
      && (r.Failure? <==> local.Failure?)
      && (r.Failure? ==> r.error == local.error)
      && (r.Success? ==>
            && Consistent(r.value)
            && r.value.data == ApplyClientSideFilters(Candidates(f, w, local.value.data), f, w.clock, w.distance))
    ensures r.Success? ==> Total(r.value.sourceMix) == r.value.count
  {
    match Repository.FetchLocalResources(f, w.store, w.lookup)
    case Failure(e) => Failure(e)
    case Success(local) =>
      var filtered := ApplyClientSideFilters(Candidates(f, w, local.data), f, w.clock, w.distance);
      Success(ListBody(filtered, |filtered|, ComputeFreshness(filtered), ComputeSourceMix(filtered)))
  }

  function BoolText(b: bool): string {
    if b then "true" else "false"
  }

  function CategoryNames(cs: seq<Category>): (names: seq<string>)
    ensures |names| == |cs| && forall i | 0 <= i < |cs| :: names[i] == cs[i].Name()
  {
    seq(|cs|, i requires 0 <= i < |cs| => cs[i].Name())
  }

  /** Renders an optional value, keeping absence as absence. */
  function Render<T>(v: Option<T>, text: T -> string): Option<string> {
    if v.Some? then Some(text(v.value)) else None
  }

  /** The cache-key parameters of a filter set, with every value rendered as the template string would. */
  function ListCacheParams(f: Filters, formatNumber: real -> string): (ps: seq<Cache.Param>)
    ensures |ps| == 14
    ensures Cache.DistinctNames(ps)
    ensures ps[12] == ("limit", Some(IntToString(f.limit))) && ps[13] == ("offset", Some(IntToString(f.offset)))
  {
    [ ("categories", Render(f.categories, (cs: seq<Category>) => Join(CategoryNames(cs), ","))),
      ("search", f.search),
      ("city", f.city),
      ("state", f.state),
      ("zip", f.zip),
      ("verified", Render(f.verified, BoolText)),
      ("openNow", Render(f.openNow, BoolText)),
      ("verifiedRecently", Render(f.verifiedRecently, BoolText)),
      ("nearLat", Render(f.nearLat, formatNumber)),
      ("nearLng", Render(f.nearLng, formatNumber)),
      ("nearRadiusMiles", Render(f.nearRadiusMiles, formatNumber)),
      ("source", f.source),
      ("limit", Some(IntToString(f.limit))),
      ("offset", Some(IntToString(f.offset))) ]
  }

  function ListCacheKey(f: Filters, formatNumber: real -> string): (key: string)
    ensures IsPrefix("resources?", key)
  {
    var ps := ListCacheParams(f, formatNumber);
    assert ps[12] in ps;
    Cache.GenerateCacheKey("resources", ps)
  }

  /** The eligibility filter is neither sent to the store nor part of the key: filter sets that differ only there share a cache entry. */
  lemma EligibilityNotInKey(f: Filters, formatNumber: real -> string, eligibility: Option<seq<string>>)
    ensures ListCacheKey(f.(eligibility := eligibility), formatNumber) == ListCacheKey(f, formatNumber)
    ensures Repository.LocalQueryOf(f.(eligibility := eligibility)) == Repository.LocalQueryOf(f)
  {
  }

  /** The producer as the cache runs it: a body, never null. */
  function Producer(f: Filters, w: World): Result<Option<ListBody>, string> {
    match Produce(f, w)
    case Failure(e) => Failure(e)
    case Success(body) => Success(Some(body))
  }

  /** Every body in the cache is consistent. */
  predicate CacheConsistent(c: Cache.Store<Option<ListBody>>) {
    forall k | k in c && c[k].data.Some? :: Consistent(c[k].data.value)
  }

  /**
   * The cached listing. A hit answers the stored body, marked cached, and
   * leaves the cache as it was; a miss runs the producer, stores its body for
   * an hour (and a day's stale window) from the moment it was produced and
   * answers it, marked not cached; a producer failure propagates.
   */
  function ListResources(c: Cache.Store<Option<ListBody>>, f: Filters, w: World): (r: (Cache.Store<Option<ListBody>>, Result<ListResponse, string>))
    ensures var key := ListCacheKey(f, w.formatNumber);
      Cache.IsHit(c, key, w.clock.nowMs) ==> r == (c, Success(ListResponse(c[key].data.value, true)))
    ensures var key := ListCacheKey(f, w.formatNumber);
      !Cache.IsHit(c, key, w.clock.nowMs) && Produce(f, w).Failure? ==> r.1 == Failure(Produce(f, w).error)
    ensures var key := ListCacheKey(f, w.formatNumber);
      !Cache.IsHit(c, key, w.clock.nowMs) && Produce(f, w).Success? ==>
        && r.1 == Success(ListResponse(Produce(f, w).value, false))
        && r.0 == Cache.SetCache(Cache.GetFromCache(c, key, w.clock.nowMs).0, key, Some(Produce(f, w).value), CacheTtlSeconds, w.producedMs)
  {
    var key := ListCacheKey(f, w.formatNumber);
    var (c', fetched) := Cache.GetCachedOrFetch(c, key, () => Producer(f, w), CacheTtlSeconds, w.clock.nowMs, w.producedMs);
    match fetched
    case Failure(e) => (c', Failure(e))
    case Success(got) =>
      assert got.data.Some?;
      (c', Success(ListResponse(got.data.value, got.cached)))
  }

  /**
   * Consistency is an invariant of the cache: when every stored body is
   * consistent, so is every body after a listing, and the answered body's
   * count is the length of its data.
   */
  lemma ListingKeepsCacheConsistent(c: Cache.Store<Option<ListBody>>, f: Filters, w: World)
    requires CacheConsistent(c)
    ensures CacheConsistent(ListResources(c, f, w).0)
    ensures ListResources(c, f, w).1.Success? ==> Consistent(ListResources(c, f, w).1.value.body)
  {
    var key := ListCacheKey(f, w.formatNumber);
    var now := w.clock.nowMs;
    if !Cache.IsHit(c, key, now) {
      var read := Cache.GetFromCache(c, key, now).0;
      ReadKeepsConsistent(c, key, now);
      if Produce(f, w).Success? {
        StoreKeepsConsistent(read, key, Produce(f, w).value, w.producedMs);
      }
    }
  }

  lemma ReadKeepsConsistent(c: Cache.Store<Option<ListBody>>, key: string, now: int)
    requires CacheConsistent(c)
    ensures CacheConsistent(Cache.GetFromCache(c, key, now).0)
  {
    var read := Cache.GetFromCache(c, key, now).0;
    assert forall k | k in read :: k in c && read[k] == c[k];
  }

  lemma StoreKeepsConsistent(read: Cache.Store<Option<ListBody>>, key: string, body: ListBody, now: int)
    requires CacheConsistent(read) && Consistent(body)
    ensures CacheConsistent(Cache.SetCache(read, key, Some(body), CacheTtlSeconds, now))
  {
    var stored := Cache.SetCache(read, key, Some(body), CacheTtlSeconds, now);
    forall k | k in stored && stored[k].data.Some? ensures Consistent(stored[k].data.value) {
      if k != key {
        assert stored[k] == read[k];
      }
    }
  }

  /**
   * A second identical listing inside the hour after the first one stored its
   * body is a hit on that body, whatever the store, the tables or the API
   * would now say.
   */
  lemma RepeatedListingIsCached(c: Cache.Store<Option<ListBody>>, f: Filters, w: World, w2: World)
    requires w2.formatNumber == w.formatNumber
    requires w.producedMs <= w2.clock.nowMs < w.producedMs + CacheTtlSeconds * 1000
    requires !Cache.IsHit(c, ListCacheKey(f, w.formatNumber), w.clock.nowMs)
    requires Produce(f, w).Success?
    ensures var (c1, r1) := ListResources(c, f, w);
      && r1 == Success(ListResponse(Produce(f, w).value, false))
      && ListResources(c1, f, w2) == (c1, Success(ListResponse(Produce(f, w).value, true)))
  {
    var key := ListCacheKey(f, w.formatNumber);
    Cache.WarmCacheHit(c, key, () => Producer(f, w), () => Producer(f, w2), CacheTtlSeconds, w.clock.nowMs, w.producedMs, w2.clock.nowMs, w2.producedMs);
  }
}

=== FILE: mappers.dfy ===
/**
 * The trust/freshness mapper: turns a resource row into a resource card,
 * inferring availability from keywords, grading freshness against the 24h
 * and 72h thresholds, deriving the verification badge and source label, and
 * computing a confidence score that decays with the age of the verification.
 */
module Mappers {
  import opened Wrappers
  import opened Text
  import opened Types

  const FreshHours := 24
  const AgingHours := 72
  const HourMs := 1000 * 60 * 60

  /** The text availability is inferred from: name, description and schedule, lower-cased. */
  function AvailabilityText(r: Resource): string {
    ToLower(r.name + " " + r.description.GetOr("") + " " + r.schedule.GetOr(""))
  }

  predicate MentionsWaitlist(t: string) {
    Contains(t, "waitlist")
  }

  predicate MentionsFull(t: string) {
    Contains(t, "full") || Contains(t, "no vacancy")
  }

  predicate MentionsLimited(t: string) {
    Contains(t, "limited")
  }

  /** First match wins: waitlist, then full, then limited, then the verified flag. */
  function InferAvailabilityStatus(r: Resource): (s: AvailabilityStatus)
    ensures var t := AvailabilityText(r);
      && (s == Waitlist <==> MentionsWaitlist(t))
      && (s == Full <==> !MentionsWaitlist(t) && MentionsFull(t))
      && (s == Limited <==> !MentionsWaitlist(t) && !MentionsFull(t) && MentionsLimited(t))
      && (s == Open <==> !MentionsWaitlist(t) && !MentionsFull(t) && !MentionsLimited(t) && r.verified)
      && (s == Unknown <==> !MentionsWaitlist(t) && !MentionsFull(t) && !MentionsLimited(t) && !r.verified)
  {
    var text := AvailabilityText(r);
    if Contains(text, "waitlist") then Waitlist
    else if Contains(text, "full") || Contains(text, "no vacancy") then Full
    else if Contains(text, "limited") then Limited
    else if r.verified then Open
    else Unknown
  }

  /** The age in milliseconds of a timestamp, when it is truthy and parses. */
  function AgeMs(ts: Option<string>, clock: Clock): Option<int> {
    if !Truthy(ts) then None
    else match clock.parseMs(ts.value)
      case None => None
      case Some(ms) => Some(clock.nowMs - ms)
  }

  /** `ageHours <= FRESH_HOURS` etc. with the age as a fractional number of hours. */
  function ComputeFreshnessState(lastConfirmedAt: Option<string>, clock: Clock): (f: FreshnessState)
    ensures f == FreshnessUnknown <==> AgeMs(lastConfirmedAt, clock).None?
    ensures f == Fresh <==> AgeMs(lastConfirmedAt, clock).Some? && AgeMs(lastConfirmedAt, clock).value <= 24 * HourMs
    ensures f == Aging <==>
      (AgeMs(lastConfirmedAt, clock).Some? && 24 * HourMs < AgeMs(lastConfirmedAt, clock).value <= 72 * HourMs)
    ensures f == Stale <==> AgeMs(lastConfirmedAt, clock).Some? && AgeMs(lastConfirmedAt, clock).value > 72 * HourMs
  {
    if !Truthy(lastConfirmedAt) then FreshnessUnknown
    else match clock.parseMs(lastConfirmedAt.value)
      case None => FreshnessUnknown
      case Some(confirmedMs) =>
        var ageHours := (clock.nowMs - confirmedMs) as real / HourMs as real;
        if ageHours <= FreshHours as real then Fresh
        else if ageHours <= AgingHours as real then Aging
        else Stale
  }

  /** How far along the fresh/aging/stale scale a state is; unknown ranks with none. */
  function FreshnessRank(f: FreshnessState): nat {
    match f
    case Fresh => 0
    case Aging => 1
    case Stale => 2
    case FreshnessUnknown => 0
  }

  /** As time passes, a parseable confirmation only moves from fresh towards stale. */
  lemma FreshnessMonotone(ts: Option<string>, c1: Clock, c2: Clock)
    requires AgeMs(ts, c1).Some?
    requires c1.parseMs(ts.value) == c2.parseMs(ts.value)
    requires c1.nowMs <= c2.nowMs
    ensures ComputeFreshnessState(ts, c2) != FreshnessUnknown
    ensures FreshnessRank(ComputeFreshnessState(ts, c1)) <= FreshnessRank(ComputeFreshnessState(ts, c2))
  {
  }

  /** "Local partner directory", "NYC 311 open data", or the upper-cased source id. */
  function DataSourceLabel(source: Option<string>): (caption: string)
    ensures !Truthy(source) || source.value == "local" ==> caption == "Local partner directory"
    ensures source == Some("nyc311") ==> caption == "NYC 311 open data"
    ensures Truthy(source) && source.value != "local" && source.value != "nyc311" ==> caption == ToUpper(source.value)
  {
    if !Truthy(source) || source.value == "local" then "Local partner directory"
    else if source.value == "nyc311" then "NYC 311 open data"
    else ToUpper(source.value)
  }

  function VerificationBadge(r: Resource): (b: Badge)
    ensures b == VerifiedPartner <==> r.verified && r.source == Some("local")
    ensures b == VerifiedApi <==> r.verified && Truthy(r.source) && r.source.value != "local"
    ensures b == Community <==> !r.verified && r.source == Some("community")
    ensures b == Unverified <==> (!r.verified && r.source != Some("community")) || (r.verified && !Truthy(r.source))
  {
    if r.verified && r.source == Some("local") then VerifiedPartner
    else if r.verified && Truthy(r.source) && r.source.value != "local" then VerifiedApi
    else if r.source == Some("community") then Community
    else Unverified
  }

  function Min(a: real, b: real): real {
    if a <= b then a else b
  }

  function Max(a: real, b: real): real {
    if a >= b then a else b
  }

  function BaseConfidence(verified: bool): real {
    if verified then 0.95 else 0.5
  }

  /** `max(0.2, base - min(0.6, ageHours / (24 * 14)))`. */
  function DecayedScore(verified: bool, ageHours: real): (score: real)
    ensures score >= 0.2
    ensures ageHours >= 0.0 ==> score <= BaseConfidence(verified)
    ensures score >= BaseConfidence(verified) - 0.6
  {
    Max(0.2, BaseConfidence(verified) - Min(0.6, ageHours / (24 * 14) as real))
  }

  /** Null without a verification timestamp, `NaN` for an unparseable one, else the decayed score. */
  function ConfidenceScore(r: Resource, clock: Clock): (c: Option<Score>)
    ensures c.None? <==> !Truthy(r.lastVerifiedAt)
    ensures Truthy(r.lastVerifiedAt) && AgeMs(r.lastVerifiedAt, clock).None? ==> c == Some(NaN)
    ensures AgeMs(r.lastVerifiedAt, clock).Some? && AgeMs(r.lastVerifiedAt, clock).value >= 0 ==>
      c.Some? && c.value.Num? && 0.2 <= c.value.value <= BaseConfidence(r.verified)
    ensures r.verified && c.Some? && c.value.Num? ==> c.value.value >= 0.35
  {
    if !Truthy(r.lastVerifiedAt) then None
    else match clock.parseMs(r.lastVerifiedAt.value)
      case None => Some(NaN)
      case Some(ms) =>
        var ageHours := (clock.nowMs - ms) as real / HourMs as real;
        Some(Num(DecayedScore(r.verified, ageHours)))
  }

  /** The score never rises as the verification ages, and stops falling after 14 days. */
  lemma ConfidenceNonIncreasing(r: Resource, c1: Clock, c2: Clock)
    requires AgeMs(r.lastVerifiedAt, c1).Some?
    requires c1.parseMs(r.lastVerifiedAt.value) == c2.parseMs(r.lastVerifiedAt.value)
    requires c1.nowMs <= c2.nowMs
    ensures ConfidenceScore(r, c1).Some? && ConfidenceScore(r, c1).value.Num?
    ensures ConfidenceScore(r, c2).Some? && ConfidenceScore(r, c2).value.Num?
    ensures ConfidenceScore(r, c2).value.value <= ConfidenceScore(r, c1).value.value
    ensures AgeMs(r.lastVerifiedAt, c1).value >= 14 * 24 * HourMs ==>
      ConfidenceScore(r, c2).value.value == ConfidenceScore(r, c1).value.value
  {
  }

  /** A verification timestamp in the future pushes the score above its base. */
  lemma FutureVerificationExceedsBase(r: Resource, clock: Clock)
    requires AgeMs(r.lastVerifiedAt, clock).Some? && AgeMs(r.lastVerifiedAt, clock).value < 0
    ensures ConfidenceScore(r, clock).Some? && ConfidenceScore(r, clock).value.Num?
    ensures ConfidenceScore(r, clock).value.value > BaseConfidence(r.verified)
  {
  }

  /** The card of a resource: copied fields, precomputed trust fields when present, derived ones otherwise. */
  function ToResourceCardDTO(r: Resource, clock: Clock): (d: CardDTO)
    ensures d.id == r.id && d.name == r.name && d.description == r.description
    ensures d.categories == r.categories && d.eligibility == r.eligibility
    ensures d.address == r.address && d.city == r.city && d.state == r.state && d.zip == r.zip
    ensures d.latitude == r.latitude && d.longitude == r.longitude
    ensures d.phone == r.phone && d.website == r.website && d.applicationGuide == r.applicationGuide
    ensures d.organizationName == r.organizationName && d.serviceArea == r.serviceArea
    ensures d.source == r.source && d.sourceId == r.sourceId
    ensures d.verified == r.verified && d.lastVerifiedAt == r.lastVerifiedAt
    ensures d.createdAt == r.createdAt && d.updatedAt == r.updatedAt
    ensures d.lastConfirmedAt == r.trust.lastConfirmedAt.OrElse(r.lastVerifiedAt)
    ensures d.confirmationSource.Some?
    ensures d.confirmationSource == r.trust.confirmationSource.OrElse(r.source).OrElse(Some("local"))
    ensures r.trust.availabilityStatus.Some? ==> d.availabilityStatus == r.trust.availabilityStatus.value
    ensures r.trust.availabilityStatus.None? ==> d.availabilityStatus == InferAvailabilityStatus(r)
    ensures r.trust.confidenceScore.Some? ==> d.confidenceScore == Some(Num(r.trust.confidenceScore.value))
    ensures r.trust.confidenceScore.None? ==> d.confidenceScore == ConfidenceScore(r, clock)
    ensures r.trust.verificationBadge.Some? ==> d.verificationBadge == r.trust.verificationBadge.value
    ensures r.trust.verificationBadge.None? ==> d.verificationBadge == VerificationBadge(r)
    ensures r.trust.dataSourceLabel.Some? ==> d.dataSourceLabel == r.trust.dataSourceLabel.value
    ensures r.trust.dataSourceLabel.None? ==> d.dataSourceLabel == DataSourceLabel(r.source)
    ensures r.trust.freshnessState.Some? ==> d.freshnessState == r.trust.freshnessState.value
    ensures r.trust.freshnessState.None? ==> d.freshnessState == ComputeFreshnessState(d.lastConfirmedAt, clock)
  {
    var lastConfirmed := r.trust.lastConfirmedAt.OrElse(r.lastVerifiedAt);
    var source := r.source;
    CardDTO(
      id := r.id,
      name := r.name,
      description := r.description,
      categories := r.categories,
      eligibility := r.eligibility,
      address := r.address,
      city := r.city,
      state := r.state,
      zip := r.zip,
      latitude := r.latitude,
      longitude := r.longitude,
      phone := r.phone,
      website := r.website,
      applicationGuide := r.applicationGuide,
      organizationName := r.organizationName,
      serviceArea := r.serviceArea,
      source := source,
      sourceId := r.sourceId,
      availabilityStatus := r.trust.availabilityStatus.GetOr(InferAvailabilityStatus(r)),
      lastConfirmedAt := lastConfirmed,
      confirmationSource := r.trust.confirmationSource.OrElse(source).OrElse(Some("local")),
      confidenceScore := if r.trust.confidenceScore.Some? then Some(Num(r.trust.confidenceScore.value)) else ConfidenceScore(r, clock),
      verified := r.verified,
      verificationBadge := r.trust.verificationBadge.GetOr(VerificationBadge(r)),
      dataSourceLabel := r.trust.dataSourceLabel.GetOr(DataSourceLabel(source)),
      lastVerifiedAt := r.lastVerifiedAt,
      freshnessState := r.trust.freshnessState.GetOr(ComputeFreshnessState(lastConfirmed, clock)),
      createdAt := r.createdAt,
      updatedAt := r.updatedAt)
  }

  /**
   * A verified row with no source and no precomputed trust, verified just now:
   * fresh, full confidence, but badge `unverified`, because the partner badge
   * needs the source to be exactly "local".
   */
  lemma VerifiedNullSourceCard(r: Resource, clock: Clock)
    requires r.verified && r.source.None? && r.trust == NoTrust
    requires Truthy(r.lastVerifiedAt) && clock.parseMs(r.lastVerifiedAt.value) == Some(clock.nowMs)
    ensures ToResourceCardDTO(r, clock).verificationBadge == Unverified
    ensures ToResourceCardDTO(r, clock).freshnessState == Fresh
    ensures ToResourceCardDTO(r, clock).confidenceScore == Some(Num(0.95))
    ensures ToResourceCardDTO(r, clock).dataSourceLabel == "Local partner directory"
    ensures ToResourceCardDTO(r, clock).confirmationSource == Some("local")
  {
  }
}

=== FILE: normalizer.dfy ===
/**
 * Normalisation of external service records: a raw NYC 311 record becomes an
 * `ExternalService`, which becomes a partial resource, which validation turns
 * into a resource with every optional field defaulted.
 */
module Normalizer {
  import opened Wrappers
  import opened Text
  import opened Types

  /** Some keyword occurs in the text. */
  predicate MentionsAny(text: string, keywords: seq<string>) {
    exists k | k in keywords :: Contains(text, k)
  }

  /** The keywords that put a service into each category. */
  function Keywords(c: Category): seq<string> {
    match c
    case Food => ["food", "meal", "hunger", "food pantry", "soup kitchen", "groceries"]
    case Housing => ["housing", "shelter", "homeless", "rent", "housing assistance", "transitional"]
    case Health => ["health", "medical", "clinic", "hospital", "mental health", "counseling", "substance", "addiction"]
    case Legal => ["legal", "law", "attorney", "immigration", "visa", "citizenship", "legal aid"]
    case Employment => ["job", "employment", "work", "career", "training", "resume", "unemployment"]
    case Education => ["education", "school", "tutoring", "college", "university", "classes", "literacy"]
  }

  /** The position of a category in the order categories are reported. */
  function CategoryRank(c: Category): nat {
    match c
    case Food => 0
    case Housing => 1
    case Health => 2
    case Legal => 3
    case Employment => 4
    case Education => 5
  }

  /** The lower-cased name, a space and the description: the text keywords are searched in. */
  function CategoryText(name: string, description: Option<string>): string {
    ToLower(name + " " + description.GetOr(""))
  }

  predicate MatchesCategory(name: string, description: Option<string>, c: Category) {
    MentionsAny(CategoryText(name, description), Keywords(c))
  }

  /** Every category, in the order they are reported. */
  const CategoryOrder: seq<Category> := [Food, Housing, Health, Legal, Employment, Education]

  lemma CategoryOrderComplete()
    ensures forall c :: c in CategoryOrder
  {
    forall c ensures c in CategoryOrder {
      assert CategoryOrder[CategoryRank(c)] == c;
    }
  }

  /** Ranks strictly increase along `s`. */
  predicate RankSorted(s: seq<Category>) {
    forall i, j | 0 <= i < j < |s| :: CategoryRank(s[i]) < CategoryRank(s[j])
  }

  /** The categories of `order` that `keep` accepts, in the order given. */
  function SelectCategories(order: seq<Category>, keep: Category -> bool): (r: seq<Category>)
    ensures forall c :: c in r <==> c in order && keep(c)
    ensures RankSorted(order) ==> RankSorted(r)
  {
    if |order| == 0 then []
    else
      var rest := SelectCategories(order[1..], keep);
      if keep(order[0]) then
        if RankSorted(order) then
          SortedTail(order);
          ConsSorted(order[0], rest);
          [order[0]] + rest
        else [order[0]] + rest
      else
        assert RankSorted(order) ==> RankSorted(order[1..]) by {
          if RankSorted(order) {
            SortedTail(order);
          }
        }
        rest
  }

  /** The tail of a sorted list is sorted and ranks above its head. */
  lemma SortedTail(s: seq<Category>)
    requires |s| > 0 && RankSorted(s)
    ensures RankSorted(s[1..])
    ensures forall c | c in s[1..] :: CategoryRank(s[0]) < CategoryRank(c)
  {
    forall c | c in s[1..] ensures CategoryRank(s[0]) < CategoryRank(c) {
      var k :| 0 <= k < |s[1..]| && s[1..][k] == c;
      assert s[k + 1] == c;
    }
    forall i, j | 0 <= i < j < |s[1..]| ensures CategoryRank(s[1..][i]) < CategoryRank(s[1..][j]) {
      assert s[1..][i] == s[i + 1] && s[1..][j] == s[j + 1];
    }
  }

  /** A head ranked below every item of a sorted list keeps it sorted. */
  lemma ConsSorted(x: Category, s: seq<Category>)
    requires RankSorted(s)
    requires forall c | c in s :: CategoryRank(x) < CategoryRank(c)
    ensures RankSorted([x] + s)
  {
    var t := [x] + s;
    forall i, j | 0 <= i < j < |t| ensures CategoryRank(t[i]) < CategoryRank(t[j]) {
      assert t[j] == s[j - 1];
      if i > 0 {
        assert t[i] == s[i - 1];
      }
    }
  }

  /**
   * Every category with a keyword in the text, in the fixed category order;
   * when none matches, food. The text always holds the separating space, so
   * the result is never empty.
   */
  function InferCategories(name: string, description: Option<string>): (cs: seq<Category>)
    ensures |cs| >= 1
    ensures forall c :: c in cs <==>
      (MatchesCategory(name, description, c)
       || (c == Food && forall d :: !MatchesCategory(name, description, d)))
    ensures forall i, j | 0 <= i < j < |cs| :: CategoryRank(cs[i]) < CategoryRank(cs[j])
  {
    var text := CategoryText(name, description);
    var matched := MatchedCategories(name, description);
    MatchedCategoriesFacts(name, description);
    if |matched| == 0 && |text| > 0 then [Food] else matched
  }

  /** The categories with a keyword in the text, in the fixed category order. */
  function MatchedCategories(name: string, description: Option<string>): seq<Category> {
    SelectCategories(CategoryOrder, c => MatchesCategory(name, description, c))
  }

  lemma MatchedCategoriesFacts(name: string, description: Option<string>)
    ensures |CategoryText(name, description)| > 0
    ensures forall c :: c in MatchedCategories(name, description) <==> MatchesCategory(name, description, c)
    ensures forall i, j | 0 <= i < j < |MatchedCategories(name, description)| ::
      CategoryRank(MatchedCategories(name, description)[i]) < CategoryRank(MatchedCategories(name, description)[j])
    ensures |MatchedCategories(name, description)| == 0 <==> forall d :: !MatchesCategory(name, description, d)
  {
    assert |CategoryText(name, description)| == |name + " " + description.GetOr("")|;
    SelectFromOrder(c => MatchesCategory(name, description, c));
  }

  /** Selecting from the full category order: exactly the accepted categories, in order. */
  lemma SelectFromOrder(keep: Category -> bool)
    ensures forall c :: c in SelectCategories(CategoryOrder, keep) <==> keep(c)
    ensures RankSorted(SelectCategories(CategoryOrder, keep))
    ensures |SelectCategories(CategoryOrder, keep)| == 0 <==> forall d :: !keep(d)
  {
    var selected := SelectCategories(CategoryOrder, keep);
    CategoryOrderComplete();
    assert RankSorted(CategoryOrder);
    if |selected| > 0 {
      assert selected[0] in selected;
    } else {
      forall d ensures !keep(d) {
        assert d !in selected;
      }
    }
  }

  /** A keyword in the name alone is enough: the description cannot remove a category. */
  lemma NameKeywordCategory(name: string, description: Option<string>, c: Category, k: string)
    requires k in Keywords(c) && Contains(ToLower(name), k)
    ensures c in InferCategories(name, description)
  {
    NameInCategoryText(name, description, k);
    assert MatchesCategory(name, description, c);
  }

  /** What the lower-cased name contains, the category text contains. */
  lemma NameInCategoryText(name: string, description: Option<string>, k: string)
    requires Contains(ToLower(name), k)
    ensures Contains(CategoryText(name, description), k)
  {
    var tail := ToLower(" " + description.GetOr(""));
    assert name + " " + description.GetOr("") == name + (" " + description.GetOr(""));
    ToLowerConcat(name, " " + description.GetOr(""));
    ContainsInFactor("", ToLower(name), tail, k);
    assert "" + ToLower(name) + tail == CategoryText(name, description);
  }

  /** A text with no keyword of any category is filed under food alone. */
  lemma NoKeywordIsFood(name: string, description: Option<string>)
    requires forall d :: !MatchesCategory(name, description, d)
    ensures InferCategories(name, description) == [Food]
  {
    var cs := InferCategories(name, description);
    assert |cs| == 1 by {
      if |cs| > 1 {
        assert cs[1] in cs;
      }
    }
  }

  /** A US number in E.164 form: `+1` and ten digits. */
  predicate IsE164Us(s: string) {
    |s| == 12 && s[..2] == "+1" && AllDigits(s[2..])
  }

  /**
   * Ten digits become `+1` and the digits, eleven digits starting with 1
   * become `+` and the digits; anything else is returned as given; an absent
   * or empty number is null.
   */
  function NormalizePhoneNumber(phone: Option<string>): (r: Option<string>)
    ensures r.None? <==> !Truthy(phone)
    ensures r.Some? ==> IsE164Us(r.value) || r == phone
    ensures Truthy(phone) && |DigitsOf(phone.value)| == 10 ==>
      r == Some("+1" + DigitsOf(phone.value))
    ensures Truthy(phone) && |DigitsOf(phone.value)| == 11 && DigitsOf(phone.value)[0] == '1' ==>
      r == Some("+" + DigitsOf(phone.value))
    ensures (Truthy(phone) && |DigitsOf(phone.value)| != 10
             && !(|DigitsOf(phone.value)| == 11 && DigitsOf(phone.value)[0] == '1')) ==> r == phone
  {
    if !Truthy(phone) then None
    else
      var digits := DigitsOf(phone.value);
      if |digits| == 10 then
        assert ("+1" + digits)[2..] == digits;
        Some("+1" + digits)
      else if |digits| == 11 && IsPrefix("1", digits) then
        assert ("+" + digits)[2..] == digits[1..];
        Some("+" + digits)
      else phone
  }

  /** A number already in E.164 form is left as it is. */
  lemma E164Fixed(e: string)
    requires IsE164Us(e)
    ensures NormalizePhoneNumber(Some(e)) == Some(e)
  {
    assert e == "+" + ("1" + e[2..]);
    DigitsOfConcat("+", "1" + e[2..]);
    assert DigitsOf("+") == "";
    DigitsOfAllDigits("1" + e[2..]);
  }

  /** Normalising a normalised number changes nothing. */
  lemma NormalizePhoneIdempotent(phone: Option<string>)
    ensures NormalizePhoneNumber(NormalizePhoneNumber(phone)) == NormalizePhoneNumber(phone)
  {
    var r := NormalizePhoneNumber(phone);
    if r.Some? && IsE164Us(r.value) {
      E164Fixed(r.value);
    }
  }

  predicate IsListDelimiter(c: char) {
    c == ',' || c == '|'
  }

  /**
   * A comma- or pipe-separated field as its items: each non-empty, trimmed,
   * free of separators and a factor of the field.
   */
  function ParseListField(value: Option<string>): (items: seq<string>)
    ensures !Truthy(value) ==> items == []
    ensures forall x | x in items :: x != "" && IsTrimmed(x) && Contains(value.value, x)
    ensures forall x, c | x in items && c in x :: !IsListDelimiter(c)
  {
    if !Truthy(value) then []
    else
      var parts := SplitOn(value.value, IsListDelimiter);
      var items := TrimNonEmpty(parts);
      assert forall x | x in items :: Contains(value.value, x) && forall c | c in x :: !IsListDelimiter(c) by {
        forall x | x in items ensures Contains(value.value, x) && forall c | c in x :: !IsListDelimiter(c) {
          TrimNonEmptyFrom(parts, x);
          var p :| p in parts && Contains(p, x);
          ContainsTransitive(value.value, p, x);
          ContainsChars(p, x);
        }
      }
      items
  }

  /** A field holding one trimmed item without separators is that item. */
  lemma ParseListFieldSingle(value: string)
    requires value != "" && IsTrimmed(value)
    requires forall c | c in value :: !IsListDelimiter(c)
    ensures ParseListField(Some(value)) == [value]
  {
    SplitOnNoDelimiter(value, IsListDelimiter);
    TrimNonEmptySingle(value);
  }

  /**
   * Round trip: items that are non-empty, trimmed and free of separators,
   * joined with commas, parse back to the same items.
   */
  lemma ParseListFieldRoundTrip(items: seq<string>)
    requires forall x | x in items :: x != "" && IsTrimmed(x)
    requires forall x, c | x in items && c in x :: !IsListDelimiter(c)
    ensures ParseListField(Some(Join(items, ","))) == items
  {
    if |items| > 0 {
      var v := Join(items, ",");
      JoinStartsWithFirst(items, ",");
      assert items[0] in items;
      assert v != "";
      SplitJoin(items, ',', IsListDelimiter);
      CleanItemsKept(items);
    }
  }

  /** The accessibility tags, in the order they are reported. */
  const AccessibilityTags: seq<string> := [
    "wheelchair_accessible", "ramp_accessible", "elevator", "sign_language",
    "braille", "visual_assistance", "hearing_assistance"]

  /** The keywords that produce each tag. */
  function AccessibilityKeywords(tag: string): seq<string> {
    if tag == "wheelchair_accessible" then ["wheelchair", "accessible"]
    else if tag == "ramp_accessible" then ["ramp"]
    else if tag == "elevator" then ["elevator"]
    else if tag == "sign_language" then ["sign", "asl"]
    else if tag == "braille" then ["braille"]
    else if tag == "visual_assistance" then ["visual", "blind"]
    else if tag == "hearing_assistance" then ["hearing", "deaf"]
    else []
  }

  /** The position of a tag in `AccessibilityTags`; 7 for any other string. */
  function TagRank(t: string): nat {
    if t == "wheelchair_accessible" then 0
    else if t == "ramp_accessible" then 1
    else if t == "elevator" then 2
    else if t == "sign_language" then 3
    else if t == "braille" then 4
    else if t == "visual_assistance" then 5
    else if t == "hearing_assistance" then 6
    else 7
  }

  /** Tag ranks strictly increase along `s`. */
  predicate TagSorted(s: seq<string>) {
    forall i, j | 0 <= i < j < |s| :: TagRank(s[i]) < TagRank(s[j])
  }

  lemma AccessibilityTagsSorted()
    ensures TagSorted(AccessibilityTags)
  {
  }

  /** A tag ranked below every tag of a sorted list keeps it sorted. */
  lemma ConsTagSorted(t: string, s: seq<string>)
    requires TagSorted(s)
    requires forall u | u in s :: TagRank(t) < TagRank(u)
    ensures TagSorted([t] + s)
  {
    var r := [t] + s;
    forall i, j | 0 <= i < j < |r| ensures TagRank(r[i]) < TagRank(r[j]) {
      assert r[j] == s[j - 1];
      if i > 0 {
        assert r[i] == s[i - 1];
      }
    }
  }

  /** The tags of `tags` whose keywords occur in the text, in the order given. */
  function SelectTags(tags: seq<string>, text: string): (r: seq<string>)
    ensures forall t :: t in r <==> t in tags && MentionsAny(text, AccessibilityKeywords(t))
    ensures TagSorted(tags) ==> TagSorted(r)
  {
    if |tags| == 0 then []
    else
      var rest := SelectTags(tags[1..], text);
      assert TagSorted(tags) ==> TagSorted(tags[1..]) by {
        if TagSorted(tags) {
          forall i, j | 0 <= i < j < |tags[1..]| ensures TagRank(tags[1..][i]) < TagRank(tags[1..][j]) {
            assert tags[1..][i] == tags[i + 1] && tags[1..][j] == tags[j + 1];
          }
        }
      }
      if MentionsAny(text, AccessibilityKeywords(tags[0])) then
        assert forall t | t in rest :: t in tags[1..];
        if TagSorted(tags) then
          forall u | u in rest ensures TagRank(tags[0]) < TagRank(u) {
            var k :| 1 <= k < |tags| && tags[k] == u;
          }
          ConsTagSorted(tags[0], rest);
          [tags[0]] + rest
        else [tags[0]] + rest
      else rest
  }

  /**
   * The tags whose keywords occur in the lower-cased field, in the order of
   * `AccessibilityTags` (so each at most once).
   */
  function ParseAccessibility(value: Option<string>): (tags: seq<string>)
    ensures !Truthy(value) ==> tags == []
    ensures Truthy(value) ==> forall t :: t in tags <==>
      (t in AccessibilityTags && MentionsAny(ToLower(value.value), AccessibilityKeywords(t)))
    ensures forall i, j | 0 <= i < j < |tags| :: TagRank(tags[i]) < TagRank(tags[j])
    ensures forall i, j | 0 <= i < j < |tags| :: tags[i] != tags[j]
  {
    if !Truthy(value) then []
    else
      AccessibilityTagsSorted();
      SelectTags(AccessibilityTags, ToLower(value.value))
  }

  /** `source:externalId`. */
  function GenerateSourceId(source: string, externalId: string): (id: string)
    ensures IsPrefix(source + ":", id)
    ensures |id| == |source| + 1 + |externalId|
  {
    source + ":" + externalId
  }

  /** Splits a source id at its first colon. */
  function SplitSourceId(id: string): Option<(string, string)> {
    if |id| == 0 then None
    else if id[0] == ':' then Some(("", id[1..]))
    else match SplitSourceId(id[1..])
      case None => None
      case Some((s, e)) => Some(([id[0]] + s, e))
  }

  /** For a source name without a colon, the pair is recovered from the id. */
  lemma {:induction false} SourceIdRoundTrip(source: string, externalId: string)
    requires forall c | c in source :: c != ':'
    ensures SplitSourceId(GenerateSourceId(source, externalId)) == Some((source, externalId))
    decreases |source|
  {
    var id := GenerateSourceId(source, externalId);
    if |source| == 0 {
      assert id == [':'] + externalId;
    } else {
      assert source[0] in source;
      assert id[0] == source[0] && id[1..] == GenerateSourceId(source[1..], externalId);
      assert forall c | c in source[1..] :: c in source;
      SourceIdRoundTrip(source[1..], externalId);
      assert [source[0]] + source[1..] == source;
    }
  }

  /** `x || null` for a number: zero collapses to null. */
  function NumOrNull(x: Option<real>): (r: Option<real>)
    ensures r.Some? <==> x.Some? && x.value != 0.0
    ensures r.Some? ==> r == x
  {
    if x.Some? && x.value != 0.0 then x else None
  }

  /** A nullable string that `x || null` leaves unchanged: null or non-empty. */
  predicate NullOrFilled(s: Option<string>) {
    s.None? || s.value != ""
  }

  /** A nullable coordinate that `x || null` leaves unchanged. */
  predicate NullOrNonZero(x: Option<real>) {
    x.None? || x.value != 0.0
  }

  /** The guarantees a normalised external record gives its consumers. */
  predicate TidyExternal(e: ExternalService) {
    && e.state != ""
    && NullOrFilled(e.description) && NullOrFilled(e.organizationName) && e.organizationId.None?
    && NullOrFilled(e.address) && NullOrFilled(e.city) && NullOrFilled(e.zip)
    && NullOrNonZero(e.latitude) && NullOrNonZero(e.longitude)
    && NullOrFilled(e.phone) && e.phoneType == Some(Voice)
    && NullOrFilled(e.website) && NullOrFilled(e.email) && NullOrFilled(e.eligibility)
    && NullOrFilled(e.fees) && NullOrFilled(e.schedule) && NullOrFilled(e.serviceArea)
    && (forall x | x in e.languages :: x != "" && IsTrimmed(x))
    && e.interpretationServices == []
    && (forall t | t in e.accessibility :: t in AccessibilityTags)
    && e.dataSourceUrl == e.website
  }

  /**
   * A raw NYC 311 record in the canonical external shape: empty strings and
   * zero coordinates become null, a missing state becomes NY, the phone is
   * normalised, list fields are parsed, and the record is stamped as verified
   * at `nowIso`.
   */
  function NormalizeExternalService(raw: Raw311, source: string, nowIso: string): (e: ExternalService)
    ensures TidyExternal(e)
    ensures e.sourceId == raw.uniqueId && e.source == source && e.name == raw.serviceName
    ensures e.state == (if Truthy(raw.state) then raw.state.value else "NY")
    ensures e.description == OrNull(raw.serviceDescription) && e.schedule == OrNull(raw.hours)
    ensures e.organizationName == OrNull(raw.agencyResponsible)
    ensures e.address == OrNull(raw.address) && e.city == OrNull(raw.city) && e.zip == OrNull(raw.zipcode)
    ensures e.latitude == NumOrNull(raw.latitude) && e.longitude == NumOrNull(raw.longitude)
    ensures e.website == OrNull(raw.website) && e.email == OrNull(raw.email)
    ensures e.eligibility == OrNull(raw.eligibility) && e.fees == OrNull(raw.fees)
    ensures e.serviceArea == OrNull(raw.serviceArea)
    ensures e.phone == NormalizePhoneNumber(raw.phone)
    ensures e.languages == ParseListField(raw.languages)
    ensures e.accessibility == ParseAccessibility(raw.accessibility)
    ensures e.lastVerifiedAt == Some(nowIso)
  {
    ExternalService(
      sourceId := raw.uniqueId,
      source := source,
      name := raw.serviceName,
      description := OrNull(raw.serviceDescription),
      organizationName := OrNull(raw.agencyResponsible),
      organizationId := None,
      address := OrNull(raw.address),
      city := OrNull(raw.city),
      state := if Truthy(raw.state) then raw.state.value else "NY",
      zip := OrNull(raw.zipcode),
      latitude := NumOrNull(raw.latitude),
      longitude := NumOrNull(raw.longitude),
      phone := NormalizePhoneNumber(raw.phone),
      phoneType := Some(Voice),
      website := OrNull(raw.website),
      email := OrNull(raw.email),
      eligibility := OrNull(raw.eligibility),
      fees := OrNull(raw.fees),
      schedule := OrNull(raw.hours),
      serviceArea := OrNull(raw.serviceArea),
      languages := ParseListField(raw.languages),
      interpretationServices := [],
      accessibility := ParseAccessibility(raw.accessibility),
      lastVerifiedAt := Some(nowIso),
      dataSourceUrl := OrNull(raw.website))
  }

  /**
   * An external record as a partial resource: marked verified, categories
   * inferred from name and description, the service area doubling as the
   * application guide; no id and no timestamps.
   */
  function ToResource(e: ExternalService): (d: Draft)
    ensures d.name == Some(e.name) && d.state == Some(e.state)
    ensures d.verified == Some(true)
    ensures d.categories == Some(InferCategories(e.name, e.description))
    ensures d.applicationGuide == e.serviceArea && d.serviceArea == e.serviceArea
    ensures d.source == Some(e.source) && d.sourceId == Some(e.sourceId)
    ensures d.id.None? && d.createdAt.None? && d.updatedAt.None?
    ensures d.description == e.description && d.eligibility == e.eligibility
    ensures d.address == e.address && d.city == e.city && d.zip == e.zip
    ensures d.latitude == e.latitude && d.longitude == e.longitude
    ensures d.phone == e.phone && d.website == e.website && d.email == e.email
    ensures d.organizationName == e.organizationName && d.organizationId == e.organizationId
    ensures d.languages == Some(e.languages) && d.interpretationServices == Some(e.interpretationServices)
    ensures d.accessibility == Some(e.accessibility)
    ensures d.fees == e.fees && d.schedule == e.schedule
    ensures d.lastVerifiedAt == e.lastVerifiedAt && d.dataSourceUrl == e.dataSourceUrl
  {
    Draft(
      id := None,
      name := Some(e.name),
      description := e.description,
      categories := Some(InferCategories(e.name, e.description)),
      eligibility := e.eligibility,
      address := e.address,
      city := e.city,
      state := Some(e.state),
      zip := e.zip,
      latitude := e.latitude,
      longitude := e.longitude,
      phone := e.phone,
      website := e.website,
      applicationGuide := e.serviceArea,
      verified := Some(true),
      source := Some(e.source),
      sourceId := Some(e.sourceId),
      organizationName := e.organizationName,
      organizationId := e.organizationId,
      email := e.email,
      languages := Some(e.languages),
      interpretationServices := Some(e.interpretationServices),
      accessibility := Some(e.accessibility),
      fees := e.fees,
      schedule := e.schedule,
      serviceArea := e.serviceArea,
      lastVerifiedAt := e.lastVerifiedAt,
      dataSourceUrl := e.dataSourceUrl,
      createdAt := None,
      updatedAt := None)
  }

  /** A validated resource: required fields present, no empty optional strings, no zero coordinates, no trust overrides. */
  predicate Clean(r: Resource) {
    && r.name != "" && r.state != ""
    && NullOrFilled(r.description) && NullOrFilled(r.eligibility) && NullOrFilled(r.address)
    && NullOrFilled(r.city) && NullOrFilled(r.zip)
    && NullOrNonZero(r.latitude) && NullOrNonZero(r.longitude)
    && NullOrFilled(r.phone) && NullOrFilled(r.website) && NullOrFilled(r.applicationGuide)
    && NullOrFilled(r.source) && NullOrFilled(r.sourceId)
    && NullOrFilled(r.organizationName) && NullOrFilled(r.organizationId) && NullOrFilled(r.email)
    && NullOrFilled(r.fees) && NullOrFilled(r.schedule) && NullOrFilled(r.serviceArea)
    && NullOrFilled(r.lastVerifiedAt) && NullOrFilled(r.dataSourceUrl)
    && r.trust == NoTrust
  }

  /** `x || fallback` for a string. */
  function StrOr(s: Option<string>, fallback: string): (r: string)
    ensures Truthy(s) ==> r == s.value
    ensures !Truthy(s) ==> r == fallback
  {
    if Truthy(s) then s.value else fallback
  }

  /**
   * Rejects a partial resource without a name or a state; otherwise fills
   * every optional field with its default: empty strings and zero coordinates
   * become null, missing categories become food, a missing verified flag is
   * false, missing timestamps are `nowIso`.
   */
  function ValidateResource(d: Draft, nowIso: string): (r: Option<Resource>)
    ensures r.None? <==> !Truthy(d.name) || !Truthy(d.state)
    ensures r.Some? ==> Clean(r.value)
    ensures r.Some? ==> r.value.name == d.name.value && r.value.state == d.state.value
    ensures r.Some? ==> r.value.categories == d.categories.GetOr([Food])
    ensures r.Some? ==> (r.value.verified <==> d.verified == Some(true))
    ensures r.Some? ==> r.value.createdAt == StrOr(d.createdAt, nowIso) && r.value.updatedAt == StrOr(d.updatedAt, nowIso)
    ensures r.Some? ==> r.value.languages == d.languages && r.value.accessibility == d.accessibility
    ensures r.Some? ==> r.value.interpretationServices == d.interpretationServices
    ensures r.Some? ==> r.value.id == StrOr(d.id, "")
    ensures r.Some? ==> r.value.description == OrNull(d.description) && r.value.eligibility == OrNull(d.eligibility)
    ensures r.Some? ==> r.value.address == OrNull(d.address) && r.value.city == OrNull(d.city) && r.value.zip == OrNull(d.zip)
    ensures r.Some? ==> r.value.latitude == NumOrNull(d.latitude) && r.value.longitude == NumOrNull(d.longitude)
    ensures r.Some? ==> r.value.phone == OrNull(d.phone) && r.value.website == OrNull(d.website)
    ensures r.Some? ==> r.value.applicationGuide == OrNull(d.applicationGuide)
    ensures r.Some? ==> r.value.source == OrNull(d.source) && r.value.sourceId == OrNull(d.sourceId)
    ensures r.Some? ==> r.value.organizationName == OrNull(d.organizationName) && r.value.organizationId == OrNull(d.organizationId)
    ensures r.Some? ==> r.value.email == OrNull(d.email) && r.value.fees == OrNull(d.fees)
    ensures r.Some? ==> r.value.schedule == OrNull(d.schedule) && r.value.serviceArea == OrNull(d.serviceArea)
    ensures r.Some? ==> r.value.lastVerifiedAt == OrNull(d.lastVerifiedAt) && r.value.dataSourceUrl == OrNull(d.dataSourceUrl)
  {
    if !Truthy(d.name) || !Truthy(d.state) then None
    else Some(Resource(
      id := StrOr(d.id, ""),
      name := d.name.value,
      description := OrNull(d.description),
      categories := d.categories.GetOr([Food]),
      eligibility := OrNull(d.eligibility),
      address := OrNull(d.address),
      city := OrNull(d.city),
      state := d.state.value,
      zip := OrNull(d.zip),
      latitude := NumOrNull(d.latitude),
      longitude := NumOrNull(d.longitude),
      phone := OrNull(d.phone),
      website := OrNull(d.website),
      applicationGuide := OrNull(d.applicationGuide),
      verified := d.verified == Some(true),
      source := OrNull(d.source),
      sourceId := OrNull(d.sourceId),
      organizationName := OrNull(d.organizationName),
      organizationId := OrNull(d.organizationId),
      email := OrNull(d.email),
      languages := d.languages,
      interpretationServices := d.interpretationServices,
      accessibility := d.accessibility,
      fees := OrNull(d.fees),
      schedule := OrNull(d.schedule),
      serviceArea := OrNull(d.serviceArea),
      lastVerifiedAt := OrNull(d.lastVerifiedAt),
      dataSourceUrl := OrNull(d.dataSourceUrl),
      createdAt := StrOr(d.createdAt, nowIso),
      updatedAt := StrOr(d.updatedAt, nowIso),
      trust := NoTrust))
  }

  /** A resource as a partial resource with every field present. */
  function ToDraft(r: Resource): Draft {
    Draft(Some(r.id), Some(r.name), r.description, Some(r.categories), r.eligibility, r.address,
      r.city, Some(r.state), r.zip, r.latitude, r.longitude, r.phone, r.website,
      r.applicationGuide, Some(r.verified), r.source, r.sourceId, r.organizationName,
      r.organizationId, r.email, r.languages, r.interpretationServices, r.accessibility,
      r.fees, r.schedule, r.serviceArea, r.lastVerifiedAt, r.dataSourceUrl,
      Some(r.createdAt), Some(r.updatedAt))
  }

  /** Validation is idempotent: a validated resource (stamped with a non-empty time) validates to itself. */
  lemma ValidateIdempotent(d: Draft, nowIso: string, later: string)
    requires nowIso != ""
    requires ValidateResource(d, nowIso).Some?
    ensures var r := ValidateResource(d, nowIso).value;
      ValidateResource(ToDraft(r), later) == Some(r)
  {
  }

  /**
   * The connector pipeline: a raw record survives normalisation and
   * validation exactly when it has a service name, and then comes out
   * verified, with at least one category and its service area as the
   * application guide; its texts, place, coordinates, normalised phone and
   * parsed lists are the raw record's, empty values as null, and it was last
   * verified at `nowIso` (null when that is empty).
   */
  lemma ExternalPipelineAccepts(raw: Raw311, source: string, nowIso: string, later: string)
    ensures var r := ValidateResource(ToResource(NormalizeExternalService(raw, source, nowIso)), later);
      (r.Some? <==> raw.serviceName != "")
      && (r.Some? ==>
            (r.value.verified && |r.value.categories| >= 1
             && r.value.applicationGuide == OrNull(raw.serviceArea)
             && r.value.sourceId == OrNull(Some(raw.uniqueId))))
      && (r.Some? ==>
            && r.value.address == OrNull(raw.address) && r.value.city == OrNull(raw.city)
            && r.value.zip == OrNull(raw.zipcode)
            && r.value.latitude == NumOrNull(raw.latitude) && r.value.longitude == NumOrNull(raw.longitude)
            && r.value.phone == NormalizePhoneNumber(raw.phone)
            && r.value.website == OrNull(raw.website) && r.value.dataSourceUrl == OrNull(raw.website)
            && r.value.email == OrNull(raw.email) && r.value.fees == OrNull(raw.fees))
      && (r.Some? ==>
            && r.value.description == OrNull(raw.serviceDescription)
            && r.value.eligibility == OrNull(raw.eligibility) && r.value.schedule == OrNull(raw.hours)
            && r.value.serviceArea == OrNull(raw.serviceArea)
            && r.value.organizationName == OrNull(raw.agencyResponsible) && r.value.organizationId.None?
            && r.value.languages == Some(ParseListField(raw.languages))
            && r.value.interpretationServices == Some([])
            && r.value.accessibility == Some(ParseAccessibility(raw.accessibility))
            && r.value.lastVerifiedAt == OrNull(Some(nowIso)))
  {
  }
}

=== FILE: nyc311.dfy ===
/**
 * The NYC 311 connector: the service query with its clamped page size, the
 * fetch that normalises every returned record, and the full sync that pages
 * through the directory 100 records at a time.
 */
module Nyc311 {
  import opened Wrappers
  import opened Text
  import opened Types
  import opened Connector
  import Normalizer

  const DefaultLimit := 50
  const MaxLimit := 100
  const Source := "nyc311"

  /** The page size sent: the requested limit (50 when absent), capped at 100. */
  function EffectiveLimit(f: ExternalFilters): (n: int)
    ensures n <= MaxLimit && n <= f.limit.GetOr(DefaultLimit)
    ensures n == MaxLimit || n == f.limit.GetOr(DefaultLimit)
    ensures f.limit.None? ==> n == DefaultLimit
  {
    var limit := f.limit.GetOr(DefaultLimit);
    if limit < MaxLimit then limit else MaxLimit
  }

  /**
   * The filter parameter `name=value` is sent to NYC 311: `keyword` is the
   * search, `borough` the city (NYC has boroughs where the filters have
   * cities) and `zip` the zip, each only when truthy.
   */
  predicate SendsFilter(f: ExternalFilters, name: string, value: string) {
    || (name == "keyword" && Truthy(f.search) && value == f.search.value)
    || (name == "borough" && Truthy(f.city) && value == f.city.value)
    || (name == "zip" && Truthy(f.zip) && value == f.zip.value)
  }

  /**
   * The query: the filter parameters `SendsFilter` names, then the page size
   * and the offset (0 when absent). Category and state are not sent.
   */
  function ServicesQuery(f: ExternalFilters): (q: Query)
    ensures |q| >= 2
    ensures q[|q| - 2] == ("$limit", IntToString(EffectiveLimit(f)))
    ensures q[|q| - 1] == ("$offset", IntToString(f.offset.GetOr(0)))
    ensures forall p | p in q[..|q| - 2] :: p.0 in {"keyword", "borough", "zip"}
    ensures forall name, value :: (name, value) in q[..|q| - 2] <==> SendsFilter(f, name, value)
  {
    var filters := StrParam("keyword", f.search) + StrParam("borough", f.city) + StrParam("zip", f.zip);
    var q := filters + [("$limit", IntToString(EffectiveLimit(f))), ("$offset", IntToString(f.offset.GetOr(0)))];
    assert q[..|q| - 2] == filters;
    q
  }

  /** The category and state filters do not change the query. */
  lemma CategoryAndStateNotSent(f: ExternalFilters, category: Option<string>, state: Option<string>)
    ensures ServicesQuery(f.(category := category, state := state)) == ServicesQuery(f)
  {
  }

  const FetchFailedMessage := "Failed to fetch NYC 311 services"

  /** The rate-limited request for one page of services. */
  function ServicesRequest(c: Connector, clock: Clock, f: ExternalFilters,
                           transport: Query -> Reply<seq<Raw311>>): (Connector, RequestResult<seq<Raw311>>) {
    MakeRequest(c, clock, () => transport(ServicesQuery(f)))
  }

  /**
   * One page of services. A failed request, or a JSON null body, is a failure
   * carrying the request's error (or a generic message); otherwise every raw
   * record is normalised, in order, with source `nyc311` and verified now.
   */
  function FetchServices(c: Connector, clock: Clock, f: ExternalFilters,
                         transport: Query -> Reply<seq<Raw311>>): (r: (Connector, ConnectorResponse<seq<ExternalService>>))
    ensures r.1.source == c.source
    ensures !r.1.success ==> r.1.data.None? && r.1.error.Some? && r.1.error.value != ""
    ensures r.1.success <==> r.1.data.Some?
    ensures var req := ServicesRequest(c, clock, f, transport).1;
      && (r.1.success <==> req.success && req.data.Some?)
      && (!r.1.success ==> r.1.error == Some(if Truthy(req.error) then req.error.value else FetchFailedMessage))
    ensures r.1.success ==>
      var req := ServicesRequest(c, clock, f, transport).1;
      && req.success && req.data.Some?
      && |r.1.data.value| == |req.data.value|
      && forall i | 0 <= i < |req.data.value| ::
           r.1.data.value[i] == Normalizer.NormalizeExternalService(req.data.value[i], Source, clock.nowIso)
    ensures r.0 == ServicesRequest(c, clock, f, transport).0
  {
    var (c', result) := ServicesRequest(c, clock, f, transport);
    if !result.success || result.data.None? then
      (c', ConnectorResponse(false, None, Some(if Truthy(result.error) then result.error.value else FetchFailedMessage), c.source))
    else
      var raw := result.data.value;
      (c', ConnectorResponse(true, Some(seq(|raw|, i requires 0 <= i < |raw| =>
        Normalizer.NormalizeExternalService(raw[i], Source, clock.nowIso))), None, c.source))
  }

  /** What one page of a sync yields: `None` for a failed page, else the records. */
  function Batch(r: ConnectorResponse<seq<ExternalService>>): Option<seq<ExternalService>> {
    if !r.success || r.data.None? then None else r.data
  }

  /** A page that makes the sync ask for the next one. */
  predicate FullBatch(r: ConnectorResponse<seq<ExternalService>>) {
    Batch(r).Some? && |Batch(r).value| == MaxLimit
  }

  /** The source runs dry: no page at or past `bound` is full. */
  ghost predicate DriesUpBy(fetch: nat -> ConnectorResponse<seq<ExternalService>>, bound: nat) {
    forall offset: nat | offset >= bound :: !FullBatch(fetch(offset))
  }

  /** `${response.error}`: an absent error renders as `undefined`. */
  function ErrorText(e: Option<string>): string {
    if e.Some? then e.value else "undefined"
  }

  function BatchErrorMessage(offset: nat, error: Option<string>): string {
    "Failed to fetch batch at offset " + NatToString(offset) + ": " + ErrorText(error)
  }

  /** The tally of a sync from `offset` on: records imported and errors logged. */
  datatype Tally = Tally(imported: nat, errors: seq<string>)

  /**
   * The sync as a recursion over pages: a failed page logs one error and
   * stops; a full page adds its records and continues 100 further on; a short
   * page adds its records and stops.
   */
  function SyncFrom(fetch: nat -> ConnectorResponse<seq<ExternalService>>, offset: nat, bound: nat): (t: Tally)
    requires DriesUpBy(fetch, bound)
    ensures |t.errors| <= 1
    decreases if offset <= bound then bound - offset + 1 else 0
  {
    var response := fetch(offset);
    match Batch(response)
    case None => Tally(0, [BatchErrorMessage(offset, response.error)])
    case Some(services) =>
      if |services| == MaxLimit then
        var rest := SyncFrom(fetch, offset + MaxLimit, bound);
        Tally(|services| + rest.imported, rest.errors)
      else Tally(|services|, [])
  }

  /**
   * The full sync. The loop pages from offset 0 in steps of 100 until a page
   * fails or comes back short; `imported` counts every record of every
   * successful page, nothing is ever updated, and the sync succeeds exactly
   * when no error was logged. `bound` is a point past which the source has
   * no full page, so that the loop ends.
   */
  method SyncAll(fetch: nat -> ConnectorResponse<seq<ExternalService>>, ghost bound: nat) returns (result: SyncResult)
    requires DriesUpBy(fetch, bound)
    ensures result.imported == SyncFrom(fetch, 0, bound).imported
    ensures result.errors == SyncFrom(fetch, 0, bound).errors
    ensures result.success <==> result.errors == []
    ensures result.updated == 0 && result.source == Source
  {
    var errors: seq<string> := [];
    var imported: nat := 0;
    var offset: nat := 0;
    var hasMore := true;
    while hasMore
      invariant offset % MaxLimit == 0
      invariant hasMore ==> imported + SyncFrom(fetch, offset, bound).imported == SyncFrom(fetch, 0, bound).imported
      invariant hasMore ==> errors == [] && SyncFrom(fetch, offset, bound).errors == SyncFrom(fetch, 0, bound).errors
      invariant !hasMore ==> imported == SyncFrom(fetch, 0, bound).imported && errors == SyncFrom(fetch, 0, bound).errors
      decreases (if offset <= bound then bound - offset + 1 else 0), hasMore
    {
      var response := fetch(offset);
      if !response.success || response.data.None? {
        errors := errors + [BatchErrorMessage(offset, response.error)];
        break;
      }
      var services := response.data.value;
      var before := imported;
      var i := 0;
      while i < |services|
        invariant 0 <= i <= |services|
        invariant imported == before + i
      {
        imported := imported + 1;
        i := i + 1;
      }
      offset := offset + MaxLimit;
      hasMore := |services| == MaxLimit;
    }
    result := SyncResult(|errors| == 0, imported, 0, errors, Source);
  }
}

=== FILE: ratelimit.dfy ===
/**
 * The fixed-window rate limiter of the API routes: one bucket per key,
 * holding the requests counted in the current window and the time it ends.
 */
module RateLimit {
  /** A bucket: requests counted in the window, and when the window ends (ms). */
  datatype Bucket = Bucket(count: int, resetAt: int)

  type Buckets = map<string, Bucket>

  datatype Config = Config(windowMs: int, maxRequests: int)

  /** The configuration when the environment sets neither value. */
  const DefaultConfig := Config(60000, 120)

  datatype Decision = Decision(allowed: bool, retryAfterSeconds: int)

  /** `Math.ceil(ms / 1000)`. */
  function CeilSeconds(ms: int): (s: int)
    ensures 1000 * (s - 1) < ms <= 1000 * s
  {
    -((-ms) / 1000)
  }

  /**
   * `checkRateLimit` at time `now`: a missing or expired bucket starts a new
   * window with count 1 and allows the request; a full bucket denies it and
   * is left alone; otherwise the count goes up by one and the request is
   * allowed. Only the key's own bucket can change.
   */
  function CheckRateLimit(buckets: Buckets, key: string, now: int, config: Config): (r: (Buckets, Decision))
    ensures key !in buckets || now >= buckets[key].resetAt ==>
      && r.1 == Decision(true, CeilSeconds(config.windowMs))
      && r.0 == buckets[key := Bucket(1, now + config.windowMs)]
    ensures key in buckets && now < buckets[key].resetAt && buckets[key].count >= config.maxRequests ==>
      && !r.1.allowed
      && r.1.retryAfterSeconds == CeilSeconds(buckets[key].resetAt - now)
      && r.0 == buckets
    ensures key in buckets && now < buckets[key].resetAt && buckets[key].count < config.maxRequests ==>
      && r.1.allowed
      && r.1.retryAfterSeconds == CeilSeconds(buckets[key].resetAt - now)
      && r.0 == buckets[key := buckets[key].(count := buckets[key].count + 1)]
    ensures r.0.Keys == buckets.Keys + {key}
    ensures forall k | k in buckets && k != key :: r.0[k] == buckets[k]
    ensures !r.1.allowed ==> r.1.retryAfterSeconds >= 1
  {
    if key !in buckets || now >= buckets[key].resetAt then
      (buckets[key := Bucket(1, now + config.windowMs)], Decision(true, CeilSeconds(config.windowMs)))
    else
      var existing := buckets[key];
      if existing.count >= config.maxRequests then
        (buckets, Decision(false, CeilSeconds(existing.resetAt - now)))
      else
        (buckets[key := existing.(count := existing.count + 1)], Decision(true, CeilSeconds(existing.resetAt - now)))
  }

  /** Every bucket holds at most `max(1, maxRequests)` requests. */
  predicate WithinLimit(buckets: Buckets, config: Config) {
    forall k | k in buckets :: buckets[k].count <= Max(1, config.maxRequests)
  }

  function Max(a: int, b: int): int {
    if a < b then b else a
  }

  /** The check keeps every bucket within the limit. */
  lemma CheckKeepsWithinLimit(buckets: Buckets, key: string, now: int, config: Config)
    requires WithinLimit(buckets, config)
    ensures WithinLimit(CheckRateLimit(buckets, key, now, config).0, config)
  {
  }

  /** The number of `true`s among the decisions. */
  function CountAllowed(ds: seq<Decision>): (n: nat)
    ensures n <= |ds|
  {
    if |ds| == 0 then 0 else (if ds[0].allowed then 1 else 0) + CountAllowed(ds[1..])
  }

  /** A series of requests for one key at the given times, in order. */
  function Run(buckets: Buckets, key: string, times: seq<int>, config: Config): (r: (Buckets, seq<Decision>))
    ensures |r.1| == |times|
    decreases |times|
  {
    if |times| == 0 then (buckets, [])
    else
      var (b1, d) := CheckRateLimit(buckets, key, times[0], config);
      var (b2, ds) := Run(b1, key, times[1..], config);
      (b2, [d] + ds)
  }

  /**
   * Inside a live window, the requests of a series that all come before its
   * end are allowed at most as often as the room left in the bucket, and the
   * window's end does not move.
   */
  lemma {:induction false} RunInsideWindow(buckets: Buckets, key: string, times: seq<int>, config: Config)
    requires key in buckets
    requires forall i | 0 <= i < |times| :: times[i] < buckets[key].resetAt
    ensures var r := Run(buckets, key, times, config);
      && key in r.0 && r.0[key].resetAt == buckets[key].resetAt
      && CountAllowed(r.1) <= Max(0, config.maxRequests - buckets[key].count)
      && r.0[key].count == buckets[key].count + CountAllowed(r.1)
    decreases |times|
  {
    if |times| > 0 {
      var b1 := CheckRateLimit(buckets, key, times[0], config).0;
      assert b1[key].resetAt == buckets[key].resetAt;
      RunInsideWindow(b1, key, times[1..], config);
    }
  }

  /**
   * Within one window at most `max(1, maxRequests)` requests of a key are
   * allowed: a series that opens a new window at its first request, and
   * whose every request comes before that window ends, is allowed at most
   * that many times.
   */
  lemma AtMostMaxPerWindow(buckets: Buckets, key: string, times: seq<int>, config: Config)
    requires |times| > 0
    requires key !in buckets || times[0] >= buckets[key].resetAt
    requires forall i | 0 <= i < |times| :: times[i] < times[0] + config.windowMs
    ensures CountAllowed(Run(buckets, key, times, config).1) <= Max(1, config.maxRequests)
  {
    var b1 := CheckRateLimit(buckets, key, times[0], config).0;
    assert b1[key] == Bucket(1, times[0] + config.windowMs);
    var rest := times[1..];
    assert forall i | 0 <= i < |rest| :: rest[i] == times[i + 1];
    RunInsideWindow(b1, key, rest, config);
  }

  /** Requests for one key never change the bucket of another. */
  lemma {:induction false} RunIsolatesKeys(buckets: Buckets, key: string, other: string, times: seq<int>, config: Config)
    requires other != key
    ensures var r := Run(buckets, key, times, config).0;
      && (other in r <==> other in buckets)
      && (other in buckets ==> r[other] == buckets[other])
    decreases |times|
  {
    if |times| > 0 {
      var b1 := CheckRateLimit(buckets, key, times[0], config).0;
      RunIsolatesKeys(b1, key, other, times[1..], config);
    }
  }
}

=== FILE: repository.dfy ===
/**
 * The resource repository: the store query of the list endpoint (filter
 * conditions and the row range), and the merge that overlays each resource
 * with the rows of the availability and verification tables.
 */
module Repository {
  import opened Wrappers
  import opened Text
  import opened Types

  /** A row of the availability table (every value column is nullable). */
  datatype AvailabilityRow = AvailabilityRow(
    resourceId: string,
    availabilityStatus: Option<AvailabilityStatus>,
    lastConfirmedAt: Option<string>,
    confirmationSource: Option<string>,
    confidenceScore: Option<real>)

  /** A row of the verification table. */
  datatype VerificationRow = VerificationRow(
    resourceId: string,
    verificationBadge: Option<Badge>,
    dataSourceLabel: Option<string>,
    freshnessState: Option<FreshnessState>)

  /** What a trust-table query answers: an error, or its rows (`None` for a null result). */
  datatype Rows<R> = RowsError(message: string) | Rows(data: Option<seq<R>>)

  /** The answers of both trust tables to one lookup by resource ids. */
  datatype TrustTables = TrustTables(availability: Rows<AvailabilityRow>, verification: Rows<VerificationRow>)

  function Ids(resources: seq<Resource>): (ids: seq<string>)
    ensures |ids| == |resources| && forall i | 0 <= i < |ids| :: ids[i] == resources[i].id
  {
    seq(|resources|, i requires 0 <= i < |resources| => resources[i].id)
  }

  /** The keys of `m` are exactly the keys of the rows. */
  ghost predicate KeysOf<R>(m: map<string, R>, rows: seq<R>, key: R -> string) {
    forall id :: id in m <==> exists i | 0 <= i < |rows| :: key(rows[i]) == id
  }

  /** Each key of `m` maps to the last row with that key. */
  ghost predicate LastOf<R>(m: map<string, R>, rows: seq<R>, key: R -> string) {
    forall id | id in m :: exists i | 0 <= i < |rows| ::
      && rows[i] == m[id] && key(rows[i]) == id
      && forall j | i < j < |rows| :: key(rows[j]) != id
  }

  /**
   * Rows indexed by a key, as `new Map(rows.map(row => [key, row]))` builds
   * them: a key is present iff some row has it, and maps to the last such row.
   */
  function IndexBy<R>(rows: seq<R>, key: R -> string): (m: map<string, R>)
    ensures KeysOf(m, rows, key)
    ensures LastOf(m, rows, key)
  {
    if |rows| == 0 then map[]
    else
      var front := rows[..|rows| - 1];
      var last := rows[|rows| - 1];
      var prev := IndexBy(front, key);
      IndexSnoc(front, last, key, prev);
      assert front + [last] == rows;
      prev[key(last) := last]
  }

  /** Setting one more row's key keeps both properties of the index. */
  lemma IndexSnoc<R>(front: seq<R>, last: R, key: R -> string, prev: map<string, R>)
    requires KeysOf(prev, front, key) && LastOf(prev, front, key)
    ensures KeysOf(prev[key(last) := last], front + [last], key)
    ensures LastOf(prev[key(last) := last], front + [last], key)
  {
    var rows := front + [last];
    var m := prev[key(last) := last];
    assert rows[|front|] == last;
    forall id ensures id in m <==> exists i | 0 <= i < |rows| :: key(rows[i]) == id {
      if id != key(last) {
        if id in prev {
          var i :| 0 <= i < |front| && key(front[i]) == id;
          assert rows[i] == front[i];
        }
        if exists i | 0 <= i < |rows| :: key(rows[i]) == id {
          var i :| 0 <= i < |rows| && key(rows[i]) == id;
          assert i < |front| && rows[i] == front[i];
        }
      }
    }
    forall id | id in m ensures exists i | 0 <= i < |rows| ::
      && rows[i] == m[id] && key(rows[i]) == id
      && forall j | i < j < |rows| :: key(rows[j]) != id
    {
      if id != key(last) {
        var i :| 0 <= i < |front| && front[i] == prev[id] && key(front[i]) == id
          && forall j | i < j < |front| :: key(front[j]) != id;
        assert rows[i] == front[i];
        forall j | i < j < |rows| ensures key(rows[j]) != id {
          if j < |front| {
            assert rows[j] == front[j];
          }
        }
      }
    }
  }

  function Get<R>(m: map<string, R>, id: string): Option<R> {
    if id in m then Some(m[id]) else None
  }

  /** `row?.field ?? own`: an absent row and a null column both leave the resource's own value. */
  function Overlay<T>(rowValue: Option<T>, own: Option<T>): Option<T> {
    rowValue.OrElse(own)
  }

  /**
   * One resource merged with its rows: each of the seven trust fields takes
   * the row's non-null value and otherwise keeps the resource's own; every
   * other field is unchanged.
   */
  function MergeTrust(r: Resource, a: Option<AvailabilityRow>, v: Option<VerificationRow>): (m: Resource)
    ensures m.(trust := r.trust) == r
    ensures a.None? && v.None? ==> m == r
    ensures a.Some? && a.value.availabilityStatus.Some? ==> m.trust.availabilityStatus == a.value.availabilityStatus
    ensures a.Some? && a.value.lastConfirmedAt.Some? ==> m.trust.lastConfirmedAt == a.value.lastConfirmedAt
    ensures a.Some? && a.value.confirmationSource.Some? ==> m.trust.confirmationSource == a.value.confirmationSource
    ensures a.Some? && a.value.confidenceScore.Some? ==> m.trust.confidenceScore == a.value.confidenceScore
    ensures v.Some? && v.value.verificationBadge.Some? ==> m.trust.verificationBadge == v.value.verificationBadge
    ensures v.Some? && v.value.dataSourceLabel.Some? ==> m.trust.dataSourceLabel == v.value.dataSourceLabel
    ensures v.Some? && v.value.freshnessState.Some? ==> m.trust.freshnessState == v.value.freshnessState
    ensures (a.None? || a.value.availabilityStatus.None?) ==> m.trust.availabilityStatus == r.trust.availabilityStatus
    ensures (a.None? || a.value.lastConfirmedAt.None?) ==> m.trust.lastConfirmedAt == r.trust.lastConfirmedAt
    ensures (a.None? || a.value.confirmationSource.None?) ==> m.trust.confirmationSource == r.trust.confirmationSource
    ensures (a.None? || a.value.confidenceScore.None?) ==> m.trust.confidenceScore == r.trust.confidenceScore
    ensures (v.None? || v.value.verificationBadge.None?) ==> m.trust.verificationBadge == r.trust.verificationBadge
    ensures (v.None? || v.value.dataSourceLabel.None?) ==> m.trust.dataSourceLabel == r.trust.dataSourceLabel
    ensures (v.None? || v.value.freshnessState.None?) ==> m.trust.freshnessState == r.trust.freshnessState
  {
    r.(trust := Trust(
      availabilityStatus := Overlay(if a.Some? then a.value.availabilityStatus else None, r.trust.availabilityStatus),
      lastConfirmedAt := Overlay(if a.Some? then a.value.lastConfirmedAt else None, r.trust.lastConfirmedAt),
      confirmationSource := Overlay(if a.Some? then a.value.confirmationSource else None, r.trust.confirmationSource),
      confidenceScore := Overlay(if a.Some? then a.value.confidenceScore else None, r.trust.confidenceScore),
      verificationBadge := Overlay(if v.Some? then v.value.verificationBadge else None, r.trust.verificationBadge),
      dataSourceLabel := Overlay(if v.Some? then v.value.dataSourceLabel else None, r.trust.dataSourceLabel),
      freshnessState := Overlay(if v.Some? then v.value.freshnessState else None, r.trust.freshnessState)))
  }

  /** Merging the same rows a second time changes nothing. */
  lemma MergeIdempotent(r: Resource, a: Option<AvailabilityRow>, v: Option<VerificationRow>)
    ensures MergeTrust(MergeTrust(r, a, v), a, v) == MergeTrust(r, a, v)
  {
  }

  predicate LookupFailed(t: TrustTables) {
    t.availability.RowsError? || t.verification.RowsError?
  }

  function AvailabilityIndex(t: TrustTables): map<string, AvailabilityRow>
    requires t.availability.Rows?
  {
    IndexBy(t.availability.data.GetOr([]), (row: AvailabilityRow) => row.resourceId)
  }

  function VerificationIndex(t: TrustTables): map<string, VerificationRow>
    requires t.verification.Rows?
  {
    IndexBy(t.verification.data.GetOr([]), (row: VerificationRow) => row.resourceId)
  }

  /**
   * Attaches trust metadata. An empty input, or an error from either table
   * (tables not migrated yet), returns the input as it is; otherwise each
   * resource is merged with the last row of each table carrying its id.
   * Length, order, ids and all non-trust fields are preserved.
   */
  function AttachTrustMetadata(resources: seq<Resource>, lookup: seq<string> -> TrustTables): (rs: seq<Resource>)
    ensures |rs| == |resources|
    ensures forall i | 0 <= i < |rs| :: rs[i].(trust := resources[i].trust) == resources[i]
    ensures |resources| == 0 || LookupFailed(lookup(Ids(resources))) ==> rs == resources
    ensures |resources| > 0 && !LookupFailed(lookup(Ids(resources))) ==>
      var t := lookup(Ids(resources));
      forall i | 0 <= i < |rs| ::
        rs[i] == MergeTrust(resources[i], Get(AvailabilityIndex(t), resources[i].id), Get(VerificationIndex(t), resources[i].id))
  {
    if |resources| == 0 then resources
    else
      var t := lookup(Ids(resources));
      if LookupFailed(t) then resources
      else
        var byAvailability := AvailabilityIndex(t);
        var byVerification := VerificationIndex(t);
        seq(|resources|, i requires 0 <= i < |resources| =>
          MergeTrust(resources[i], Get(byAvailability, resources[i].id), Get(byVerification, resources[i].id)))
  }

  /**
   * Which row wins when a table holds several rows for one resource: the
   * last. Nothing before it matters.
   */
  lemma LastRowWins(r: Resource, t: TrustTables, a1: AvailabilityRow, a2: AvailabilityRow, lookup: seq<string> -> TrustTables)
    requires a1.resourceId == r.id && a2.resourceId == r.id
    requires lookup([r.id]) == t.(availability := Rows(Some([a1, a2])))
    requires t.verification.Rows?
    ensures AttachTrustMetadata([r], lookup) == [MergeTrust(r, Some(a2), Get(VerificationIndex(lookup([r.id])), r.id))]
  {
    var t' := lookup(Ids([r]));
    assert Ids([r]) == [r.id];
    var m := AvailabilityIndex(t');
    assert r.id in m;
    var i :| 0 <= i < 2 && [a1, a2][i] == m[r.id] && [a1, a2][i].resourceId == r.id
      && forall j | i < j < 2 :: [a1, a2][j].resourceId != r.id;
    assert i == 1;
  }

  /** The conditions and row range the resources query sends to the store. */
  datatype LocalQuery = LocalQuery(
    categories: Option<seq<Category>>,
    search: Option<string>,
    city: Option<string>,
    state: Option<string>,
    zip: Option<string>,
    verified: Option<bool>,
    rangeFrom: int,
    rangeTo: int)

  /** The store's answer: an error message, or the rows (`None` for null) and the exact count (`None` for null). */
  datatype StoreReply = StoreError(message: string) | StoreRows(data: Option<seq<Resource>>, count: Option<int>)

  function NonEmptyCategories(cs: Option<seq<Category>>): (r: Option<seq<Category>>)
    ensures r.Some? <==> cs.Some? && |cs.value| > 0
    ensures r.Some? ==> r == cs
  {
    if cs.Some? && |cs.value| > 0 then cs else None
  }

  /**
   * The store query of a filter set: the category containment when there are
   * categories, the text, city, state and zip conditions when non-empty, the
   * verified condition when given (false included), and rows `offset`
   * through `offset + limit - 1`.
   */
  function LocalQueryOf(f: Filters): (q: LocalQuery)
    ensures q.rangeFrom == f.offset && q.rangeTo - q.rangeFrom + 1 == f.limit
    ensures q.categories.Some? <==> f.categories.Some? && |f.categories.value| > 0
    ensures q.search.Some? <==> Truthy(f.search)
    ensures q.city.Some? <==> Truthy(f.city)
    ensures q.state.Some? <==> Truthy(f.state)
    ensures q.zip.Some? <==> Truthy(f.zip)
    ensures q.verified == f.verified
    ensures q.search.Some? ==> q.search == f.search
    ensures q.city.Some? ==> q.city == f.city
    ensures q.state.Some? ==> q.state == f.state
    ensures q.zip.Some? ==> q.zip == f.zip
    ensures q.categories.Some? ==> q.categories == f.categories
  {
    LocalQuery(
      categories := NonEmptyCategories(f.categories),
      search := OrNull(f.search),
      city := OrNull(f.city),
      state := OrNull(f.state),
      zip := OrNull(f.zip),
      verified := f.verified,
      rangeFrom := f.offset,
      rangeTo := f.offset + f.limit - 1)
  }

  /**
   * Two filter sets give the same store query exactly when they agree on the
   * conditions the query sends: the non-empty categories, the truthy texts,
   * the verified flag, the offset and the limit.
   */
  lemma SameLocalQueryIff(f1: Filters, f2: Filters)
    ensures LocalQueryOf(f1) == LocalQueryOf(f2) <==>
      && NonEmptyCategories(f1.categories) == NonEmptyCategories(f2.categories)
      && OrNull(f1.search) == OrNull(f2.search) && OrNull(f1.city) == OrNull(f2.city)
      && OrNull(f1.state) == OrNull(f2.state) && OrNull(f1.zip) == OrNull(f2.zip)
      && f1.verified == f2.verified && f1.offset == f2.offset && f1.limit == f2.limit
  {
  }

  datatype LocalPage = LocalPage(data: seq<Resource>, count: int)

  function QueryFailedMessage(message: string): string {
    "Database query failed: " + message
  }

  /**
   * One page of local resources. A store error is a failure carrying the
   * store's message; otherwise the rows (none for a null result) with trust
   * metadata attached, and the count, 0 when the store gives none.
   */
  function FetchLocalResources(f: Filters, store: LocalQuery -> StoreReply, lookup: seq<string> -> TrustTables): (r: Result<LocalPage, string>)
    ensures var reply := store(LocalQueryOf(f));
      && (r.Failure? <==> reply.StoreError?)
      && (r.Failure? ==> r.error == QueryFailedMessage(reply.message))
      && (r.Success? ==>
            && r.value.count == reply.count.GetOr(0)
            && |r.value.data| == |reply.data.GetOr([])|
            && forall i | 0 <= i < |r.value.data| :: r.value.data[i].(trust := reply.data.value[i].trust) == reply.data.value[i])
    ensures r.Success? ==> r.value.data == AttachTrustMetadata(store(LocalQueryOf(f)).data.GetOr([]), lookup)
  {
    match store(LocalQueryOf(f))
    case StoreError(message) => Failure(QueryFailedMessage(message))
    case StoreRows(data, count) =>
      Success(LocalPage(AttachTrustMetadata(data.GetOr([]), lookup), count.GetOr(0)))
  }

  /**
   * One resource by id, with its trust metadata; `None` when the store
   * reports an error (which includes no such row).
   */
  function FetchResourceById(id: string, fetchRow: string -> Option<Resource>, lookup: seq<string> -> TrustTables): (r: Option<Resource>)
    ensures r.None? <==> fetchRow(id).None?
    ensures r.Some? ==> r.value.(trust := fetchRow(id).value.trust) == fetchRow(id).value
    ensures r.Some? ==> [r.value] == AttachTrustMetadata([fetchRow(id).value], lookup)
  {
    match fetchRow(id)
    case None => None
    case Some(row) => Some(AttachTrustMetadata([row], lookup)[0])
  }
}

=== FILE: resourcedetail.dfy ===
/**
 * The detail page's data: a resource's card and up to three nearby
 * alternatives from the same city and state, nearest first.
 */
module ResourceDetail {
  import opened Wrappers
  import opened Types
  import Mappers
  import Repository
  import ListResources

  /** `Number.MAX_SAFE_INTEGER`, the distance of a pair without usable coordinates. */
  const MaxSafeInteger: real := 9007199254740991.0
  const AlternativesShown := 3
  const NeighbourhoodSize := 100

  /** A coordinate in a boolean position: null and 0 are false. */
  predicate NonZero(x: Option<real>) {
    x.Some? && x.value != 0.0
  }

  /** A row that may be offered as an alternative: another resource with both coordinates non-zero. */
  predicate Eligible(item: Resource, base: Resource) {
    item.id != base.id && NonZero(item.latitude) && NonZero(item.longitude)
  }

  /** The neighbourhood query: the first 100 rows of the resource's city (any city when it has none) and state. */
  function NeighbourFilters(r: Resource): (f: Filters)
    ensures f.limit == NeighbourhoodSize && f.offset == 0
    ensures f.city == r.city && f.state == Some(r.state)
    ensures f.categories.None? && f.search.None? && f.zip.None? && f.verified.None? && f.source.None?
  {
    Filters(
      categories := None, search := None, city := r.city, state := Some(r.state), zip := None,
      eligibility := None, verified := None, openNow := None, verifiedRecently := None,
      nearLat := None, nearLng := None, nearRadiusMiles := None, source := None,
      limit := NeighbourhoodSize, offset := 0)
  }

  function EligibleRows(rows: seq<Resource>, base: Resource): (r: seq<Resource>)
    ensures |r| <= |rows|
    ensures forall x | x in r :: x in rows && Eligible(x, base)
    ensures forall x | x in rows && Eligible(x, base) :: x in r
    decreases |rows|
  {
    if |rows| == 0 then []
    else
      assert rows == [rows[0]] + rows[1..];
      (if Eligible(rows[0], base) then [rows[0]] else []) + EligibleRows(rows[1..], base)
  }

  /** The distance between two cards, or `MAX_SAFE_INTEGER` when either lacks a (non-zero) coordinate. */
  function DistanceFrom(base: CardDTO, item: CardDTO, distance: ListResources.Distance): real {
    if NonZero(base.latitude) && NonZero(base.longitude) && NonZero(item.latitude) && NonZero(item.longitude)
    then distance(base.latitude.value, base.longitude.value, item.latitude.value, item.longitude.value)
    else MaxSafeInteger
  }

  function Rank(base: CardDTO, items: seq<CardDTO>, distance: ListResources.Distance): (r: seq<(CardDTO, real)>)
    ensures |r| == |items| && forall i | 0 <= i < |r| :: r[i] == (items[i], DistanceFrom(base, items[i], distance))
  {
    seq(|items|, i requires 0 <= i < |items| => (items[i], DistanceFrom(base, items[i], distance)))
  }

  predicate SortedByDistance<T>(s: seq<(T, real)>) {
    forall i, j | 0 <= i < j < |s| :: s[i].1 <= s[j].1
  }

  /** Stable insertion: `x` goes before the first entry that is not nearer than it. */
  function InsertByDistance<T>(x: (T, real), s: seq<(T, real)>): (r: seq<(T, real)>)
    ensures |r| == |s| + 1
    ensures multiset(r) == multiset(s) + multiset{x}
    ensures forall y | y in r :: y == x || y in s
    ensures SortedByDistance(s) ==> SortedByDistance(r)
    decreases |s|
  {
    if |s| == 0 then [x]
    else if x.1 <= s[0].1 then [x] + s
    else
      var rest := InsertByDistance(x, s[1..]);
      assert s == [s[0]] + s[1..];
      if SortedByDistance(s) then
        HeadNearest(s);
        ConsSortedByDistance(s[0], rest);
        [s[0]] + rest
      else [s[0]] + rest
  }

  /** The head of a sorted sequence is not farther than anything after it. */
  lemma HeadNearest<T>(s: seq<(T, real)>)
    requires |s| > 0 && SortedByDistance(s)
    ensures SortedByDistance(s[1..])
    ensures forall y | y in s[1..] :: s[0].1 <= y.1
  {
    forall y | y in s[1..] ensures s[0].1 <= y.1 {
      var k :| 0 <= k < |s[1..]| && s[1..][k] == y;
      assert s[k + 1] == y;
    }
    forall i, j | 0 <= i < j < |s[1..]| ensures s[1..][i].1 <= s[1..][j].1 {
      assert s[1..][i] == s[i + 1] && s[1..][j] == s[j + 1];
    }
  }

  /** A head not farther than anything in a sorted sequence keeps it sorted. */
  lemma ConsSortedByDistance<T>(h: (T, real), s: seq<(T, real)>)
    requires SortedByDistance(s)
    requires forall y | y in s :: h.1 <= y.1
    ensures SortedByDistance([h] + s)
  {
    var t := [h] + s;
    forall i, j | 0 <= i < j < |t| ensures t[i].1 <= t[j].1 {
      assert t[j] == s[j - 1] && t[j] in s;
      if i > 0 {
        assert t[i] == s[i - 1];
      }
    }
  }

  /** `entries.sort((a, b) => a.distance - b.distance)`: a stable sort by distance. */
  function SortByDistance<T>(s: seq<(T, real)>): (r: seq<(T, real)>)
    ensures |r| == |s|
    ensures multiset(r) == multiset(s)
    ensures SortedByDistance(r)
    decreases |s|
  {
    if |s| == 0 then []
    else
      assert s == [s[0]] + s[1..];
      InsertByDistance(s[0], SortByDistance(s[1..]))
  }

  /** Stability: when every distance is the same, the sort keeps the original order. */
  lemma {:induction false} EqualDistancesKeepOrder<T>(s: seq<(T, real)>, d: real)
    requires forall i | 0 <= i < |s| :: s[i].1 == d
    ensures SortByDistance(s) == s
    decreases |s|
  {
    if |s| > 0 {
      EqualDistancesKeepOrder(s[1..], d);
      assert s == [s[0]] + s[1..];
    }
  }

  /** The entries at distance `d`, in order. */
  function AtDistance<T>(s: seq<(T, real)>, d: real): seq<(T, real)>
    decreases |s|
  {
    if |s| == 0 then []
    else (if s[0].1 == d then [s[0]] else []) + AtDistance(s[1..], d)
  }

  /** Insertion puts the new entry ahead of every entry at its own distance. */
  lemma {:induction false} InsertAtDistance<T>(x: (T, real), s: seq<(T, real)>, d: real)
    ensures AtDistance(InsertByDistance(x, s), d) == (if x.1 == d then [x] else []) + AtDistance(s, d)
    decreases |s|
  {
    var here: seq<(T, real)> := if x.1 == d then [x] else [];
    if |s| == 0 {
      assert AtDistance([x], d) == here + AtDistance([x][1..], d);
    } else if x.1 <= s[0].1 {
      var r := [x] + s;
      assert r[0] == x && r[1..] == s;
      assert AtDistance(r, d) == here + AtDistance(s, d);
    } else {
      var rest := InsertByDistance(x, s[1..]);
      var r := [s[0]] + rest;
      assert InsertByDistance(x, s) == r;
      var first: seq<(T, real)> := if s[0].1 == d then [s[0]] else [];
      assert r[0] == s[0] && r[1..] == rest;
      assert AtDistance(r, d) == first + AtDistance(rest, d);
      InsertAtDistance(x, s[1..], d);
      assert AtDistance(rest, d) == here + AtDistance(s[1..], d);
      assert AtDistance(s, d) == first + AtDistance(s[1..], d);
      assert first == [] || here == [];
      assert first + (here + AtDistance(s[1..], d)) == here + (first + AtDistance(s[1..], d));
    }
  }

  /**
   * Stability: for every distance, the entries at that distance keep their
   * relative order through the sort.
   */
  lemma {:induction false} SortKeepsOrderAtEachDistance<T>(s: seq<(T, real)>, d: real)
    ensures AtDistance(SortByDistance(s), d) == AtDistance(s, d)
    decreases |s|
  {
    if |s| > 0 {
      SortKeepsOrderAtEachDistance(s[1..], d);
      InsertAtDistance(s[0], SortByDistance(s[1..]), d);
    }
  }

  function Take<T>(s: seq<T>, n: nat): (r: seq<T>)
    ensures r == if |s| <= n then s else s[..n]
  {
    if |s| <= n then s else s[..n]
  }

  /**
   * The first `n` entries of the sorted sequence are the nearest: they come
   * from the input, and no input entry left out is nearer than one taken.
   */
  lemma NearestFirst<T>(s: seq<(T, real)>, n: nat)
    ensures var shown := Take(SortByDistance(s), n);
      && SortedByDistance(shown)
      && (forall y | y in shown :: y in s)
      && (forall y, k | y in s && 0 <= k < |shown| && y.1 < shown[k].1 :: y in shown)
  {
    var sorted := SortByDistance(s);
    var shown := Take(sorted, n);
    forall y | y in shown ensures y in s {
      assert y in multiset(sorted);
    }
    forall y, k | y in s && 0 <= k < |shown| && y.1 < shown[k].1 ensures y in shown {
      assert y in multiset(sorted);
      var p :| 0 <= p < |sorted| && sorted[p] == y;
      assert p < |shown|;
      assert shown[p] == y;
    }
  }

  function Items<T>(s: seq<(T, real)>): (items: seq<T>)
    ensures |items| == |s| && forall i | 0 <= i < |s| :: items[i] == s[i].0
  {
    seq(|s|, i requires 0 <= i < |s| => s[i].0)
  }

  /** The ranked entries shown: the eligible rows as cards with their distance, sorted, the first three. */
  function ShownEntries(base: Resource, rows: seq<Resource>, clock: Clock, distance: ListResources.Distance): seq<(CardDTO, real)> {
    var dto := Mappers.ToResourceCardDTO(base, clock);
    Take(SortByDistance(Rank(dto, ListResources.Cards(EligibleRows(rows, base), clock), distance)), AlternativesShown)
  }

  /** Every alternative is the card of an eligible row: another resource, with both coordinates. */
  predicate AllFromEligible(alts: seq<CardDTO>, base: Resource, rows: seq<Resource>, clock: Clock) {
    forall a | a in alts ::
      && a.id != base.id && NonZero(a.latitude) && NonZero(a.longitude)
      && exists x | x in rows :: Eligible(x, base) && a == Mappers.ToResourceCardDTO(x, clock)
  }

  /** The cards are in order of distance from `from`, nearest first. */
  predicate NearestFirstFrom(alts: seq<CardDTO>, from: CardDTO, distance: ListResources.Distance) {
    forall i, j | 0 <= i < j < |alts| :: DistanceFrom(from, alts[i], distance) <= DistanceFrom(from, alts[j], distance)
  }

  /** No eligible row is nearer to the resource than a card shown and yet left out. */
  predicate NoNearerRowLeftOut(alts: seq<CardDTO>, base: Resource, rows: seq<Resource>, clock: Clock,
                               distance: ListResources.Distance) {
    forall x, k | x in rows && Eligible(x, base) && 0 <= k < |alts|
        && DistanceFrom(Mappers.ToResourceCardDTO(base, clock), Mappers.ToResourceCardDTO(x, clock), distance)
           < DistanceFrom(Mappers.ToResourceCardDTO(base, clock), alts[k], distance) ::
      Mappers.ToResourceCardDTO(x, clock) in alts
  }

  /**
   * The nearest three eligible rows, as cards: at most three, never the
   * resource itself, never one with a zero or missing coordinate, nearest
   * first, and no eligible row left out is nearer than one shown.
   */
  function Alternatives(base: Resource, rows: seq<Resource>, clock: Clock, distance: ListResources.Distance): (alts: seq<CardDTO>)
    ensures |alts| == if |EligibleRows(rows, base)| <= AlternativesShown then |EligibleRows(rows, base)| else AlternativesShown
    ensures AllFromEligible(alts, base, rows, clock)
    ensures NearestFirstFrom(alts, Mappers.ToResourceCardDTO(base, clock), distance)
    ensures NoNearerRowLeftOut(alts, base, rows, clock, distance)
  {
    ShownCount(base, rows, clock, distance);
    ShownAlternativesEligible(base, rows, clock, distance);
    ShownSorted(base, rows, clock, distance);
    ShownNearest(base, rows, clock, distance);
    Items(ShownEntries(base, rows, clock, distance))
  }

  lemma ShownAlternativesEligible(base: Resource, rows: seq<Resource>, clock: Clock, distance: ListResources.Distance)
    ensures AllFromEligible(Items(ShownEntries(base, rows, clock, distance)), base, rows, clock)
  {
    var shown := ShownEntries(base, rows, clock, distance);
    var alts := Items(shown);
    ShownFromEligible(base, rows, clock, distance);
    forall a | a in alts
      ensures a.id != base.id && NonZero(a.latitude) && NonZero(a.longitude)
      ensures exists x | x in rows :: Eligible(x, base) && a == Mappers.ToResourceCardDTO(x, clock)
    {
      var i :| 0 <= i < |alts| && alts[i] == a;
      assert a == shown[i].0;
    }
  }

  lemma ShownCount(base: Resource, rows: seq<Resource>, clock: Clock, distance: ListResources.Distance)
    ensures |ShownEntries(base, rows, clock, distance)|
      == if |EligibleRows(rows, base)| <= AlternativesShown then |EligibleRows(rows, base)| else AlternativesShown
  {
    var dto := Mappers.ToResourceCardDTO(base, clock);
    var ranked := Rank(dto, ListResources.Cards(EligibleRows(rows, base), clock), distance);
    assert |SortByDistance(ranked)| == |ranked| by {
      assert multiset(SortByDistance(ranked)) == multiset(ranked);
    }
  }

  /** Each shown entry is an eligible row's card, with its distance from the resource. */
  lemma ShownFromEligible(base: Resource, rows: seq<Resource>, clock: Clock, distance: ListResources.Distance)
    ensures var shown := ShownEntries(base, rows, clock, distance);
      forall i | 0 <= i < |shown| ::
        && shown[i].1 == DistanceFrom(Mappers.ToResourceCardDTO(base, clock), shown[i].0, distance)
        && shown[i].0.id != base.id && NonZero(shown[i].0.latitude) && NonZero(shown[i].0.longitude)
        && exists x | x in rows :: Eligible(x, base) && shown[i].0 == Mappers.ToResourceCardDTO(x, clock)
  {
    var dto := Mappers.ToResourceCardDTO(base, clock);
    var eligible := EligibleRows(rows, base);
    var cards := ListResources.Cards(eligible, clock);
    var ranked := Rank(dto, cards, distance);
    var shown := ShownEntries(base, rows, clock, distance);
    NearestFirst(ranked, AlternativesShown);
    forall i | 0 <= i < |shown|
      ensures shown[i].1 == DistanceFrom(dto, shown[i].0, distance)
      ensures shown[i].0.id != base.id && NonZero(shown[i].0.latitude) && NonZero(shown[i].0.longitude)
      ensures exists x | x in rows :: Eligible(x, base) && shown[i].0 == Mappers.ToResourceCardDTO(x, clock)
    {
      assert shown[i] in shown;
      var p :| 0 <= p < |ranked| && ranked[p] == shown[i];
      var x := eligible[p];
      assert x in eligible;
      assert shown[i].0 == Mappers.ToResourceCardDTO(x, clock);
    }
  }

  lemma ShownSorted(base: Resource, rows: seq<Resource>, clock: Clock, distance: ListResources.Distance)
    ensures NearestFirstFrom(Items(ShownEntries(base, rows, clock, distance)), Mappers.ToResourceCardDTO(base, clock), distance)
  {
    var dto := Mappers.ToResourceCardDTO(base, clock);
    var ranked := Rank(dto, ListResources.Cards(EligibleRows(rows, base), clock), distance);
    var shown := ShownEntries(base, rows, clock, distance);
    NearestFirst(ranked, AlternativesShown);
    ShownFromEligible(base, rows, clock, distance);
    var alts := Items(shown);
    forall i, j | 0 <= i < j < |alts|
      ensures DistanceFrom(dto, alts[i], distance) <= DistanceFrom(dto, alts[j], distance)
    {
      assert shown[i].1 <= shown[j].1;
    }
  }

  lemma ShownNearest(base: Resource, rows: seq<Resource>, clock: Clock, distance: ListResources.Distance)
    ensures NoNearerRowLeftOut(Items(ShownEntries(base, rows, clock, distance)), base, rows, clock, distance)
  {
    var alts := Items(ShownEntries(base, rows, clock, distance));
    forall x, k | x in rows && Eligible(x, base) && 0 <= k < |alts|
        && DistanceFrom(Mappers.ToResourceCardDTO(base, clock), Mappers.ToResourceCardDTO(x, clock), distance)
           < DistanceFrom(Mappers.ToResourceCardDTO(base, clock), alts[k], distance)
      ensures Mappers.ToResourceCardDTO(x, clock) in alts
    {
      RowShown(base, rows, clock, distance, x, k);
    }
  }

  /** One eligible row nearer than the `k`th alternative is among the alternatives. */
  lemma RowShown(base: Resource, rows: seq<Resource>, clock: Clock, distance: ListResources.Distance, x: Resource, k: nat)
    requires x in rows && Eligible(x, base)
    requires var alts := Items(ShownEntries(base, rows, clock, distance));
      && k < |alts|
      && DistanceFrom(Mappers.ToResourceCardDTO(base, clock), Mappers.ToResourceCardDTO(x, clock), distance)
         < DistanceFrom(Mappers.ToResourceCardDTO(base, clock), alts[k], distance)
    ensures Mappers.ToResourceCardDTO(x, clock) in Items(ShownEntries(base, rows, clock, distance))
  {
    var dto := Mappers.ToResourceCardDTO(base, clock);
    var eligible := EligibleRows(rows, base);
    var cards := ListResources.Cards(eligible, clock);
    var e :| 0 <= e < |eligible| && eligible[e] == x;
    assert cards[e] == Mappers.ToResourceCardDTO(x, clock);
    NearestCardShown(dto, cards, distance, cards[e], k);
  }

  /** Of the ranked cards, none nearer than a shown one is left out. */
  lemma NearestCardShown(dto: CardDTO, cards: seq<CardDTO>, distance: ListResources.Distance, c: CardDTO, k: nat)
    requires c in cards
    requires var alts := Items(Take(SortByDistance(Rank(dto, cards, distance)), AlternativesShown));
      k < |alts| && DistanceFrom(dto, c, distance) < DistanceFrom(dto, alts[k], distance)
    ensures c in Items(Take(SortByDistance(Rank(dto, cards, distance)), AlternativesShown))
  {
    var ranked := Rank(dto, cards, distance);
    var shown := Take(SortByDistance(ranked), AlternativesShown);
    NearestFirst(ranked, AlternativesShown);
    assert shown[k] in shown;
    NearerCardShown(dto, cards, distance, ranked, shown, c, k);
  }

  /** A card nearer than a shown entry is itself shown (the step above, for one card). */
  lemma NearerCardShown(dto: CardDTO, cards: seq<CardDTO>, distance: ListResources.Distance,
                        ranked: seq<(CardDTO, real)>, shown: seq<(CardDTO, real)>, c: CardDTO, k: nat)
    requires ranked == Rank(dto, cards, distance)
    requires forall y, j | y in ranked && 0 <= j < |shown| && y.1 < shown[j].1 :: y in shown
    requires c in cards && k < |shown| && shown[k].1 == DistanceFrom(dto, shown[k].0, distance)
    requires DistanceFrom(dto, c, distance) < shown[k].1
    ensures c in Items(shown)
  {
    var e :| 0 <= e < |cards| && cards[e] == c;
    assert ranked[e] == (c, DistanceFrom(dto, c, distance));
    assert ranked[e] in shown;
    var p :| 0 <= p < |shown| && shown[p] == ranked[e];
    assert Items(shown)[p] == c;
  }

  /**
   * Without usable coordinates on the resource itself every distance is
   * `MAX_SAFE_INTEGER`, and the stable sort leaves the first three eligible
   * rows in their original order.
   */
  lemma NoCoordinatesKeepsOrder(base: Resource, rows: seq<Resource>, clock: Clock, distance: ListResources.Distance)
    requires !NonZero(base.latitude) || !NonZero(base.longitude)
    ensures var cards := ListResources.Cards(EligibleRows(rows, base), clock);
      Alternatives(base, rows, clock, distance) == Take(cards, AlternativesShown)
  {
    var dto := Mappers.ToResourceCardDTO(base, clock);
    var cards := ListResources.Cards(EligibleRows(rows, base), clock);
    var ranked := Rank(dto, cards, distance);
    EqualDistancesKeepOrder(ranked, MaxSafeInteger);
    assert Items(Take(ranked, AlternativesShown)) == Take(cards, AlternativesShown);
  }

  datatype Detail = Detail(resource: Option<CardDTO>, alternatives: seq<CardDTO>)

  /**
   * A resource's detail: nothing for an unknown id (or a store error); else
   * its card, and the alternatives among the first 100 rows of its city and
   * state. A failing neighbourhood query propagates.
   */
  function GetResourceDetailWithAlternatives(id: string, w: ListResources.World,
                                             fetchRow: string -> Option<Resource>): (r: Result<Detail, string>)
    ensures fetchRow(id).None? ==> r == Success(Detail(None, []))
    ensures fetchRow(id).Some? ==>
      var resource := Repository.FetchResourceById(id, fetchRow, w.lookup).value;
      match Repository.FetchLocalResources(NeighbourFilters(resource), w.store, w.lookup)
      case Failure(e) => r == Failure(e)
      case Success(local) => r == Success(Detail(
        Some(Mappers.ToResourceCardDTO(resource, w.clock)),
        Alternatives(resource, local.data, w.clock, w.distance)))
    ensures r.Success? && r.value.resource.None? ==> r.value.alternatives == []
    ensures r.Success? ==> |r.value.alternatives| <= AlternativesShown
    ensures r.Success? && r.value.resource.Some? ==>
      forall a | a in r.value.alternatives :: a.id != r.value.resource.value.id
  {
    match Repository.FetchResourceById(id, fetchRow, w.lookup)
    case None => Success(Detail(None, []))
    case Some(resource) =>
      match Repository.FetchLocalResources(NeighbourFilters(resource), w.store, w.lookup)
      case Failure(e) => Failure(e)
      case Success(local) =>
        Success(Detail(Some(Mappers.ToResourceCardDTO(resource, w.clock)), Alternatives(resource, local.data, w.clock, w.distance)))
  }
}

=== FILE: schemas.dfy ===
/**
 * The query-string rules of the resources endpoint: how the raw parameters
 * are read (comma lists, `true`/`false`, numbers) and which values the
 * schema accepts, with its defaults; and the body of a cache-invalidation
 * request.
 */
module Schemas {
  import opened Wrappers
  import opened Text
  import opened Types

  /** `URLSearchParams.get`: the value of the first pair with that name. */
  function Get(params: seq<(string, string)>, name: string): (v: Option<string>)
    ensures v.None? <==> forall i | 0 <= i < |params| :: params[i].0 != name
    ensures v.Some? ==> exists i | 0 <= i < |params| :: params[i] == (name, v.value)
    ensures v.Some? ==>
      exists i | 0 <= i < |params| :: params[i] == (name, v.value) && forall j | 0 <= j < i :: params[j].0 != name
  {
    if |params| == 0 then None
    else if params[0].0 == name then Some(params[0].1)
    else
      var v := Get(params[1..], name);
      assert forall i | 1 <= i < |params| :: params[i] == params[1..][i - 1];
      v
  }

  predicate IsComma(c: char) {
    c == ','
  }

  /**
   * `parseCsv`: nothing for a null or empty value; otherwise the trimmed,
   * non-empty comma-separated items, or nothing when there are none. Every
   * item is a comma-free factor of the value.
   */
  function ParseCsv(value: Option<string>): (r: Option<seq<string>>)
    ensures !Truthy(value) ==> r.None?
    ensures r.Some? ==> |r.value| > 0
    ensures r.Some? ==> forall x | x in r.value :: x != "" && IsTrimmed(x) && ',' !in x && Contains(value.value, x)
  {
    if !Truthy(value) then None
    else
      var list := TrimNonEmpty(SplitOn(value.value, IsComma));
      CsvItems(value.value);
      if |list| > 0 then Some(list) else None
  }

  lemma CsvItems(s: string)
    ensures forall x | x in TrimNonEmpty(SplitOn(s, IsComma)) :: ',' !in x && Contains(s, x)
  {
    var parts := SplitOn(s, IsComma);
    forall x | x in TrimNonEmpty(parts) ensures ',' !in x && Contains(s, x) {
      TrimNonEmptyFrom(parts, x);
      var p :| p in parts && Contains(p, x);
      ContainsChars(p, x);
      ContainsTransitive(s, p, x);
    }
  }

  /**
   * Round trip: a non-empty list of trimmed, non-empty, comma-free items,
   * joined with commas, parses back to the same list.
   */
  lemma CsvRoundTrip(items: seq<string>)
    requires |items| > 0
    requires forall x | x in items :: x != "" && IsTrimmed(x) && ',' !in x
    ensures ParseCsv(Some(Join(items, ","))) == Some(items)
  {
    var v := Join(items, ",");
    JoinStartsWithFirst(items, ",");
    assert items[0] in items;
    assert v != "";
    forall x, c | x in items && c in x ensures !IsComma(c) {
      assert ',' !in x;
    }
    SplitJoin(items, ',', IsComma);
    CleanItemsKept(items);
  }

  /** `boolFromQuery`: exactly `true` and `false` are booleans; anything else is absent. */
  function BoolFromQuery(value: Option<string>): (r: Option<bool>)
    ensures r == Some(true) <==> value == Some("true")
    ensures r == Some(false) <==> value == Some("false")
  {
    if value == Some("true") then Some(true)
    else if value == Some("false") then Some(false)
    else None
  }

  /** The text `String(b)` renders a boolean as, which `boolFromQuery` reads back. */
  lemma BoolRoundTrip(b: bool)
    ensures BoolFromQuery(Some(if b then "true" else "false")) == Some(b)
  {
    if !b {
      assert "false" != "true";
    }
  }

  /**
   * `numberFromQuery`: nothing for a null or empty value; otherwise what
   * `Number()` makes of it when finite. The parse itself is a parameter.
   */
  function NumberFromQuery(value: Option<string>, parseNumber: string -> Option<real>): (r: Option<real>)
    ensures !Truthy(value) ==> r.None?
    ensures Truthy(value) ==> r == parseNumber(value.value)
  {
    if !Truthy(value) then None else parseNumber(value.value)
  }

  /** The category enumeration: a name parses to the category of that name, anything else fails. */
  function ParseCategory(s: string): (c: Option<Category>)
    ensures c.Some? ==> c.value.Name() == s
    ensures c.None? ==> forall k: Category :: k.Name() != s
  {
    if s == "food" then Some(Food)
    else if s == "housing" then Some(Housing)
    else if s == "health" then Some(Health)
    else if s == "legal" then Some(Legal)
    else if s == "employment" then Some(Employment)
    else if s == "education" then Some(Education)
    else None
  }

  lemma CategoryRoundTrip(k: Category)
    ensures ParseCategory(k.Name()) == Some(k)
  {
    var c := ParseCategory(k.Name());
    assert c.Some?;
    match k
    case Food =>
    case Housing =>
    case Health =>
    case Legal =>
    case Employment =>
    case Education =>
  }

  /** `z.array(categoryEnum).optional()`: every item must be a category name. */
  function CategoriesField(v: Option<seq<string>>): (r: Result<Option<seq<Category>>, string>)
    ensures v.None? ==> r == Success(None)
    ensures v.Some? ==> (r.Success? <==> forall i | 0 <= i < |v.value| :: ParseCategory(v.value[i]).Some?)
    ensures r.Success? && v.Some? ==>
      r.value.Some? && |r.value.value| == |v.value| && forall i | 0 <= i < |v.value| :: r.value.value[i].Name() == v.value[i]
    ensures r.Failure? ==> r.error == "categories"
  {
    if v.None? then Success(None)
    else
      var items := v.value;
      if forall i | 0 <= i < |items| :: ParseCategory(items[i]).Some? then
        Success(Some(seq(|items|, i requires 0 <= i < |items| => ParseCategory(items[i]).value)))
      else Failure("categories")
  }

  /** `z.string().trim().min(lo).max(hi).optional()`: the trimmed text, when its length is in range. */
  function TextField(field: string, v: Option<string>, lo: nat, hi: nat): (r: Result<Option<string>, string>)
    ensures v.None? ==> r == Success(None)
    ensures v.Some? ==> (r.Success? <==> lo <= |Trim(v.value)| <= hi)
    ensures r.Success? && v.Some? ==> r.value == Some(Trim(v.value))
    ensures r.Failure? ==> r.error == field
  {
    if v.None? then Success(None)
    else
      var t := Trim(v.value);
      if lo <= |t| <= hi then Success(Some(t)) else Failure(field)
  }

  /** `z.string().trim().regex(/^\d{5}$/).optional()`: exactly five ASCII digits once trimmed. */
  function ZipField(v: Option<string>): (r: Result<Option<string>, string>)
    ensures v.None? ==> r == Success(None)
    ensures v.Some? ==> (r.Success? <==> |Trim(v.value)| == 5 && AllDigits(Trim(v.value)))
    ensures r.Success? && v.Some? ==> r.value == Some(Trim(v.value))
    ensures r.Failure? ==> r.error == "zip"
  {
    if v.None? then Success(None)
    else
      var t := Trim(v.value);
      if |t| == 5 && AllDigits(t) then Success(Some(t)) else Failure("zip")
  }

  const MaxEligibilityItems := 20
  const MaxEligibilityLength := 64

  /** One eligibility entry the schema accepts: 1 to 64 characters once trimmed. */
  predicate EligibilityItemOk(item: string) {
    1 <= |Trim(item)| <= MaxEligibilityLength
  }

  /** `z.array(z.string().trim().min(1).max(64)).max(20).optional()`. */
  function EligibilityField(v: Option<seq<string>>): (r: Result<Option<seq<string>>, string>)
    ensures v.None? ==> r == Success(None)
    ensures v.Some? ==>
      (r.Success? <==> (|v.value| <= MaxEligibilityItems
         && forall i | 0 <= i < |v.value| :: EligibilityItemOk(v.value[i])))
    ensures r.Success? && v.Some? ==>
      r.value.Some? && |r.value.value| == |v.value| && forall i | 0 <= i < |v.value| :: r.value.value[i] == Trim(v.value[i])
    ensures r.Failure? ==> r.error == "eligibility"
  {
    if v.None? then Success(None)
    else
      var items := v.value;
      if |items| <= MaxEligibilityItems && forall i | 0 <= i < |items| :: EligibilityItemOk(items[i]) then
        Success(Some(TrimAll(items)))
      else Failure("eligibility")
  }

  /** `z.number().min(lo).max(hi).optional()`. */
  function RangeField(field: string, v: Option<real>, lo: real, hi: real): (r: Result<Option<real>, string>)
    ensures r.Success? <==> v.None? || lo <= v.value <= hi
    ensures r.Success? ==> r.value == v
    ensures r.Failure? ==> r.error == field
  {
    if v.None? || lo <= v.value <= hi then Success(v) else Failure(field)
  }

  predicate IsInteger(x: real) {
    x.Floor as real == x
  }

  const DefaultLimit := 20
  const MaxLimit := 100

  /** `z.number().int().min(1).max(100).default(20)`. */
  function LimitField(v: Option<real>): (r: Result<int, string>)
    ensures v.None? ==> r == Success(DefaultLimit)
    ensures v.Some? ==> (r.Success? <==> IsInteger(v.value) && 1.0 <= v.value <= MaxLimit as real)
    ensures r.Success? && v.Some? ==> r.value as real == v.value
    ensures r.Success? ==> 1 <= r.value <= MaxLimit
    ensures r.Failure? ==> r.error == "limit"
  {
    if v.None? then Success(DefaultLimit)
    else if IsInteger(v.value) && 1.0 <= v.value <= MaxLimit as real then Success(v.value.Floor)
    else Failure("limit")
  }

  /** `z.number().int().min(0).default(0)`. */
  function OffsetField(v: Option<real>): (r: Result<int, string>)
    ensures v.None? ==> r == Success(0)
    ensures v.Some? ==> (r.Success? <==> IsInteger(v.value) && 0.0 <= v.value)
    ensures r.Success? && v.Some? ==> r.value as real == v.value
    ensures r.Success? ==> r.value >= 0
    ensures r.Failure? ==> r.error == "offset"
  {
    if v.None? then Success(0)
    else if IsInteger(v.value) && 0.0 <= v.value then Success(v.value.Floor)
    else Failure("offset")
  }

  function Fails<T>(r: Result<T, string>): seq<string> {
    if r.Failure? then [r.error] else []
  }

  /** The raw values `parseResourceQuery` builds from the query string, before the schema. */
  datatype RawQuery = RawQuery(
    categories: Option<seq<string>>,
    search: Option<string>,
    city: Option<string>,
    state: Option<string>,
    zip: Option<string>,
    eligibility: Option<seq<string>>,
    verified: Option<bool>,
    openNow: Option<bool>,
    verifiedRecently: Option<bool>,
    nearLat: Option<real>,
    nearLng: Option<real>,
    nearRadiusMiles: Option<real>,
    source: Option<string>,
    limit: Option<real>,
    offset: Option<real>)

  function ReadQuery(params: seq<(string, string)>, parseNumber: string -> Option<real>): RawQuery {
    RawQuery(
      categories := ParseCsv(Get(params, "categories")),
      search := Get(params, "search"),
      city := Get(params, "city"),
      state := Get(params, "state"),
      zip := Get(params, "zip"),
      eligibility := ParseCsv(Get(params, "eligibility")),
      verified := BoolFromQuery(Get(params, "verified")),
      openNow := BoolFromQuery(Get(params, "open_now")),
      verifiedRecently := BoolFromQuery(Get(params, "verified_recently")),
      nearLat := NumberFromQuery(Get(params, "near_lat"), parseNumber),
      nearLng := NumberFromQuery(Get(params, "near_lng"), parseNumber),
      nearRadiusMiles := NumberFromQuery(Get(params, "near_radius_miles"), parseNumber),
      source := Get(params, "source"),
      limit := NumberFromQuery(Get(params, "limit"), parseNumber),
      offset := NumberFromQuery(Get(params, "offset"), parseNumber))
  }

  /** Every field rule of the schema holds of the raw values. */
  predicate Acceptable(q: RawQuery) {
    && CategoriesField(q.categories).Success?
    && TextField("search", q.search, 1, 120).Success?
    && TextField("city", q.city, 1, 100).Success?
    && TextField("state", q.state, 2, 2).Success?
    && ZipField(q.zip).Success?
    && EligibilityField(q.eligibility).Success?
    && RangeField("nearLat", q.nearLat, -90.0, 90.0).Success?
    && RangeField("nearLng", q.nearLng, -180.0, 180.0).Success?
    && RangeField("nearRadiusMiles", q.nearRadiusMiles, 0.1, 50.0).Success?
    && TextField("source", q.source, 1, 40).Success?
    && LimitField(q.limit).Success?
    && OffsetField(q.offset).Success?
  }

  /** A present text, trimmed. */
  function TrimmedOpt(v: Option<string>): (r: Option<string>)
    ensures r.Some? <==> v.Some?
    ensures v.Some? ==> r.value == Trim(v.value)
  {
    if v.Some? then Some(Trim(v.value)) else None
  }

  /**
   * Accepted filters carry the raw values: texts trimmed, categories named by
   * the raw items in order, eligibility items trimmed in order, and the flags
   * and coordinates as given.
   */
  predicate CarriesInput(q: RawQuery, f: Filters) {
    && f.search == TrimmedOpt(q.search) && f.city == TrimmedOpt(q.city)
    && f.state == TrimmedOpt(q.state) && f.zip == TrimmedOpt(q.zip) && f.source == TrimmedOpt(q.source)
    && f.categories.Some? == q.categories.Some?
    && (f.categories.Some? ==>
          |f.categories.value| == |q.categories.value|
          && forall i | 0 <= i < |q.categories.value| :: f.categories.value[i].Name() == q.categories.value[i])
    && f.eligibility.Some? == q.eligibility.Some?
    && (f.eligibility.Some? ==>
          |f.eligibility.value| == |q.eligibility.value|
          && forall i | 0 <= i < |q.eligibility.value| :: f.eligibility.value[i] == Trim(q.eligibility.value[i]))
    && f.verified == q.verified && f.openNow == q.openNow && f.verifiedRecently == q.verifiedRecently
    && f.nearLat == q.nearLat && f.nearLng == q.nearLng && f.nearRadiusMiles == q.nearRadiusMiles
  }

  /**
   * `resourceQuerySchema.parse`: the names of the failing fields, in schema
   * order, when any rule fails; otherwise the filters with trimmed texts and
   * the limit and offset defaults.
   */
  function ValidateQuery(q: RawQuery): (r: Result<Filters, seq<string>>)
    ensures r.Success? <==> Acceptable(q)
    ensures r.Success? ==> CarriesInput(q, r.value)
    ensures r.Failure? ==> r.error != []
  {
    var categories := CategoriesField(q.categories);
    var search := TextField("search", q.search, 1, 120);
    var city := TextField("city", q.city, 1, 100);
    var state := TextField("state", q.state, 2, 2);
    var zip := ZipField(q.zip);
    var eligibility := EligibilityField(q.eligibility);
    var nearLat := RangeField("nearLat", q.nearLat, -90.0, 90.0);
    var nearLng := RangeField("nearLng", q.nearLng, -180.0, 180.0);
    var nearRadiusMiles := RangeField("nearRadiusMiles", q.nearRadiusMiles, 0.1, 50.0);
    var source := TextField("source", q.source, 1, 40);
    var limit := LimitField(q.limit);
    var offset := OffsetField(q.offset);
    var errors := Fails(categories) + Fails(search) + Fails(city) + Fails(state) + Fails(zip)
      + Fails(eligibility) + Fails(nearLat) + Fails(nearLng) + Fails(nearRadiusMiles)
      + Fails(source) + Fails(limit) + Fails(offset);
    if errors != [] then Failure(errors)
    else
      Success(Filters(
        categories := categories.value, search := search.value, city := city.value,
        state := state.value, zip := zip.value, eligibility := eligibility.value,
        verified := q.verified, openNow := q.openNow, verifiedRecently := q.verifiedRecently,
        nearLat := nearLat.value, nearLng := nearLng.value, nearRadiusMiles := nearRadiusMiles.value,
        source := source.value, limit := limit.value, offset := offset.value))
  }

  /** Accepted limits and offsets are in range, and take their defaults when absent. */
  lemma ValidatedPaging(q: RawQuery)
    requires Acceptable(q)
    ensures var f := ValidateQuery(q).value;
      && 1 <= f.limit <= MaxLimit && f.offset >= 0
      && (q.limit.None? ==> f.limit == DefaultLimit)
      && (q.offset.None? ==> f.offset == 0)
      && (q.limit.Some? ==> f.limit as real == q.limit.value)
      && (q.offset.Some? ==> f.offset as real == q.offset.value)
  {
  }

  /** Accepted texts are trimmed and within their lengths; a zip is five digits. */
  lemma ValidatedTexts(q: RawQuery)
    requires Acceptable(q)
    ensures var f := ValidateQuery(q).value;
      && (f.search.Some? ==> 1 <= |f.search.value| <= 120 && IsTrimmed(f.search.value))
      && (f.city.Some? ==> 1 <= |f.city.value| <= 100 && IsTrimmed(f.city.value))
      && (f.state.Some? ==> |f.state.value| == 2 && IsTrimmed(f.state.value))
      && (f.zip.Some? ==> |f.zip.value| == 5 && AllDigits(f.zip.value))
      && (f.source.Some? ==> 1 <= |f.source.value| <= 40 && IsTrimmed(f.source.value))
      && f.search.Some? == q.search.Some? && f.city.Some? == q.city.Some?
      && f.state.Some? == q.state.Some? && f.zip.Some? == q.zip.Some?
      && (q.search.Some? ==> f.search.value == Trim(q.search.value))
      && (q.city.Some? ==> f.city.value == Trim(q.city.value))
      && (q.state.Some? ==> f.state.value == Trim(q.state.value))
      && (q.zip.Some? ==> f.zip.value == Trim(q.zip.value))
      && (q.source.Some? ==> f.source == Some(Trim(q.source.value)))
  {
  }

  /** Accepted lists keep their length, within the bounds; flags and coordinates pass through. */
  lemma ValidatedRest(q: RawQuery)
    requires Acceptable(q)
    ensures var f := ValidateQuery(q).value;
      && (f.eligibility.Some? ==>
            (|f.eligibility.value| <= MaxEligibilityItems
             && forall x | x in f.eligibility.value :: 1 <= |x| <= MaxEligibilityLength))
      && f.categories.Some? == q.categories.Some? && f.eligibility.Some? == q.eligibility.Some?
      && (f.categories.Some? ==> |f.categories.value| == |q.categories.value|)
      && (f.categories.Some? ==>
            forall i | 0 <= i < |q.categories.value| :: f.categories.value[i].Name() == q.categories.value[i])
      && (f.eligibility.Some? ==>
            |f.eligibility.value| == |q.eligibility.value|
            && forall i | 0 <= i < |q.eligibility.value| :: f.eligibility.value[i] == Trim(q.eligibility.value[i]))
      && f.verified == q.verified && f.openNow == q.openNow && f.verifiedRecently == q.verifiedRecently
      && f.nearLat == q.nearLat && f.nearLng == q.nearLng && f.nearRadiusMiles == q.nearRadiusMiles
      && (f.nearLat.Some? ==> -90.0 <= f.nearLat.value <= 90.0)
      && (f.nearLng.Some? ==> -180.0 <= f.nearLng.value <= 180.0)
      && (f.nearRadiusMiles.Some? ==> 0.1 <= f.nearRadiusMiles.value <= 50.0)
  {
  }

  /** `parseResourceQuery`: read the raw values from the query string, then validate them. */
  function ParseResourceQuery(params: seq<(string, string)>, parseNumber: string -> Option<real>): (r: Result<Filters, seq<string>>)
    ensures r.Success? <==> Acceptable(ReadQuery(params, parseNumber))
    ensures r.Success? ==>
      && r.value.verified == BoolFromQuery(Get(params, "verified"))
      && r.value.openNow == BoolFromQuery(Get(params, "open_now"))
      && r.value.verifiedRecently == BoolFromQuery(Get(params, "verified_recently"))
      && (!Truthy(Get(params, "limit")) ==> r.value.limit == DefaultLimit)
      && (!Truthy(Get(params, "offset")) ==> r.value.offset == 0)
    ensures r.Success? ==> CarriesInput(ReadQuery(params, parseNumber), r.value)
    ensures r.Success? ==>
      && r.value.search == TrimmedOpt(Get(params, "search")) && r.value.city == TrimmedOpt(Get(params, "city"))
      && r.value.state == TrimmedOpt(Get(params, "state")) && r.value.zip == TrimmedOpt(Get(params, "zip"))
      && r.value.categories.Some? == ParseCsv(Get(params, "categories")).Some?
      && (r.value.categories.Some? ==>
            forall i | 0 <= i < |r.value.categories.value| ::
              r.value.categories.value[i].Name() == ParseCsv(Get(params, "categories")).value[i])
  {
    ValidateQuery(ReadQuery(params, parseNumber))
  }

  /** A present but blank text parameter (`?search=`) makes the whole query fail rather than being ignored. */
  lemma BlankSearchRejected(params: seq<(string, string)>, parseNumber: string -> Option<real>)
    requires Get(params, "search").Some? && Trim(Get(params, "search").value) == ""
    ensures ParseResourceQuery(params, parseNumber).Failure?
  {
  }

  /**
   * The comma list of the valid-query example, `food,housing`, reads as the
   * two names.
   */
  lemma ExampleCsv()
    ensures ParseCsv(Some("food,housing")) == Some(["food", "housing"])
  {
    assert IsTrimmed("food") && IsTrimmed("housing");
    assert Join(["food", "housing"], ",") == "food,housing";
    CsvRoundTrip(["food", "housing"]);
  }

  /** The raw values the valid-query example reads as (`limit=20`, `offset=0` through `Number()`). */
  const ExampleQuery := RawQuery(
    Some(["food", "housing"]), None, None, None, Some("92614"), None, Some(true), Some(true), None,
    None, None, None, None, Some(20.0), Some(0.0))

  lemma ExampleFields()
    ensures CategoriesField(Some(["food", "housing"])) == Success(Some([Food, Housing]))
    ensures ZipField(Some("92614")) == Success(Some("92614"))
  {
    var cats := CategoriesField(Some(["food", "housing"]));
    assert ParseCategory("food") == Some(Food) && ParseCategory("housing") == Some(Housing);
    assert cats.value.value == [Food, Housing];
    assert IsTrimmed("92614");
    TrimTrimmed("92614");
    assert AllDigits("92614") by {
      forall i | 0 <= i < 5 ensures IsDigit("92614"[i]) {
      }
    }
  }

  /**
   * The valid-query example: two categories, a zip, two flags, a limit and
   * an offset parse to those values.
   */
  lemma ValidQueryExample()
    ensures var r := ValidateQuery(ExampleQuery);
      && r.Success?
      && r.value.categories == Some([Food, Housing])
      && r.value.zip == Some("92614")
      && r.value.verified == Some(true) && r.value.openNow == Some(true)
      && r.value.limit == 20 && r.value.offset == 0
  {
    ExampleFields();
    assert IsInteger(20.0) && IsInteger(0.0);
  }

  /** The malformed-zip example: five letters are not a zip. */
  lemma MalformedZipRejected(parseNumber: string -> Option<real>)
    ensures ParseResourceQuery([("zip", "abcde")], parseNumber).Failure?
  {
    var params := [("zip", "abcde")];
    assert Get(params, "zip") == Some("abcde");
    TrimTrimmed("abcde");
    assert !IsDigit("abcde"[0]);
    assert ZipField(Some("abcde")).Failure?;
    assert ReadQuery(params, parseNumber).zip == Some("abcde");
  }

  /** The caches an invalidation request may name. */
  datatype CacheKind = ResourcesCache | SourceStatusCache | SyncStatusCache | ExternalServicesCache {
    function Name(): string {
      match this
      case ResourcesCache => "resources"
      case SourceStatusCache => "source_status"
      case SyncStatusCache => "sync_status"
      case ExternalServicesCache => "external_services"
    }
  }

  function ParseCacheKind(s: string): (k: Option<CacheKind>)
    ensures k.Some? ==> k.value.Name() == s
    ensures k.None? ==> forall c: CacheKind :: c.Name() != s
  {
    if s == "resources" then Some(ResourcesCache)
    else if s == "source_status" then Some(SourceStatusCache)
    else if s == "sync_status" then Some(SyncStatusCache)
    else if s == "external_services" then Some(ExternalServicesCache)
    else None
  }

  /**
   * A member of a JSON request body as schema validation sees it: missing
   * (`undefined`), `null`, a string, or any other JSON value.
   */
  datatype JsonMember = Missing | Null | Str(text: string) | NonString

  /** A cache-invalidation request body: its `action` and `key` members. */
  datatype InvalidateBody = InvalidateBody(action: JsonMember, key: JsonMember)

  /**
   * `invalidateCacheSchema`: the action must be the string `invalidate`; the
   * key must be the string name of one of the four caches, and is `resources`
   * only when the member is missing (`.default()` does not apply to `null`).
   */
  function ParseInvalidate(b: InvalidateBody): (r: Result<CacheKind, string>)
    ensures r.Success? <==>
      b.action == Str("invalidate") && (b.key.Missing? || (b.key.Str? && ParseCacheKind(b.key.text).Some?))
    ensures r.Success? && b.key.Missing? ==> r.value == ResourcesCache
    ensures r.Success? && b.key.Str? ==> r.value.Name() == b.key.text
    ensures b.key.Null? || b.key.NonString? ==> r.Failure?
  {
    if b.action != Str("invalidate") then Failure("action")
    else match b.key
      case Missing => Success(ResourcesCache)
      case Str(name) =>
        (match ParseCacheKind(name)
         case None => Failure("key")
         case Some(k) => Success(k))
      case _ => Failure("key")
  }

  /** Every cache kind named in a request is the one parsed. */
  lemma InvalidateRoundTrip(k: CacheKind)
    ensures ParseInvalidate(InvalidateBody(Str("invalidate"), Str(k.Name()))) == Success(k)
  {
    var p := ParseCacheKind(k.Name());
    assert p.Some?;
    match k
    case ResourcesCache =>
    case SourceStatusCache =>
    case SyncStatusCache =>
    case ExternalServicesCache =>
  }
}

=== FILE: searchfilters.dfy ===
/**
 * The search form's filter state and the test that decides whether any
 * filter is set.
 */
module SearchFilters {
  import opened Wrappers
  import opened Text
  import opened Types

  datatype SearchFilters = SearchFilters(
    search: string,
    city: string,
    state: string,
    zip: string,
    categories: seq<Category>,
    eligibility: seq<string>,
    verified: Option<bool>)

  /** The form's initial state: every text empty, no list item, no verified choice. */
  const DefaultSearchFilters := SearchFilters("", "", "", "", [], [], None)

  /** Whitespace only, or nothing: a text field that filters nothing. */
  predicate Blank(s: string) {
    forall i | 0 <= i < |s| :: IsSpace(s[i])
  }

  /** A string trims to nothing exactly when it is all whitespace. */
  lemma TrimEmptyIffBlank(s: string)
    ensures Trim(s) == "" <==> Blank(s)
  {
    if Trim(s) == "" {
      BlankWhenTrimsEmpty(s);
    } else {
      var t := Trim(s);
      var i :| 0 <= i <= |s| && IsPrefix(t, s[i..]);
      assert s[i] == t[0];
      assert !IsSpace(s[i]);
    }
  }

  lemma BlankWhenTrimsEmpty(s: string)
    requires Trim(s) == ""
    ensures Blank(s)
  {
    var t := TrimStart(s);
    if t != "" {
      assert TrimEnd(t) == "";
      LastKept(t);
    }
    AllSpaceBeforeRest(s);
  }

  /** `TrimEnd` of a string that does not start with whitespace is not empty. */
  lemma LastKept(t: string)
    requires t != "" && !IsSpace(t[0])
    ensures TrimEnd(t) != ""
    decreases |t|
  {
    if IsSpace(t[|t| - 1]) {
      LastKept(t[..|t| - 1]);
    }
  }

  /** What `TrimStart` drops is whitespace. */
  lemma {:induction false} AllSpaceBeforeRest(s: string)
    ensures forall i | 0 <= i < |s| - |TrimStart(s)| :: IsSpace(s[i])
    decreases |s|
  {
    if |s| > 0 && IsSpace(s[0]) {
      AllSpaceBeforeRest(s[1..]);
      assert forall i | 1 <= i < |s| :: s[i] == s[1..][i - 1];
    }
  }

  /**
   * `hasActiveFilters`: some text field has a non-whitespace character, some
   * category or eligibility item is chosen, or the verified choice is made
   * (either way).
   */
  function HasActiveFilters(f: SearchFilters): (active: bool)
    ensures active <==>
      || !Blank(f.search) || !Blank(f.city) || !Blank(f.state) || !Blank(f.zip)
      || |f.categories| > 0 || |f.eligibility| > 0 || f.verified.Some?
  {
    TrimEmptyIffBlank(f.search);
    TrimEmptyIffBlank(f.city);
    TrimEmptyIffBlank(f.state);
    TrimEmptyIffBlank(f.zip);
    || Trim(f.search) != "" || Trim(f.city) != "" || Trim(f.state) != "" || Trim(f.zip) != ""
    || |f.categories| > 0 || |f.eligibility| > 0 || f.verified.Some?
  }

  /** The initial state has no active filter, and neither has one whose texts are only whitespace. */
  lemma WhitespaceOnlyIsInactive(f: SearchFilters)
    requires Blank(f.search) && Blank(f.city) && Blank(f.state) && Blank(f.zip)
    requires f.categories == [] && f.eligibility == [] && f.verified.None?
    ensures !HasActiveFilters(f)
    ensures !HasActiveFilters(DefaultSearchFilters)
  {
  }

  /** Choosing "unverified" (`verified = false`) is an active filter. */
  lemma VerifiedFalseIsActive(f: SearchFilters)
    requires f.verified == Some(false)
    ensures HasActiveFilters(f)
  {
  }
}

=== FILE: text.dfy ===
/**
 * The JavaScript string operations the modelled code relies on: truthiness,
 * `includes`, `startsWith`/`endsWith`, ASCII case mapping, `trim`, `split` on
 * a set of delimiter characters, integer rendering and the character ordering
 * that stands in for `Array.prototype.sort()`.
 */
module Text {
  import opened Wrappers

  /** A nullable string in a boolean position: `null`, `undefined` and `""` are false. */
  predicate Truthy(s: Option<string>) {
    s.Some? && s.value != ""
  }

  /** `s || null`: an empty string collapses to null. */
  function OrNull(s: Option<string>): (r: Option<string>)
    ensures Truthy(s) ==> r == s
    ensures !Truthy(s) ==> r.None?
  {
    if Truthy(s) then s else None
  }

  predicate IsPrefix(p: string, s: string) {
    |p| <= |s| && s[..|p|] == p
  }

  predicate IsSuffix(p: string, s: string) {
    |p| <= |s| && s[|s| - |p|..] == p
  }

  /** `s.includes(sub)`. */
  predicate Contains(s: string, sub: string) {
    exists i | 0 <= i <= |s| :: IsPrefix(sub, s[i..])
  }

  lemma ContainsAt(s: string, sub: string, i: nat)
    requires i + |sub| <= |s| && s[i..i + |sub|] == sub
    ensures Contains(s, sub)
  {
    assert IsPrefix(sub, s[i..]);
  }

  /** `s.includes(sub)` holds in every string that has `s` as a factor. */
  lemma ContainsInFactor(a: string, s: string, b: string, sub: string)
    requires Contains(s, sub)
    ensures Contains(a + s + b, sub)
  {
    var i :| 0 <= i <= |s| && IsPrefix(sub, s[i..]);
    var t := a + s + b;
    assert t[|a| + i..|a| + i + |sub|] == s[i..i + |sub|];
    ContainsAt(t, sub, |a| + i);
  }

  predicate IsDigit(c: char) {
    '0' <= c <= '9'
  }

  predicate AllDigits(s: string) {
    forall i | 0 <= i < |s| :: IsDigit(s[i])
  }

  /** The characters of `s` matched by the regular expression `\d` (ASCII digits), in order. */
  function DigitsOf(s: string): (r: string)
    ensures AllDigits(r)
    ensures |r| <= |s|
  {
    if |s| == 0 then ""
    else if IsDigit(s[0]) then [s[0]] + DigitsOf(s[1..])
    else DigitsOf(s[1..])
  }

  function LowerChar(c: char): char {
    if 'A' <= c <= 'Z' then (c as int + 32) as char else c
  }

  function UpperChar(c: char): char {
    if 'a' <= c <= 'z' then (c as int - 32) as char else c
  }

  /** `toLowerCase()` on the ASCII letters. */
  function ToLower(s: string): string {
    seq(|s|, i requires 0 <= i < |s| => LowerChar(s[i]))
  }

  /** `toUpperCase()` on the ASCII letters. */
  function ToUpper(s: string): string {
    seq(|s|, i requires 0 <= i < |s| => UpperChar(s[i]))
  }

  /** The characters `String.prototype.trim` removes: WhiteSpace and LineTerminator of ECMA-262. */
  predicate IsSpace(c: char) {
    || c == ' ' || c == '\t' || c == '\n' || c == '\r'
    || c == '\U{000B}' || c == '\U{000C}' || c == '\U{00A0}' || c == '\U{FEFF}'
    || c == '\U{1680}' || ('\U{2000}' <= c <= '\U{200A}')
    || c == '\U{2028}' || c == '\U{2029}' || c == '\U{202F}' || c == '\U{205F}'
    || c == '\U{3000}'
  }

  /** Neither end of `s` is whitespace. */
  predicate IsTrimmed(s: string) {
    s == "" || (!IsSpace(s[0]) && !IsSpace(s[|s| - 1]))
  }

  function TrimStart(s: string): (r: string)
    ensures IsSuffix(r, s)
    ensures r == "" || !IsSpace(r[0])
  {
    if |s| > 0 && IsSpace(s[0]) then
      var r := TrimStart(s[1..]);
      assert s[1..][|s| - 1 - |r|..] == s[|s| - |r|..];
      r
    else s
  }

  function TrimEnd(s: string): (r: string)
    ensures IsPrefix(r, s)
    ensures r == "" || !IsSpace(r[|r| - 1])
  {
    if |s| > 0 && IsSpace(s[|s| - 1]) then
      var r := TrimEnd(s[..|s| - 1]);
      assert s[..|s| - 1][..|r|] == s[..|r|];
      r
    else s
  }

  /** `s.trim()`: a factor of `s` with no whitespace at either end. */
  function Trim(s: string): (r: string)
    ensures IsTrimmed(r)
    ensures |r| <= |s|
    ensures Contains(s, r)
  {
    var t := TrimStart(s);
    var r := TrimEnd(t);
    PrefixOfSuffix(s, t, r);
    r
  }

  /** A prefix of a suffix is a factor. */
  lemma PrefixOfSuffix(s: string, t: string, r: string)
    requires IsSuffix(t, s) && IsPrefix(r, t)
    ensures Contains(s, r)
  {
    assert s[|s| - |t|..][..|r|] == r;
    assert s[|s| - |t|..|s| - |t| + |r|] == r;
    ContainsAt(s, r, |s| - |t|);
  }

  /** A factor of a factor is a factor. */
  lemma ContainsTransitive(s: string, mid: string, sub: string)
    requires Contains(s, mid) && Contains(mid, sub)
    ensures Contains(s, sub)
  {
    var i :| 0 <= i <= |s| && IsPrefix(mid, s[i..]);
    var j :| 0 <= j <= |mid| && IsPrefix(sub, mid[j..]);
    assert s[i..][..|mid|] == mid;
    assert mid[j..][..|sub|] == sub;
    forall k | 0 <= k < |sub| ensures s[i + j + k] == sub[k] {
      assert sub[k] == mid[j..][k] == mid[j + k];
      assert mid[j + k] == s[i..][j + k] == s[i + j + k];
    }
    assert s[i + j..i + j + |sub|] == sub;
    ContainsAt(s, sub, i + j);
  }

  /** Every character of a factor occurs in the string. */
  lemma ContainsChars(s: string, sub: string)
    requires Contains(s, sub)
    ensures forall c | c in sub :: c in s
  {
    var i :| 0 <= i <= |s| && IsPrefix(sub, s[i..]);
    forall c | c in sub ensures c in s {
      var k :| 0 <= k < |sub| && sub[k] == c;
      assert s[i..][k] == c;
    }
  }

  /**
   * `s.split(/[D]/)` where `D` is the set of characters `isDelim` accepts: at
   * least one part, none containing a delimiter, each a factor of `s`, the
   * first a prefix of it.
   */
  function SplitOn(s: string, isDelim: char -> bool): (parts: seq<string>)
    ensures |parts| >= 1
    ensures forall p, c | p in parts && c in p :: !isDelim(c)
    ensures IsPrefix(parts[0], s)
    ensures forall p | p in parts :: Contains(s, p)
  {
    if |s| == 0 then
      assert IsPrefix("", s[0..]);
      [""]
    else
      var rest := SplitOn(s[1..], isDelim);
      assert s == [s[0]] + s[1..] + "";
      assert forall p | p in rest :: Contains(s, p) by {
        forall p | p in rest ensures Contains(s, p) {
          ContainsInFactor([s[0]], s[1..], "", p);
        }
      }
      if isDelim(s[0]) then
        assert IsPrefix("", s[0..]);
        [""] + rest
      else
        var head := [s[0]] + rest[0];
        assert s[..|head|] == head;
        assert IsPrefix(head, s[0..]);
        assert forall p | p in rest[1..] :: p in rest;
        [head] + rest[1..]
  }

  /** Splitting depends only on which characters are delimiters. */
  lemma {:induction false} SplitOnSameDelimiters(s: string, d1: char -> bool, d2: char -> bool)
    requires forall c :: d1(c) == d2(c)
    ensures SplitOn(s, d1) == SplitOn(s, d2)
  {
    if |s| > 0 {
      SplitOnSameDelimiters(s[1..], d1, d2);
    }
  }

  /** A string with no delimiter splits into itself. */
  lemma {:induction false} SplitOnNoDelimiter(s: string, isDelim: char -> bool)
    requires forall c | c in s :: !isDelim(c)
    ensures SplitOn(s, isDelim) == [s]
  {
    if |s| > 0 {
      assert forall c | c in s[1..] :: c in s;
      SplitOnNoDelimiter(s[1..], isDelim);
      assert [s[0]] + s[1..] == s;
    }
  }

  /** A delimiter after a delimiter-free prefix ends the first part. */
  lemma {:induction false} SplitOnDelimited(a: string, d: char, b: string, isDelim: char -> bool)
    requires forall c | c in a :: !isDelim(c)
    requires isDelim(d)
    ensures SplitOn(a + [d] + b, isDelim) == [a] + SplitOn(b, isDelim)
    decreases |a|
  {
    var s := a + [d] + b;
    if |a| == 0 {
      assert s == [d] + b;
      assert s[1..] == b;
    } else {
      assert s[1..] == a[1..] + [d] + b;
      assert forall c | c in a[1..] :: c in a;
      SplitOnDelimited(a[1..], d, b, isDelim);
      assert [a[0]] + a[1..] == a;
    }
  }

  /** Joining delimiter-free items with a delimiter and splitting again gives the items back. */
  lemma {:induction false} SplitJoin(items: seq<string>, d: char, isDelim: char -> bool)
    requires |items| > 0 && isDelim(d)
    requires forall x, c | x in items && c in x :: !isDelim(c)
    ensures SplitOn(Join(items, [d]), isDelim) == items
    decreases |items|
  {
    if |items| == 1 {
      SplitOnNoDelimiter(items[0], isDelim);
    } else {
      assert forall x | x in items[1..] :: x in items;
      SplitJoin(items[1..], d, isDelim);
      assert Join(items, [d]) == items[0] + [d] + Join(items[1..], [d]);
      SplitOnDelimited(items[0], d, Join(items[1..], [d]), isDelim);
      assert items == [items[0]] + items[1..];
    }
  }

  /** Trimming leaves an already trimmed string unchanged. */
  lemma TrimTrimmed(s: string)
    requires IsTrimmed(s)
    ensures Trim(s) == s
  {
  }

  /** `items.map(trim)`. */
  function TrimAll(items: seq<string>): (r: seq<string>)
    ensures |r| == |items|
    ensures forall i | 0 <= i < |items| :: r[i] == Trim(items[i])
  {
    seq(|items|, i requires 0 <= i < |items| => Trim(items[i]))
  }

  /** `items.filter(item => item.length > 0)`: the non-empty items, in order. */
  function NonEmpty(items: seq<string>): (r: seq<string>)
    ensures |r| <= |items|
    ensures forall x | x in r :: x in items && x != ""
  {
    if |items| == 0 then []
    else if items[0] == "" then NonEmpty(items[1..])
    else [items[0]] + NonEmpty(items[1..])
  }

  /** A list without empty items is kept whole. */
  lemma {:induction false} NonEmptyKeeps(items: seq<string>)
    requires forall i | 0 <= i < |items| :: items[i] != ""
    ensures NonEmpty(items) == items
    decreases |items|
  {
    if |items| > 0 {
      assert items[0] != "";
      NonEmptyKeeps(items[1..]);
    }
  }

  /** `items.map(trim).filter(item => item.length > 0)`. */
  function TrimNonEmpty(items: seq<string>): (r: seq<string>)
    ensures |r| <= |items|
    ensures forall x | x in r :: x != "" && IsTrimmed(x)
  {
    var trimmed := TrimAll(items);
    assert forall x | x in trimmed :: IsTrimmed(x);
    NonEmpty(trimmed)
  }

  /** Every item kept is a factor of one of the inputs. */
  lemma TrimNonEmptyFrom(items: seq<string>, x: string)
    requires x in TrimNonEmpty(items)
    ensures exists p | p in items :: Contains(p, x)
  {
    var trimmed := TrimAll(items);
    assert x in trimmed;
    var i :| 0 <= i < |trimmed| && trimmed[i] == x;
    assert items[i] in items && Contains(items[i], x);
  }

  /** Trimmed, non-empty items pass `map(trim).filter(...)` unchanged. */
  lemma TrimNonEmptyKeeps(items: seq<string>)
    requires forall i | 0 <= i < |items| :: items[i] != "" && IsTrimmed(items[i])
    ensures TrimNonEmpty(items) == items
  {
    forall i | 0 <= i < |items| ensures TrimAll(items)[i] == items[i] {
      TrimTrimmed(items[i]);
    }
    assert TrimAll(items) == items;
    NonEmptyKeeps(items);
  }

  /** A joined list starts with its first item. */
  lemma JoinStartsWithFirst(items: seq<string>, sep: string)
    requires |items| > 0
    ensures IsPrefix(items[0], Join(items, sep))
  {
    if |items| > 1 {
      assert Join(items, sep) == items[0] + (sep + Join(items[1..], sep));
    }
  }

  /** Items that are non-empty and trimmed pass trimming and filtering unchanged. */
  lemma CleanItemsKept(items: seq<string>)
    requires forall x | x in items :: x != "" && IsTrimmed(x)
    ensures TrimNonEmpty(items) == items
  {
    forall i | 0 <= i < |items| ensures items[i] != "" && IsTrimmed(items[i]) {
      assert items[i] in items;
    }
    TrimNonEmptyKeeps(items);
  }

  lemma TrimNonEmptySingle(s: string)
    requires s != "" && IsTrimmed(s)
    ensures TrimNonEmpty([s]) == [s]
  {
    TrimNonEmptyKeeps([s]);
  }

  /** `toLowerCase` commutes with concatenation. */
  lemma ToLowerConcat(a: string, b: string)
    ensures ToLower(a + b) == ToLower(a) + ToLower(b)
  {
  }

  /** The digits of a concatenation are the concatenation of the digits. */
  lemma {:induction false} DigitsOfConcat(a: string, b: string)
    ensures DigitsOf(a + b) == DigitsOf(a) + DigitsOf(b)
    decreases |a|
  {
    if |a| > 0 {
      assert (a + b)[1..] == a[1..] + b;
      DigitsOfConcat(a[1..], b);
    } else {
      assert a + b == b;
    }
  }

  /** A string of digits is its own digits. */
  lemma {:induction false} DigitsOfAllDigits(s: string)
    requires AllDigits(s)
    ensures DigitsOf(s) == s
    decreases |s|
  {
    if |s| > 0 {
      DigitsOfAllDigits(s[1..]);
      assert [s[0]] + s[1..] == s;
    }
  }

  function DigitChar(d: nat): char
    requires d < 10
  {
    ('0' as int + d) as char
  }

  /** `String(n)` for a non-negative integer. */
  function NatToString(n: nat): (r: string)
    ensures |r| >= 1 && AllDigits(r)
  {
    if n < 10 then [DigitChar(n)] else NatToString(n / 10) + [DigitChar(n % 10)]
  }

  /** `String(i)` for an integer. */
  function IntToString(i: int): (r: string)
    ensures |r| >= 1
  {
    if i < 0 then "-" + NatToString(-i) else NatToString(i)
  }

  /**
   * `name=value` pairs joined with `&`: the text `URLSearchParams.toString()`
   * produces when nothing needs percent-encoding.
   */
  function RenderQuery(pairs: seq<(string, string)>): (r: string)
    ensures |pairs| > 0 <==> |r| > 0
    ensures forall p | p in pairs :: Contains(r, p.0 + "=" + p.1)
  {
    if |pairs| == 0 then ""
    else
      var head := pairs[0].0 + "=" + pairs[0].1;
      assert Contains(head, head) by { ContainsAt(head, head, 0); }
      if |pairs| == 1 then head
      else
        var rest := RenderQuery(pairs[1..]);
        var r := head + "&" + rest;
        ContainsInFactor("", head, "&" + rest, head);
        assert "" + head + ("&" + rest) == r;
        forall p | p in pairs[1..] ensures Contains(r, p.0 + "=" + p.1) {
          ContainsInFactor(head + "&", rest, "", p.0 + "=" + p.1);
          assert head + "&" + rest + "" == r;
        }
        assert forall p | p in pairs :: p == pairs[0] || p in pairs[1..];
        r
  }

  /** Every pair is rendered somewhere in a query that follows a prefix. */
  lemma QueryAfterPrefixContains(prefix: string, pairs: seq<(string, string)>)
    ensures forall p | p in pairs :: Contains(prefix + RenderQuery(pairs), p.0 + "=" + p.1)
  {
    var r := RenderQuery(pairs);
    forall p | p in pairs ensures Contains(prefix + r, p.0 + "=" + p.1) {
      ContainsInFactor(prefix, r, "", p.0 + "=" + p.1);
      assert prefix + r + "" == prefix + r;
    }
  }

  /** One rendered `name=value` pair. */
  function RenderPair(p: (string, string)): string {
    p.0 + "=" + p.1
  }

  function RenderedPairs(pairs: seq<(string, string)>): (r: seq<string>)
    ensures |r| == |pairs|
    ensures forall i | 0 <= i < |pairs| :: r[i] == RenderPair(pairs[i])
  {
    seq(|pairs|, i requires 0 <= i < |pairs| => RenderPair(pairs[i]))
  }

  predicate IsAmpersand(c: char) {
    c == '&'
  }

  /** Text that needs no percent-encoding in a query: no `&` and no `=`. */
  predicate PlainText(s: string) {
    forall c | c in s :: c != '&' && c != '='
  }

  predicate PlainPair(p: (string, string)) {
    PlainText(p.0) && PlainText(p.1)
  }

  /** The rendered query is its rendered pairs joined with `&`. */
  lemma {:induction false} RenderQueryIsJoin(pairs: seq<(string, string)>)
    ensures RenderQuery(pairs) == Join(RenderedPairs(pairs), "&")
    decreases |pairs|
  {
    if |pairs| > 1 {
      RenderQueryIsJoin(pairs[1..]);
      assert RenderedPairs(pairs)[1..] == RenderedPairs(pairs[1..]);
    }
  }

  /** A plain pair is recovered from its text: the name ends at the first `=`. */
  lemma PairTextInjective(a: (string, string), b: (string, string))
    requires PlainPair(a) && PlainPair(b)
    requires RenderPair(a) == RenderPair(b)
    ensures a == b
  {
    var t := RenderPair(a);
    assert t == RenderPair(b);
    forall i | 0 <= i < |a.0| ensures t[i] != '=' {
      assert t[i] == a.0[i] && a.0[i] in a.0;
    }
    forall i | 0 <= i < |b.0| ensures t[i] != '=' {
      assert t[i] == b.0[i] && b.0[i] in b.0;
    }
    assert t[|a.0|] == '=' && t[|b.0|] == '=';
    assert |a.0| == |b.0|;
    assert a.0 == t[..|a.0|] == b.0;
    assert a.1 == t[|a.0| + 1..] == b.1;
  }

  /** A rendered plain pair holds no `&`. */
  lemma RenderedPlainHasNoAmpersand(pairs: seq<(string, string)>)
    requires forall p | p in pairs :: PlainPair(p)
    ensures forall x, c | x in RenderedPairs(pairs) && c in x :: !IsAmpersand(c)
  {
    var items := RenderedPairs(pairs);
    forall x, c | x in items && c in x ensures !IsAmpersand(c) {
      var i :| 0 <= i < |items| && items[i] == x;
      assert pairs[i] in pairs;
      assert x == pairs[i].0 + "=" + pairs[i].1;
      assert c in pairs[i].0 || c == '=' || c in pairs[i].1;
    }
  }

  /** Plain pairs are recovered from their rendered query: rendering is injective on them. */
  lemma RenderQueryInjective(a: seq<(string, string)>, b: seq<(string, string)>)
    requires forall p | p in a :: PlainPair(p)
    requires forall p | p in b :: PlainPair(p)
    requires RenderQuery(a) == RenderQuery(b)
    ensures a == b
  {
    if |a| > 0 && |b| > 0 {
      RenderQueryIsJoin(a);
      RenderQueryIsJoin(b);
      RenderedPlainHasNoAmpersand(a);
      RenderedPlainHasNoAmpersand(b);
      SplitJoin(RenderedPairs(a), '&', IsAmpersand);
      SplitJoin(RenderedPairs(b), '&', IsAmpersand);
      assert RenderedPairs(a) == RenderedPairs(b);
      forall i | 0 <= i < |a| ensures a[i] == b[i] {
        assert a[i] in a && b[i] in b;
        PairTextInjective(a[i], b[i]);
      }
    }
  }

  /** `a.join(sep)`. */
  function Join(items: seq<string>, sep: string): string {
    if |items| == 0 then ""
    else if |items| == 1 then items[0]
    else items[0] + sep + Join(items[1..], sep)
  }

  /**
   * Lexicographic order by character (code point), a proper prefix first.
   * This is the order `Array.prototype.sort()` uses for strings without a
   * comparator (UTF-16 code units) for every string without characters above
   * U+FFFF.
   */
  predicate LexLt(a: string, b: string)
    decreases |a|
  {
    if |b| == 0 then false
    else if |a| == 0 then true
    else a[0] < b[0] || (a[0] == b[0] && LexLt(a[1..], b[1..]))
  }

  predicate LexLe(a: string, b: string) {
    a == b || LexLt(a, b)
  }

  lemma {:induction false} LexLtIrreflexive(a: string)
    ensures !LexLt(a, a)
    decreases |a|
  {
    if |a| > 0 {
      LexLtIrreflexive(a[1..]);
    }
  }

  lemma {:induction false} LexLtTransitive(a: string, b: string, c: string)
    requires LexLt(a, b) && LexLt(b, c)
    ensures LexLt(a, c)
    decreases |a|
  {
    if |a| > 0 && a[0] == b[0] && b[0] == c[0] {
      LexLtTransitive(a[1..], b[1..], c[1..]);
    }
  }

  lemma {:induction false} LexLtTotal(a: string, b: string)
    ensures a == b || LexLt(a, b) || LexLt(b, a)
    decreases |a|
  {
    if |a| > 0 && |b| > 0 && a[0] == b[0] {
      LexLtTotal(a[1..], b[1..]);
      if a[1..] == b[1..] {
        assert a == [a[0]] + a[1..] && b == [b[0]] + b[1..];
      }
    }
  }

  lemma LexLtAsymmetric(a: string, b: string)
    requires LexLt(a, b)
    ensures !LexLt(b, a)
  {
    if LexLt(b, a) {
      LexLtTransitive(a, b, a);
      LexLtIrreflexive(a);
    }
  }

  lemma LexLeTotal(a: string, b: string)
    ensures LexLe(a, b) || LexLe(b, a)
  {
    LexLtTotal(a, b);
  }

  lemma LexLeTransitive(a: string, b: string, c: string)
    requires LexLe(a, b) && LexLe(b, c)
    ensures LexLe(a, c)
  {
    if a != b && b != c {
      LexLtTransitive(a, b, c);
    }
  }
}

=== FILE: types.dfy ===
/**
 * The records the aggregation pipeline passes around: resources and their
 * trust metadata, resource cards, the list response, the external-service
 * shapes of the open-data connector, and the collaborators (clock, HTTP,
 * store) the pipeline is parameterised by. These carry no behaviour of their
 * own, apart from the names the JSON encoding uses for the enumerations.
 */
module Types {
  import opened Wrappers

  datatype Category = Food | Housing | Health | Legal | Employment | Education {
    function Name(): string {
      match this
      case Food => "food"
      case Housing => "housing"
      case Health => "health"
      case Legal => "legal"
      case Employment => "employment"
      case Education => "education"
    }
  }

  datatype AvailabilityStatus = Unknown | Open | Limited | Full | Waitlist {
    function Name(): string {
      match this
      case Unknown => "unknown"
      case Open => "open"
      case Limited => "limited"
      case Full => "full"
      case Waitlist => "waitlist"
    }
  }

  datatype Badge = VerifiedPartner | VerifiedApi | Community | Unverified {
    function Name(): string {
      match this
      case VerifiedPartner => "verified_partner"
      case VerifiedApi => "verified_api"
      case Community => "community"
      case Unverified => "unverified"
    }
  }

  /** `FreshnessUnknown` is the state the JSON encoding calls "unknown". */
  datatype FreshnessState = Fresh | Aging | Stale | FreshnessUnknown {
    function Name(): string {
      match this
      case Fresh => "fresh"
      case Aging => "aging"
      case Stale => "stale"
      case FreshnessUnknown => "unknown"
    }
  }

  /** A JavaScript number that may be `NaN`; the confidence score of an unparseable timestamp is `NaN`. */
  datatype Score = NaN | Num(value: real)

  /** The precomputed trust fields a resource row may carry (all nullable). */
  datatype Trust = Trust(
    availabilityStatus: Option<AvailabilityStatus>,
    lastConfirmedAt: Option<string>,
    confirmationSource: Option<string>,
    confidenceScore: Option<real>,
    verificationBadge: Option<Badge>,
    dataSourceLabel: Option<string>,
    freshnessState: Option<FreshnessState>)

  const NoTrust := Trust(None, None, None, None, None, None, None)

  /** A resource row, with the optional trust fields the repository attaches. */
  datatype Resource = Resource(
    id: string,
    name: string,
    description: Option<string>,
    categories: seq<Category>,
    eligibility: Option<string>,
    address: Option<string>,
    city: Option<string>,
    state: string,
    zip: Option<string>,
    latitude: Option<real>,
    longitude: Option<real>,
    phone: Option<string>,
    website: Option<string>,
    applicationGuide: Option<string>,
    verified: bool,
    source: Option<string>,
    sourceId: Option<string>,
    organizationName: Option<string>,
    organizationId: Option<string>,
    email: Option<string>,
    languages: Option<seq<string>>,
    interpretationServices: Option<seq<string>>,
    accessibility: Option<seq<string>>,
    fees: Option<string>,
    schedule: Option<string>,
    serviceArea: Option<string>,
    lastVerifiedAt: Option<string>,
    dataSourceUrl: Option<string>,
    createdAt: string,
    updatedAt: string,
    trust: Trust)

  /** `Partial<Resource>`: every field may be missing. */
  datatype Draft = Draft(
    id: Option<string>,
    name: Option<string>,
    description: Option<string>,
    categories: Option<seq<Category>>,
    eligibility: Option<string>,
    address: Option<string>,
    city: Option<string>,
    state: Option<string>,
    zip: Option<string>,
    latitude: Option<real>,
    longitude: Option<real>,
    phone: Option<string>,
    website: Option<string>,
    applicationGuide: Option<string>,
    verified: Option<bool>,
    source: Option<string>,
    sourceId: Option<string>,
    organizationName: Option<string>,
    organizationId: Option<string>,
    email: Option<string>,
    languages: Option<seq<string>>,
    interpretationServices: Option<seq<string>>,
    accessibility: Option<seq<string>>,
    fees: Option<string>,
    schedule: Option<string>,
    serviceArea: Option<string>,
    lastVerifiedAt: Option<string>,
    dataSourceUrl: Option<string>,
    createdAt: Option<string>,
    updatedAt: Option<string>)

  /** The presentation projection of a resource with its derived trust fields. */
  datatype CardDTO = CardDTO(
    id: string,
    name: string,
    description: Option<string>,
    categories: seq<Category>,
    eligibility: Option<string>,
    address: Option<string>,
    city: Option<string>,
    state: string,
    zip: Option<string>,
    latitude: Option<real>,
    longitude: Option<real>,
    phone: Option<string>,
    website: Option<string>,
    applicationGuide: Option<string>,
    organizationName: Option<string>,
    serviceArea: Option<string>,
    source: Option<string>,
    sourceId: Option<string>,
    availabilityStatus: AvailabilityStatus,
    lastConfirmedAt: Option<string>,
    confirmationSource: Option<string>,
    confidenceScore: Option<Score>,
    verified: bool,
    verificationBadge: Badge,
    dataSourceLabel: string,
    lastVerifiedAt: Option<string>,
    freshnessState: FreshnessState,
    createdAt: string,
    updatedAt: string)

  /** `ResourceFiltersInput`: the validated query of the list endpoint. */
  datatype Filters = Filters(
    categories: Option<seq<Category>>,
    search: Option<string>,
    city: Option<string>,
    state: Option<string>,
    zip: Option<string>,
    eligibility: Option<seq<string>>,
    verified: Option<bool>,
    openNow: Option<bool>,
    verifiedRecently: Option<bool>,
    nearLat: Option<real>,
    nearLng: Option<real>,
    nearRadiusMiles: Option<real>,
    source: Option<string>,
    limit: int,
    offset: int)

  datatype ListFreshness = ListFreshness(
    oldestConfirmationAt: Option<string>,
    staleCount: nat,
    unknownCount: nat)

  /** What the aggregation computes and caches; the source mix is an object, its entries in insertion order. */
  datatype ListBody = ListBody(
    data: seq<CardDTO>,
    count: nat,
    freshness: ListFreshness,
    sourceMix: seq<(string, nat)>)

  /** `ResourceListResponse`: the cached body plus whether it came from the cache. */
  datatype ListResponse = ListResponse(body: ListBody, cached: bool)

  /** The connector's request counters. */
  datatype RateLimitState = RateLimitState(
    requestsToday: int,
    requestsThisMinute: int,
    lastRequestTimestamp: int,
    resetAt: int)

  datatype RateLimitConfig = RateLimitConfig(requestsPerDay: int, requestsPerMinute: int)

  datatype PhoneType = Voice | Fax | Tty | Sms

  /** A raw NYC 311 service record as the API returns it (fields the connector reads). */
  datatype Raw311 = Raw311(
    uniqueId: string,
    serviceName: string,
    serviceDescription: Option<string>,
    agencyResponsible: Option<string>,
    address: Option<string>,
    city: Option<string>,
    state: Option<string>,
    zipcode: Option<string>,
    latitude: Option<real>,
    longitude: Option<real>,
    phone: Option<string>,
    website: Option<string>,
    email: Option<string>,
    fees: Option<string>,
    accessibility: Option<string>,
    languages: Option<string>,
    hours: Option<string>,
    eligibility: Option<string>,
    serviceArea: Option<string>)

  /** The canonical record of an external connector, before it becomes a resource. */
  datatype ExternalService = ExternalService(
    sourceId: string,
    source: string,
    name: string,
    description: Option<string>,
    organizationName: Option<string>,
    organizationId: Option<string>,
    address: Option<string>,
    city: Option<string>,
    state: string,
    zip: Option<string>,
    latitude: Option<real>,
    longitude: Option<real>,
    phone: Option<string>,
    phoneType: Option<PhoneType>,
    website: Option<string>,
    email: Option<string>,
    eligibility: Option<string>,
    fees: Option<string>,
    schedule: Option<string>,
    serviceArea: Option<string>,
    languages: seq<string>,
    interpretationServices: seq<string>,
    accessibility: seq<string>,
    lastVerifiedAt: Option<string>,
    dataSourceUrl: Option<string>)

  datatype ExternalFilters = ExternalFilters(
    search: Option<string>,
    city: Option<string>,
    zip: Option<string>,
    category: Option<string>,
    state: Option<string>,
    limit: Option<int>,
    offset: Option<int>)

  datatype ConnectorResponse<T> = ConnectorResponse(
    success: bool,
    data: Option<T>,
    error: Option<string>,
    source: string)

  datatype SyncResult = SyncResult(
    success: bool,
    imported: nat,
    updated: nat,
    errors: seq<string>,
    source: string)

  /** Query parameters of an outbound request, in insertion order. */
  type Query = seq<(string, string)>

  /**
   * What `fetch` followed by `response.json()` produced: a rejected fetch,
   * a non-OK status with its body text, a body that was not JSON, or a JSON
   * body (`None` for a JSON `null`).
   */
  datatype Reply<T> =
    | NetworkError(message: string)
    | HttpError(status: nat, text: string)
    | BadJson(message: string)
    | Body(data: Option<T>)

  /**
   * The clock: the current time in milliseconds and as an ISO string, the
   * next local midnight, and `new Date(s).getTime()` (`None` for `NaN`).
   */
  datatype Clock = Clock(
    nowMs: int,
    nowIso: string,
    nextMidnightMs: int,
    parseMs: string -> Option<int>)
}

=== FILE: urlsafety.dfy ===
/**
 * The host allow-list that guards outbound fetches: only http(s) URLs whose
 * host is, or is a subdomain of, an allowed host, and never one of four
 * listed local names.
 */
module UrlSafety {
  import opened Wrappers
  import opened Text

  /** The parts of a parsed URL the check reads. */
  datatype Url = Url(protocol: string, hostname: string)

  /** The four refused host names, compared literally with the lower-cased host. */
  const DisallowedHosts: set<string> := {"localhost", "127.0.0.1", "0.0.0.0", "::1"}

  /** `host` is `allowed` or a subdomain of it. */
  predicate HostMatches(host: string, allowed: string) {
    host == allowed || IsSuffix("." + allowed, host)
  }

  predicate SomeHostMatches(host: string, allowedHosts: seq<string>) {
    exists i | 0 <= i < |allowedHosts| :: HostMatches(host, allowedHosts[i])
  }

  /**
   * `isSafePublicUrl`, given the URL as parsed (`None` when the URL
   * constructor throws): false for an unparseable URL, a protocol other than
   * `http:` or `https:`, a lower-cased host that is one of the four listed names, or an
   * empty allow-list; otherwise true iff the lower-cased host matches some
   * allowed host.
   */
  function IsSafePublicUrl(url: Option<Url>, allowedHosts: seq<string>): (safe: bool)
    ensures url.None? ==> !safe
    ensures url.Some? && url.value.protocol != "http:" && url.value.protocol != "https:" ==> !safe
    ensures url.Some? && ToLower(url.value.hostname) in DisallowedHosts ==> !safe
    ensures |allowedHosts| == 0 ==> !safe
    ensures safe <==>
      && url.Some?
      && (url.value.protocol == "http:" || url.value.protocol == "https:")
      && ToLower(url.value.hostname) !in DisallowedHosts
      && SomeHostMatches(ToLower(url.value.hostname), allowedHosts)
  {
    if url.None? then false
    else if url.value.protocol != "http:" && url.value.protocol != "https:" then false
    else
      var host := ToLower(url.value.hostname);
      if host in DisallowedHosts then false
      else if |allowedHosts| == 0 then false
      else AnyMatch(host, allowedHosts)
  }

  /** `allowedHosts.some(...)`, scanning from the front. */
  function AnyMatch(host: string, allowedHosts: seq<string>): (r: bool)
    ensures r <==> SomeHostMatches(host, allowedHosts)
  {
    if |allowedHosts| == 0 then false
    else if HostMatches(host, allowedHosts[0]) then true
    else
      var r := AnyMatch(host, allowedHosts[1..]);
      assert forall i | 1 <= i < |allowedHosts| :: allowedHosts[i] == allowedHosts[1..][i - 1];
      r
  }

  /** Allowing more hosts never rejects a URL that was accepted. */
  lemma AllowListMonotone(url: Option<Url>, allowed: seq<string>, more: seq<string>)
    requires forall h | h in allowed :: h in more
    ensures IsSafePublicUrl(url, allowed) ==> IsSafePublicUrl(url, more)
  {
    if IsSafePublicUrl(url, allowed) {
      var host := ToLower(url.value.hostname);
      var i :| 0 <= i < |allowed| && HostMatches(host, allowed[i]);
      assert allowed[i] in more;
      var j :| 0 <= j < |more| && more[j] == allowed[i];
    }
  }

  /** One of the four listed names is refused whatever the allow-list holds, even the name itself. */
  lemma LoopbackAlwaysRefused(protocol: string, hostname: string, allowedHosts: seq<string>)
    requires ToLower(hostname) in DisallowedHosts
    ensures !IsSafePublicUrl(Some(Url(protocol, hostname)), allowedHosts)
  {
  }

  /**
   * Only the four names are refused, not every loopback address: another
   * loopback address passes when the allow-list names it.
   */
  lemma OtherLoopbackAddressAccepted()
    ensures IsSafePublicUrl(Some(Url("http:", "127.0.0.2")), ["127.0.0.2"])
  {
    assert HostMatches(ToLower("127.0.0.2"), ["127.0.0.2"][0]);
  }

  /**
   * A parsed URL's `hostname` keeps the brackets of an IPv6 address, so the
   * listed `::1` never matches it: `http://[::1]/` passes when the allow-list
   * names `[::1]`.
   */
  lemma BracketedIpv6LoopbackAccepted()
    ensures IsSafePublicUrl(Some(Url("http:", "[::1]")), ["[::1]"])
  {
    assert HostMatches(ToLower("[::1]"), ["[::1]"][0]);
  }

  /** A subdomain of an allowed host is accepted over http(s), unless it is one of the four listed names. */
  lemma SubdomainAccepted(protocol: string, sub: string, allowed: string, allowedHosts: seq<string>)
    requires protocol == "http:" || protocol == "https:"
    requires allowed in allowedHosts
    requires ToLower(sub + "." + allowed) == sub + "." + allowed
    requires sub + "." + allowed !in DisallowedHosts
    ensures IsSafePublicUrl(Some(Url(protocol, sub + "." + allowed)), allowedHosts)
  {
    var host := sub + "." + allowed;
    assert host[|host| - |"." + allowed|..] == "." + allowed;
    var i :| 0 <= i < |allowedHosts| && allowedHosts[i] == allowed;
    assert HostMatches(host, allowedHosts[i]);
  }
}

=== FILE: wrappers.dfy ===
/** The two ways the modelled code reports "no value" and "failed". */
module Wrappers {

  /** A nullable value: `None` stands for both `null` and `undefined`. */
  datatype Option<+T> = None | Some(value: T) {

    /** `this ?? default` for a non-nullable default. */
    function GetOr(default: T): T {
      match this
      case Some(v) => v
      case None => default
    }

    /** `this ?? other`: JavaScript's nullish coalescing (keeps `""`, `0` and `false`). */
    function OrElse(other: Option<T>): Option<T> {
      if Some? then this else other
    }
  }

  /** A thrown error or an error return, made explicit. */
  datatype Result<+R, +E> = Success(value: R) | Failure(error: E)
}
